=== FILE: README.md ===
# DeepResearch core, modelled in Dafny

DeepResearch answers a research question in several steps. A LangGraph graph
splits the question into tasks. Each task runs retrieval-augmented
generation (RAG) over indexed documents, and the answers are then merged.
This project models the control code around those steps as pure functions
over immutable data and proves what that code promises:

- **Graph service.** The streaming driver `stream_graph` is modelled as a
  fold over abstract race outcomes (`GraphService`). It uses the stop-signal
  poller (`StopSignalWaiter`), message copying (`CopyMessages`) and the LLM
  selection (`LlmFactory`).
- **RAG task.** This covers the adaptive relevance filter (`RelevanceFilter`),
  citation de-duplication and the outcome of `execute_task` (`RagTask`). It
  also covers the sequential and parallel research modes (`PerformResearch`)
  and the parallel synthesis transcript (`ParallelSynthesis`).
- **Chunkers.** The three copies of the greedy word chunker are each proved
  equal to one reference packing (`Chunking`, `FileChunker`,
  `EmbeddingProcessor`, `EmbeddingServiceProcessor`).
- **Frontend.** This covers the PDF split and file-size helpers (`PdfSplit`)
  and the local-storage map from profile to conversation (`LocalStorage`). It
  also covers the response-mode setting (`AppSettings`) and the chat session
  (`ChatSession`): its title rule, empty-query guard, Server-Sent Events frame
  parsing, status fold, history mapping and polling stop.
- **Database service.** Stop requests with a time to live and their routes
  (`StopRequests`), invocations and their routes (`Invocations`),
  conversations (`Conversations`) and stored-document entries
  (`DocumentsStored`).

**How I/O is modelled.** Everything the code obtains from outside becomes a
parameter. This covers:

- LLM replies, search hits and their failures (oracle records whose fields
  are `Result`s);
- the outcome of each `asyncio.wait` race;
- the values the stop condition returns, PDF page texts and text-file lines;
- the partitioner's elements;
- the clock, fresh uuids and the JSON codec.

A database table is the list of its rows in insertion order. A lookup takes
the first matching row. A listing sorts stably, so rows with equal sort keys
keep insertion order.

**Stream framing.** A frame is `data: <json>\n\n`. This is the event-stream
format of section 9.2 of the WHATWG HTML Living Standard. `ChatSession`
proves that the client, given a JSON codec that reads back what it wrote,
folds exactly the events the server emitted (`ChatSession.ClientSeesServerEvents`).

**Where the components disagree.** Two facts are proved as written rather
than repaired:

- The chat client sends its user turns with role `"human"`, but the graph
  service accepts only `"user"` and `"ai"`. So any follow-up question that
  carries an earlier user turn ends in an `error` event
  (`ChatSession.HistoryAcceptedIffNoUserMessage`).
- The server puts the error text of an `error` event under `event_data`, but
  the client reads `event_value.error`. So the client always records no error
  message (`ChatSession.ServerTerminalsOnClient`).

**Further behaviour of the code that the model keeps:**

- The driver writes no checkpoints and does not delete the stop request
  when it exits. Stopping means that the id is no longer in the in-memory
  set `_invocations` (`graph_service/service/graph_service.py:38`, `:108`,
  `:271`).
- The invocations router calls service functions whose names do not appear
  in `database_service/service/database_service.py`. The routes are modelled
  on the semantics of the functions in that file.

## Model

| member | source | states |
|---|---|---|
| GraphService.Launch | graph_service/service/graph_service.py:117-130 | launching a step marks it pending, zeroes the node's elapsed time and resets the stop waiter; the invocation id and graph state are kept |
| GraphService.CustomEvent | graph_service/service/graph_service.py:201-216 | a custom payload becomes an event whose type is the payload's "type" (or "none" when missing) and whose value is the payload with exactly the "type" key removed |
| GraphService.Step | graph_service/service/graph_service.py:140-232 | in one race, a finished stop task always ends the stream with `stopped`, even when the step also finished; otherwise at most one non-terminal event is emitted, carrying the invocation id; a terminal event never leaves the stream suspended; the step stays pending exactly when it is still running |
| GraphService.Loop | graph_service/service/graph_service.py:119-243 | the loop never emits `graph_start`; every event carries the invocation id; only the last event can be terminal; the exit kind (completed, stopped, failed) matches that last event |
| GraphService.ConvertMessages | graph_service/service/graph_service.py:68-78 | conversion succeeds iff every role is "user" or "ai"; user becomes Human and ai becomes AI, in order, with the same content; otherwise the error names the first message with another role, rendered as pydantic prints it |
| PyRepr.Repr | graph_service/service/graph_service.py:78 | a field is shown between the quotes `repr` picks, the same at both ends: double quotes when the text holds a single quote and no double quote, single quotes otherwise |
| PyRepr.ReprRoundTrip | graph_service/service/graph_service.py:78 | reading back the escapes between the quotes gives the original text, so the rendering loses, adds and changes nothing |
| PyRepr.PlainTextIsQuoted | graph_service/model/raw_chat_message.py:4-13 | text with no quote, backslash or unprintable Latin-1 character is shown as itself between single quotes |
| PyRepr.ApostropheUsesDoubleQuotes | graph_service/service/graph_service.py:78 | text with one single quote and otherwise plain, such as `What's up`, is shown between double quotes with the single quote unescaped |
| GraphService.StreamGraph | graph_service/service/graph_service.py:41-271 | the first event is `graph_start` with the fresh id and no later event is; the trace is well shaped; once the stream ends the id has left the active set, so "stop requested" holds, and while it is suspended the id is active |
| GraphService.TerminalCount | graph_service/service/graph_service.py:234-268 | a well-shaped trace holds exactly one terminal event once it has ended, and none while it is suspended |
| GraphService.ExactlyOneTerminal | graph_service/service/graph_service.py:234-271 | every finished invocation emits exactly one terminal event, and it is the last |
| GraphService.StopWinsTies | graph_service/service/graph_service.py:145-155 | when the stop task is done, the whole remaining trace is a single `stopped` event, whatever the step did in the same race |
| GraphService.HeartbeatKeepsStep | graph_service/service/graph_service.py:220-232 | a timeout emits `heartbeat`, adds the heartbeat interval to the node's elapsed time and keeps the same pending step, without relaunching it |
| GraphService.LaunchResets | graph_service/service/graph_service.py:119-130 | when no step is pending, the next race starts from a relaunched step whose elapsed time and waiter budget are zero |
| GraphService.StallEndsInGraphComplete | graph_service/service/graph_service.py:220-243 | twenty consecutive timeouts on one step (per-node limit divided by heartbeat interval) give twenty heartbeats and then `graph_complete` with the current state, not `stopped` |
| GraphService.UpdateCompletesNode | graph_service/service/graph_service.py:182-199 | an "updates" output emits `node_complete` named by the first key, takes that key's value as the new state and clears the pending step |
| GraphService.CustomIsRelayed | graph_service/service/graph_service.py:201-218 | a "custom" output emits the relayed custom event and clears the pending step, leaving the state unchanged |
| GraphService.InvalidRoleIsError | graph_service/service/graph_service.py:256-268 | a message whose role is not "user" or "ai" ends the invocation right after `graph_start` with an `error` event whose text sits under "event_data" and not "event_value"; the id leaves the active set |
| StopSignalWaiter.AdvanceByElapsed | graph_service/utils/stop_signal_waiter.py:29-30 | each false poll adds exactly the poll interval to the elapsed time |
| StopSignalWaiter.Run | graph_service/utils/stop_signal_waiter.py:21-32 | polling stops at the first true condition, which returns True without advancing time for that poll; False is returned only once the elapsed time has reached the maximum, after every poll was false; the number of polls never exceeds the remaining budget |
| StopSignalWaiter.Reset | graph_service/utils/stop_signal_waiter.py:35-36 | reset zeroes the elapsed time and keeps the maximum time and the poll interval |
| StopSignalWaiter.RunElapsed | graph_service/utils/stop_signal_waiter.py:25-30 | after a run, the elapsed time has grown by one poll interval per false poll, that is, per poll except the final true one |
| StopSignalWaiter.StopObservedImmediately | graph_service/utils/stop_signal_waiter.py:25-27 | a condition that is true at the first poll gives True after one poll, with the waiter unchanged |
| StopSignalWaiter.PollBound | graph_service/utils/stop_signal_waiter.py:16-30 | from zero elapsed time the condition is polled at most ceil(max_time / poll_interval) times, and never when max_time ≤ 0 |
| StopSignalWaiter.SpentBudgetIsShared | graph_service/utils/stop_signal_waiter.py:21-32 | a run that returned False leaves no budget: a second run without a reset polls nothing and returns False |
| StopSignalWaiter.ResetRestoresBudget | graph_service/utils/stop_signal_waiter.py:35-36 | after a reset, a positive maximum time allows at least one poll again |
| CopyMessages.CopyMessages | graph_service/utils/copy_messages.py:11-28 | the copy fails iff some message is of another kind, and the error names the first such message's type; otherwise it is the input in order, with system messages dropped unless they are included |
| CopyMessages.CopyKeepsAllWithSystem | graph_service/utils/copy_messages.py:17-27 | when system messages are included, a successful copy equals its input and so has the same length |
| CopyMessages.CopyIdempotent | graph_service/utils/copy_messages.py:11-28 | copying a copy gives the same result as copying once |
| CopyMessages.CopyRawMessages | graph_service/utils/copy_messages.py:31-48 | roles "system", "human" and "ai" map to those kinds in order, with the same system filter; the copy fails iff some role is different, and the error names the first such role |
| CopyMessages.CopyRawKeepsAllWithSystem | graph_service/utils/copy_messages.py:31-48 | with system messages included, a successful conversion keeps every message, each of the kind its role names |
| LlmFactory.Selected | graph_service/llm/llm_factory.py:10 | a missing or empty selection falls back to the configured default; any other selection is used as given |
| LlmFactory.GetLlm | graph_service/llm/llm_factory.py:7-25 | the selection "ollama" gives Ollama and "claude" gives Claude; every other value fails with the "Unknown model selection" message naming it |
| LlmFactory.ShippedDefaultRaises | graph_service/config.py:35-38 | with the shipped default "openai", a call without a selection fails |
| LlmFactory.ExplicitSelectionIgnoresDefault | graph_service/llm/llm_factory.py:10-25 | a non-empty selection gives the same outcome whatever the default is |
| RelevanceFilter.Scores | graph_service/service/rag_task_service.py:168 | the score list has one entry per document, in order |
| RelevanceFilter.MeanBounds | graph_service/service/rag_task_service.py:170 | the mean of the scores lies between their minimum and maximum |
| RelevanceFilter.Median | graph_service/service/rag_task_service.py:171 | the median lies between the minimum and the maximum score |
| RelevanceFilter.ModeIndex | graph_service/service/rag_task_service.py:173-174 | the mode's position holds a score that occurs at least as often as any other, and no earlier score occurs as often; ties go to the first occurrence, as `Counter.most_common` breaks them |
| RelevanceFilter.Mode | graph_service/service/rag_task_service.py:174 | the mode is one of the scores and lies between the minimum and the maximum |
| RelevanceFilter.ModeFirstOccurrence | graph_service/service/rag_task_service.py:173-174 | no score before the mode's position equals the mode |
| RelevanceFilter.Threshold | graph_service/service/rag_task_service.py:181-184 | the threshold is at least 0.3, and it is either 0.3 or 0.8 × max(mean, median, mode) |
| RelevanceFilter.ThresholdAtMostTop | graph_service/service/rag_task_service.py:181-184 | when the top score reaches 0.3, the threshold does not exceed the top score |
| RelevanceFilter.Kept | graph_service/service/rag_task_service.py:191-194 | every kept document scores at least the threshold |
| RelevanceFilter.KeptMembers | graph_service/service/rag_task_service.py:191-194 | a document is kept iff it is in the input and scores at least the threshold, and none is kept more often than it occurs |
| RelevanceFilter.Ranked | graph_service/service/rag_task_service.py:196 | the ranked list is the kept list reordered by descending score |
| RelevanceFilter.FilterAbove | graph_service/service/rag_task_service.py:191-199 | the result is a prefix of the ranked list, whole when there is no cap and of length min(cap, kept) otherwise; it is descending, over the threshold, and a sub-multiset of the input |
| RelevanceFilter.FilterByScore | graph_service/service/rag_task_service.py:161-206 | no documents give none; otherwise every kept document scores at least the threshold, which is at least 0.3; the output is descending, a sub-multiset of the input and no longer than the cap |
| RelevanceFilter.KeepsExactlyAboveThreshold | graph_service/service/rag_task_service.py:168-196 | without a cap, the filter keeps exactly the documents whose score reaches the threshold, each as often as in the input |
| RelevanceFilter.StableAmongEqualScores | graph_service/service/rag_task_service.py:196 | documents with equal scores keep their input order, because the sort is stable |
| RelevanceFilter.CapIsPrefix | graph_service/service/rag_task_service.py:198-199 | a capped result is a prefix of the uncapped one |
| RelevanceFilter.TopDocumentKept | graph_service/service/rag_task_service.py:181-199 | when the top score reaches 0.3 and the cap allows one document, the first kept document has the top score |
| RelevanceFilter.RagCap | graph_service/service/rag_task_service.py:280-283 | with the cap of 25 used by `execute_task`, at most 25 documents are kept |
| Sorting.SortDescending | graph_service/service/rag_task_service.py:196 | the reverse sort by key yields a descending permutation of its input |
| Sorting.SortStable | graph_service/service/rag_task_service.py:196 | among items with equal keys the sort keeps the input order |
| Sorting.SortIsStableDescending | database_service/service/database_service.py:47-51 | the sort gives a descending order that keeps equal keys in input order, and it is the only sequence of the input's items with both properties |
| RagTask.OrMinusOne | graph_service/service/rag_task_service.py:135-136 | the `or -1` fallback yields -1 for a missing or zero value and the value itself otherwise |
| RagTask.CiteOf | graph_service/service/rag_task_service.py:133-154 | a citation's key is the (collection, filename, chunk index) key of its document |
| RagTask.FirstCitations | graph_service/service/rag_task_service.py:130-155 | scanning n documents yields at most n citations |
| RagTask.ExtractCitations | graph_service/service/rag_task_service.py:125-158 | the citation list is never longer than the document list |
| RagTask.IsFirstIffUnseen | graph_service/service/rag_task_service.py:141-155 | a document is cited iff its key is not among the keys seen before it, and the seen set then gains its key |
| RagTask.FirstCitationsKeys | graph_service/service/rag_task_service.py:130-155 | the citations have pairwise distinct keys, and their keys are exactly the keys of the documents scanned |
| RagTask.FirstCitationsSound | graph_service/service/rag_task_service.py:133-155 | the citations are the first occurrences of each key, in input order |
| RagTask.ExtractCitationsFirstPerKey | graph_service/service/rag_task_service.py:125-158 | one citation per distinct key: the keys are distinct, cover every document's key, and each citation is the first document with its key, and the citations follow the order in which their keys first appear |
| RagTask.FirstCitationsOrdered | graph_service/service/rag_task_service.py:125-158 | of two citations, the earlier one's key first appears in an earlier document than the later one's |
| RagTask.ExtractCitationsLoop | graph_service/service/rag_task_service.py:130-158 | the loop with a seen-set computes the reference citation list |
| RagTask.FalsyIndexBecomesMinusOne | graph_service/service/rag_task_service.py:134-141 | a chunk index or page number of 0 or None becomes -1 in both the citation and its key |
| RagTask.ZeroAndMissingChunkCollide | graph_service/service/rag_task_service.py:136-155 | chunk index 0 and a missing chunk index of the same file give one citation, not two |
| RagTask.Summarized | graph_service/service/rag_task_service.py:285-293 | every retrieved document gets its own summary, attached in place, in order |
| RagTask.Retrieve | graph_service/service/rag_task_service.py:269-283 | a successful retrieval holds at most 25 documents |
| RagTask.ExecuteTask | graph_service/service/rag_task_service.py:255-377 | the entry names its task; a failed entry has a result text and no citations; a successful one has a result and reasoning |
| RagTask.SuccessIff | graph_service/service/rag_task_service.py:269-369 | the task succeeds iff retrieval succeeds, there are documents or the general-knowledge fallback is allowed, and the answer call succeeds |
| RagTask.ExceptionBecomesFailedEntry | graph_service/service/rag_task_service.py:370-377 | a failure of the query generation, the search or the answer call becomes a failed entry whose result is that error text, with no citations |
| RagTask.NoDocumentsWithoutFallback | graph_service/service/rag_task_service.py:299-312 | no documents with the fallback disallowed gives the "No relevant documents found." entry, unsuccessful and without citations |
| RagTask.EmptyRetrievalFallsBack | graph_service/service/rag_task_service.py:314-337 | no documents with the fallback allowed adds the no-sources note to the prompt and yields no citations |
| RagTask.SuccessfulCitations | graph_service/service/rag_task_service.py:285-298 | an entry's citations are at most 25, have distinct keys, all name the collection, and on success are exactly the extracted citations of the retrieved documents |
| PerformResearch.RunTask | graph_service/service/perform_research_service.py:167-174 | each task's entry names that task, and a successful entry has a result |
| PerformResearch.ExecuteInParallel | graph_service/service/perform_research_service.py:71-128 | the parallel mode returns one entry per decomposed task, in task order, and passes on a failed decomposition |
| PerformResearch.Gather | graph_service/service/perform_research_service.py:110-119 | gathering keeps length and order: entry i is task i run with its own oracle |
| PerformResearch.ParallelTasksIndependent | graph_service/service/perform_research_service.py:96-119 | entry i depends only on task i, its own oracle and its own copy of the chat history, not on the other tasks |
| PerformResearch.ParallelHistoryError | graph_service/service/perform_research_service.py:103-105 | a chat history that cannot be copied fails the parallel mode as soon as there is a task |
| PerformResearch.SequenceStep | graph_service/service/perform_research_service.py:162-190 | each step appends one entry for its task; a success grows the history by Human(task) then AI(result), and a failure leaves the history unchanged |
| PerformResearch.SequentialRunHistory | graph_service/service/perform_research_service.py:156-183 | after n tasks, the history is the start followed by the Human/AI exchanges of the successful entries, in order |
| PerformResearch.SequentialRunPrefix | graph_service/service/perform_research_service.py:156-190 | running more tasks only appends entries: the first m entries after n tasks are the entries after m tasks |
| PerformResearch.SequentialRunEntries | graph_service/service/perform_research_service.py:156-183 | entry k is task k run on the starting history plus the exchanges of the successful entries before it |
| PerformResearch.SequentialOutcome | graph_service/service/perform_research_service.py:131-190 | with the source's task runner, every entry names its task and ran on the starting history plus the earlier successes' exchanges, and the final history is that transcript |
| PerformResearch.ExecuteInSequence | graph_service/service/perform_research_service.py:131-200 | the sequential loop returns one entry per task in order; each ran on the starting copy plus the exchanges of earlier successes; the final history is that transcript |
| PerformResearch.HistoryLength | graph_service/service/perform_research_service.py:158-183 | the final history length is the start length plus twice the number of successful entries |
| PerformResearch.FailedTaskKeepsHistory | graph_service/service/perform_research_service.py:184-190 | a failed task leaves the history unchanged, and the loop still records its entry and goes on |
| ParallelSynthesis.NumberFromLines | graph_service/service/parallel_synthesis_service.py:181-184 | the numbering loop raises the AttributeError iff some payload is `null`; otherwise line i is "k+i. content" of document i |
| ParallelSynthesis.FormatDocumentContext | graph_service/service/parallel_synthesis_service.py:165-186 | formatting the context fails, with the AttributeError of `.get` on `None`, exactly when some document's payload is `null` |
| ParallelSynthesis.FormatDocumentContextLines | graph_service/service/parallel_synthesis_service.py:175-186 | a formatted context on n documents splits into the three header lines followed by n lines numbered 1..n with each payload's content: "" when the payload or content is missing and "None" when the content is `null` |
| ParallelSynthesis.NoDocumentsContext | graph_service/service/parallel_synthesis_service.py:169-173 | no documents gives exactly "No documents found for search query: <q>", without failing |
| ParallelSynthesis.ExecuteTask | graph_service/service/parallel_synthesis_service.py:189-238 | a task never raises: its entry names the task and has no citations; success carries result and reasoning, failure a result text and no reasoning |
| ParallelSynthesis.ExecuteTaskOutcome | graph_service/service/parallel_synthesis_service.py:195-238 | the task succeeds iff query generation, search, context formatting and the answer call all succeed; a failed step's error text becomes the result, a `null` payload gives the AttributeError text, a failed answer call gives its error, and a successful one gives the answer's result and reasoning |
| ParallelSynthesis.Opening | graph_service/service/parallel_synthesis_service.py:43-53 | the opening messages end with the decomposition system prompt and then the query |
| ParallelSynthesis.RunTasks | graph_service/service/parallel_synthesis_service.py:64-76 | there is one entry per decomposed task, in order, each run on the same history with its own oracle |
| ParallelSynthesis.ExchangesLayout | graph_service/service/parallel_synthesis_service.py:78-93 | for each entry, in order, the transcript gains Human(task) and then the AI reply |
| ParallelSynthesis.ReplyText | graph_service/service/parallel_synthesis_service.py:82-90 | the reply is "Result: …\n\nReasoning: …" for a success and "Error: …" for a failure |
| ParallelSynthesis.SummaryTranscriptLayout | graph_service/service/parallel_synthesis_service.py:78-106 | the summary transcript is the opening, then two messages per entry, then the summary prompt and Human("Generate the summary.") |
| ParallelSynthesis.TasksIndependent | graph_service/service/parallel_synthesis_service.py:64-76 | task i's entry depends only on its own oracle, the instructions and the shared history |
| ParallelSynthesis.TaskHistoryAliasesOpening | graph_service/service/parallel_synthesis_service.py:43-68 | when input messages are given, each task's history already ends with the decomposition prompt and the query, because the list is extended in place; otherwise it is empty |
| ParallelSynthesis.ExecuteParallelSynthesis | graph_service/service/parallel_synthesis_service.py:28-117 | a failed decomposition fails the synthesis; otherwise the task entries correspond one-to-one, in order, with the decomposed tasks |
| ParallelSynthesis.SynthesisResult | graph_service/service/parallel_synthesis_service.py:95-117 | the output is the summary of the full transcript together with the task entries, or the summary call's error |
| Chunking.PackSound | embedding-service/service/document_processor.py:24-43 | the greedy packing concatenates back to its input; every chunk is non-empty; a chunk's size stays within the limit unless it holds one word; a chunk is closed only when the next word would not fit |
| Chunking.PackUnique | embedding-service/processor/document_processor.py:60-79 | the packing is the only chunking with those four properties |
| Chunking.LoopComputesChunks | embedding-service/processor/document_processor.py:54-82 | the word-by-word loop with its flush of the last chunk computes the reference packing joined with spaces |
| Chunking.ChunksKeepWords | embedding-service/service/document_processor.py:25-43 | chunks of words are non-empty, and splitting the chunks again gives back the word sequence |
| Text.TrimEmptyIffBlank | frontend_service/src/composables/useChatSession.ts:280 | the trimmed query is empty iff the query consists only of white space |
| EmbeddingProcessor.PdfTextPieces | embedding-service/processor/document_processor.py:39-43 | PDF text is the page texts concatenated, each followed by "\n" |
| EmbeddingProcessor.PdfTextWords | embedding-service/processor/document_processor.py:36-43 | the words of the PDF text are the pages' words in page order |
| EmbeddingProcessor.ExtractText | embedding-service/processor/document_processor.py:23-51 | extraction fails with "Unsupported file format. Supported: .pdf, .txt" iff the path ends neither in .pdf nor in .txt |
| EmbeddingProcessor.ChunkText | embedding-service/processor/document_processor.py:54-82 | the chunks are the reference packing of the text's words; white-space-only text gives none; every chunk is non-empty and the chunks keep the words in order |
| EmbeddingProcessor.ProcessDocument | embedding-service/processor/document_processor.py:85-120 | one point per chunk, with chunk_index equal to its position, source_name the file name and content the chunk; an unsupported file fails |
| EmbeddingServiceProcessor.ExtractTextWords | embedding-service/service/document_processor.py:18-21 | the words of the joined text are the elements' words in order |
| EmbeddingServiceProcessor.ChunkText | embedding-service/service/document_processor.py:24-43 | this copy computes the same reference packing as the processor copy, with non-empty chunks that keep the words |
| EmbeddingServiceProcessor.ProcessDocument | embedding-service/service/document_processor.py:46-77 | one point per chunk of the elements' words, with chunk_index equal to its position and source_name the file name |
| FileChunker.PageWordsWords | embedding_service/processor/document_processor.py:39-43 | with the tags dropped, the page-tagged words are the pages' words in page order |
| FileChunker.PageWordsPages | embedding_service/processor/document_processor.py:39-43 | every tag is a page number between 1 and the page count |
| FileChunker.FeedPdfPack | embedding_service/processor/document_processor.py:43-67 | the PDF loop, from any state that tracks its open chunk, emits the reference packing of the remaining words, paged by their first word |
| FileChunker.ChunkPdf | embedding_service/processor/document_processor.py:31-67 | the PDF chunk loop computes the reference page-tagged chunking |
| FileChunker.PdfChunksAgree | embedding_service/processor/document_processor.py:35-67 | PDF chunk texts equal the reference chunks of all pages' words; the first chunk carries page -1, because the None check never fires; each later chunk carries a page between 1 and the page count |
| FileChunker.FeedLine | embedding_service/processor/document_processor.py:76-93 | feeding one line's words to the text loop gives the state the reference word feed reaches on all words seen so far plus that line's |
| FileChunker.ChunkTxt | embedding_service/processor/document_processor.py:69-99 | text-file chunks are the reference chunks of all lines' words, each with page number 1 |
| FileChunker.ChunkFile | embedding_service/processor/document_processor.py:24-105 | .pdf gives the PDF chunking; .txt gives the reference chunks of all lines' words, each with page 1; any other extension fails with the unsupported-format message |
| FileChunker.ProcessDocument | embedding_service/processor/document_processor.py:108-144 | chunk indices run 0, 1, 2, … in order; for .pdf and for .txt, point i carries the file name, chunk i's text, its page number (1 for .txt) and the custom metadata; unsupported files fail |
| PdfSplit.MaxFileSizeBytes | frontend_service/src/services/pdfSplitService.ts:20-22 | the limit is 50 × 1024 × 1024 = 52428800 bytes |
| PdfSplit.LimitIsInclusive | frontend_service/src/services/pdfSplitService.ts:25-27 | a file of exactly the limit is accepted and one byte more exceeds it |
| PdfSplit.Tenths | frontend_service/src/services/pdfSplitService.ts:35-37 | the tenths shown are the size in the unit rounded to the nearest tenth, an exact half going up, as `toFixed` does for the exact quotient |
| PdfSplit.FormatFileSize | frontend_service/src/services/pdfSplitService.ts:30-38 | below 1024 the text is exactly "<bytes> B"; below 1024² it is the KB value with one decimal; above that it is MB |
| PdfSplit.FormatFileSizeUnit | frontend_service/src/services/pdfSplitService.ts:30-38 | the text ends in " B", " KB" or " MB" exactly in the ranges below 1024, below 1024² and from 1024² on |
| PdfSplit.BaseName | frontend_service/src/services/pdfSplitService.ts:57 | the base name is the file name less a trailing ".pdf" in any letter case, which is removed exactly when present |
| PdfSplit.Range | frontend_service/src/services/pdfSplitService.ts:70-73 | the page indices are start, start+1, …, n of them |
| PdfSplit.PartsFromCount | frontend_service/src/services/pdfSplitService.ts:59-63 | from start page s the loop makes n parts, where n is the least count with s + n × pagesPerPart ≥ total; there are no parts iff s ≥ total |
| PdfSplit.PartsFromIndexed | frontend_service/src/services/pdfSplitService.ts:59-98 | part k is the part built for start page s + k × pagesPerPart |
| PdfSplit.SplitPdf | frontend_service/src/services/pdfSplitService.ts:48-102 | zero pages give no parts; every part records the page count and copies exactly the 0-based pages of its 1-based range, which lies within the document |
| PdfSplit.SplitPdfParts | frontend_service/src/services/pdfSplitService.ts:48-102 | there are ceil(total / pagesPerPart) parts; part k spans pages k×p+1 to min((k+1)×p, total), records the same total and is named "<base>_part<k+1>.pdf" |
| PdfSplit.SplitPdfTiles | frontend_service/src/services/pdfSplitService.ts:64-98 | zero pages give no parts; the 1-based ranges start at 1, end at the total and are contiguous; each has at most pagesPerPart pages, and all but the last have exactly that many |
| PdfSplit.PartsFromPages | frontend_service/src/services/pdfSplitService.ts:59-81 | the parts' page indices, concatenated, are exactly the pages from the start page to the end, once each and in order |
| PdfSplit.SplitPdfCoversPages | frontend_service/src/services/pdfSplitService.ts:70-77 | the parts copy every page 0..total−1 exactly once, in order |
| LocalStorage.SetSelectedProfile | frontend_service/src/composables/useLocalStorage.ts:10-12 | storing the selected profile adds only its key and leaves every other key unchanged |
| LocalStorage.GetSelectedProfile | frontend_service/src/composables/useLocalStorage.ts:6-8 | the selected profile is present iff its key is stored, and is then the stored value |
| LocalStorage.GetProfileConversations | frontend_service/src/composables/useLocalStorage.ts:14-24 | a missing, empty or unparseable stored map reads as the empty map, and a parseable one as the map it parses to |
| LocalStorage.GetConversationForProfile | frontend_service/src/composables/useLocalStorage.ts:26-29 | a profile has a conversation iff the stored map has an entry for it, and that entry is returned |
| LocalStorage.StoreConversations | frontend_service/src/composables/useLocalStorage.ts:38-40 | writing the map touches only the conversations key |
| LocalStorage.SetConversationForProfile | frontend_service/src/composables/useLocalStorage.ts:31-41 | setting a profile's conversation leaves every other storage key unchanged |
| LocalStorage.ClearConversationForProfile | frontend_service/src/composables/useLocalStorage.ts:43-50 | clearing a profile's conversation leaves every other storage key unchanged |
| LocalStorage.StoredMapReadsBack | frontend_service/src/composables/useLocalStorage.ts:14-24 | with a codec that reads back what it writes, the stored map reads back as written |
| LocalStorage.SetThenGet | frontend_service/src/composables/useLocalStorage.ts:26-41 | after setting p to c, the get for p returns c and every other profile reads as before |
| LocalStorage.ClearThenGet | frontend_service/src/composables/useLocalStorage.ts:43-50 | after clearing p, the get for p returns null and every other profile reads as before |
| LocalStorage.UnreadableCountsAsEmpty | frontend_service/src/composables/useLocalStorage.ts:14-41 | an unparseable stored map has no entries, and setting a profile on top of it leaves only that profile's entry |
| LocalStorage.SelectedProfileRoundTrip | frontend_service/src/composables/useLocalStorage.ts:6-12 | setting the selected profile and reading it back gives the same id, without touching the conversations |
| LocalStorage.ConversationWritesKeepSelection | frontend_service/src/composables/useLocalStorage.ts:31-50 | setting or clearing conversations leaves the selected profile unchanged |
| AppSettings.StoredResponseMode | frontend_service/src/composables/useAppSettings.ts:12-18 | the stored mode is "simple" iff exactly "simple" is stored; the result matches the stored text or is "decomposed" |
| AppSettings.InitializeSettings | frontend_service/src/composables/useAppSettings.ts:20-25 | without a window nothing changes; otherwise the mode becomes the stored mode and storage is untouched |
| AppSettings.SetResponseMode | frontend_service/src/composables/useAppSettings.ts:27-30 | setting a mode updates the in-memory mode and storage, so the next stored read returns it, and other keys stay unchanged |
| AppSettings.UseAppSettings | frontend_service/src/composables/useAppSettings.ts:32-39 | using the settings never writes storage |
| AppSettings.FreshPageIsDecomposed | frontend_service/src/composables/useAppSettings.ts:9-18 | with nothing stored the mode is "decomposed", with or without a window |
| AppSettings.SetSurvivesReload | frontend_service/src/composables/useAppSettings.ts:27-30 | a mode that was set is the mode a fresh page starts with |
| AppSettings.UseIsIdempotent | frontend_service/src/composables/useAppSettings.ts:32-39 | using the settings twice is using them once, and right after a set it changes nothing |
| ChatSession.Title | frontend_service/src/composables/useChatSession.ts:253-254 | a title is at most 53 characters; a message of up to 50 is its own title; a longer one gives its first 50 characters followed by "..." |
| ChatSession.TitleIsStable | frontend_service/src/composables/useChatSession.ts:253-254 | applying the title rule to a title changes nothing |
| ChatSession.ChatHistory | frontend_service/src/composables/useChatSession.ts:309-323 | the history has one entry per message, in order |
| ChatSession.HistoryContents | frontend_service/src/composables/useChatSession.ts:309-323 | a user message becomes role "human" with its text; an AI message becomes role "ai" whose content is empty iff the final result is missing or empty |
| ChatSession.HistoryAcceptedIffNoUserMessage | frontend_service/src/composables/useChatSession.ts:309-323 | the graph service accepts the client's history iff it holds no user message, since "human" is not among the roles it accepts |
| ChatSession.BeginSubmit | frontend_service/src/composables/useChatSession.ts:276-307 | a white-space-only query sets "Please enter a message" and sends nothing; otherwise the error is cleared, processing starts, the history is sent, and a title is made iff there is no current conversation |
| ChatSession.Pieces | frontend_service/src/composables/useChatSession.ts:415 | splitting a chunk on blank lines and dropping empty pieces leaves only non-empty pieces |
| ChatSession.SplitFrames | frontend_service/src/composables/useChatSession.ts:415 | splitting the server's frames on "\n\n" gives the data lines followed by one empty piece, when no payload holds a newline |
| ChatSession.FramePieces | frontend_service/src/composables/useChatSession.ts:415-418 | the non-empty pieces of the server's frames are exactly its "data: " lines, one per event |
| ChatSession.StatusFor | frontend_service/src/composables/useChatSession.ts:444-451 | only `graph_complete`, `stopped` and `error` set a status |
| ChatSession.OnEvent | frontend_service/src/composables/useChatSession.ts:424-451 | the status becomes the event's status or stays; an error event sets the message from event_value.error; once an id is recorded later events leave it |
| ChatSession.OnPieces | frontend_service/src/composables/useChatSession.ts:413-490 | once an id is set on the AI turn, the rest of a chunk records no other and keeps the same current id; a payload that fails to parse or parses to `null` drops the rest of the chunk |
| ChatSession.OnEventRecordsOnce | frontend_service/src/composables/useChatSession.ts:424-442 | one event keeps the invariant "no id recorded, or exactly the current id recorded once" |
| ChatSession.OnPiecesRecordsOnce | frontend_service/src/composables/useChatSession.ts:413-442 | the pieces of a chunk keep that invariant |
| ChatSession.OnStreamRecordsOnce | frontend_service/src/composables/useChatSession.ts:413-490 | a whole stream keeps that invariant |
| ChatSession.OnStream | frontend_service/src/composables/useChatSession.ts:413-490 | once an id is set on the AI turn, the rest of the stream records no other and keeps the same current id |
| ChatSession.StreamRecordsAtMostOnce | frontend_service/src/composables/useChatSession.ts:403-442 | during one stream the invocation id is recorded on the AI turn at most once, and it is the current id |
| ChatSession.OnJsonsStatus | frontend_service/src/composables/useChatSession.ts:444-451 | after a sequence of events the status is that of the last terminal event, or the initial one when there is none |
| ChatSession.OnDataLines | frontend_service/src/composables/useChatSession.ts:417-420 | with a faithful codec, decoding the data lines after removing the prefix and trimming gives back the server's events |
| ChatSession.ClientSeesServerEvents | frontend_service/src/composables/useChatSession.ts:413-420 | a chunk of server frames is folded exactly as the events the server emitted |
| ChatSession.ServerTerminalsOnClient | frontend_service/src/composables/useChatSession.ts:444-451 | the server's terminal events give completed, stopped and error; for error the client records no message, since the text is not under event_value |
| ChatSession.ProgressEventsKeepStatus | frontend_service/src/composables/useChatSession.ts:444-451 | `graph_start`, `heartbeat` and `node_complete` leave the status unchanged |
| ChatSession.Poll | frontend_service/src/composables/useChatSession.ts:43-91 | a poll stops polling on a terminal status or a missing message, and ends processing only on a terminal status of a found message; a failed fetch changes nothing |
| ChatSession.RunPolls | frontend_service/src/composables/useChatSession.ts:43-107 | polling goes on after a run of polls iff it was on and no poll stopped it; a stopped interval runs no poll; a message no longer processing never becomes processing again |
| ChatSession.PollingStopsAtFirstStop | frontend_service/src/composables/useChatSession.ts:73-87 | polling is over iff some poll saw a terminal status or a missing message; processing then ended if the message was found, and is untouched if no poll stopped |
| StopRequests.CreateStopRequest | database_service/service/invocation_stop_requests_service.py:12-29 | a created request expires 3600 s after it was created and is appended; a second row for the same id violates the primary key |
| StopRequests.GetStopRequest | database_service/service/invocation_stop_requests_service.py:32-40 | the get finds a row iff one has the id, and returns a row with that id |
| StopRequests.DeleteStopRequest | database_service/service/invocation_stop_requests_service.py:43-57 | delete returns False and changes nothing when the id is absent; otherwise it removes the row and returns True |
| StopRequests.DeleteExpiredStopRequests | database_service/service/invocation_stop_requests_service.py:60-71 | the sweep keeps the live rows and returns how many it removed |
| StopRequests.DeleteExpiredExactly | database_service/service/invocation_stop_requests_service.py:60-71 | the sweep removes exactly the rows with expiry ≤ now, returns their count, and keeps every other row |
| StopRequests.DeleteExpiredIdempotent | database_service/service/invocation_stop_requests_service.py:60-71 | a second sweep at the same time removes nothing |
| StopRequests.GetIgnoresExpiry | database_service/service/invocation_stop_requests_service.py:32-40 | the get returns an expired row too; only the sweep tells live from expired |
| StopRequests.RouteCreate | database_service/router/invocation_stop_requests_router.py:30-49 | create returns the existing request unchanged when there is one and creates one otherwise; the id stays unique |
| StopRequests.RouteGet | database_service/router/invocation_stop_requests_router.py:56-71 | the get route answers 404 "Stop request not found" iff there is no request |
| StopRequests.RouteDelete | database_service/router/invocation_stop_requests_router.py:77-98 | the delete route answers 404 iff there is no request, and otherwise the success message |
| StopRequests.CreateIsIdempotent | database_service/router/invocation_stop_requests_router.py:38-49 | creating twice, at any later time, returns the first record and adds no row |
| StopRequests.CreateThenGet | database_service/router/invocation_stop_requests_router.py:30-71 | after a create, the get returns what the create returned |
| StopRequests.DeleteTwiceIsNotFound | database_service/router/invocation_stop_requests_router.py:85-98 | a successful delete is followed by 404 for both the get and a second delete |
| Invocations.CreateInvocation | database_service/service/database_service.py:12-27 | the row stores the given fields under the profile argument and the current time; an existing id violates the primary key |
| Invocations.GetInvocation | database_service/service/database_service.py:30-38 | the get matches on both invocation id and profile id |
| Invocations.GetInvocations | database_service/service/database_service.py:41-51 | the listing is never longer than the limit, and it is the window from `skip` of length min(limit, remaining) of the stable newest-first order of the profile's rows |
| Invocations.ListingIsWindow | database_service/service/database_service.py:41-51 | the listing holds only the profile's rows, newest first; a stable newest-first order of them exists, and listed row i is its row skip + i; with no skip and a large limit it holds them all |
| Invocations.UpdateInvocation | database_service/service/database_service.py:54-77 | updating a missing invocation returns None and changes nothing; otherwise only the matching row changes, to the updated record |
| Invocations.UpdateKeepsOtherFields | database_service/service/database_service.py:69-77 | status and graph state are overwritten only when given, and id, profile, query and creation time never change |
| Invocations.DeleteInvocation | database_service/service/database_service.py:80-96 | delete returns False and changes nothing when missing; otherwise it removes the row and returns True |
| Invocations.DeleteThenGet | database_service/service/database_service.py:80-96 | after a delete the invocation is not found |
| Invocations.RouteCreate | database_service/router/invocations_router.py:31-67 | create answers 400 on a profile mismatch or an existing invocation, and succeeds iff the profiles match and the id is new, appending an owned row |
| Invocations.RouteGet | database_service/router/invocations_router.py:70-91 | the get route answers 404 iff the profile has no such invocation |
| Invocations.RouteUpdate | database_service/router/invocations_router.py:115-142 | the update route answers 404 and changes nothing iff the profile has no such invocation |
| Invocations.RouteDelete | database_service/router/invocations_router.py:145-169 | the delete route answers 404 iff missing, and otherwise the deletion message |
| Invocations.CreateThenGet | database_service/router/invocations_router.py:31-91 | a successful create keeps ids unique, and the get then returns the record created from the body |
| Invocations.MissingIsNotFound | database_service/router/invocations_router.py:70-169 | get, update and delete of a missing invocation all answer 404 and change nothing |
| Invocations.OtherProfilesAreHidden | database_service/router/invocations_router.py:70-169 | another profile's invocation is invisible: get answers 404, and update and delete leave the table unchanged |
| Conversations.CreateConversation | database_service/service/conversations_service.py:15-37 | a new conversation gets the fresh id and created_at = updated_at = now; a colliding id violates the primary key |
| Conversations.GetConversation | database_service/service/conversations_service.py:40-48 | the get matches on both conversation id and profile id |
| Conversations.GetConversations | database_service/service/conversations_service.py:51-65 | the listing is the stable most-recently-updated-first order of the profile's rows, or its first `limit` rows when a limit is given |
| Conversations.ListingIsOrdered | database_service/service/conversations_service.py:51-65 | the listing holds only the profile's conversations, most recently updated first, within the limit, and all of them when there is no limit; no conversation of the profile left out was updated later than a listed one |
| Conversations.UpdateConversation | database_service/service/conversations_service.py:68-93 | updating a missing conversation returns None and changes nothing; otherwise only the matching row changes, with the given fields and a fresh update time |
| Conversations.EmptyUpdateTouches | database_service/service/conversations_service.py:74-89 | an update without fields changes only updated_at |
| Conversations.DeleteConversation | database_service/service/conversations_service.py:96-113 | delete returns False and changes nothing when missing; otherwise it removes the row and returns True |
| Conversations.CreateGetDelete | database_service/service/conversations_service.py:15-113 | a created conversation is found under its profile, and after its delete it is gone |
| DocumentsStored.CreateDocumentStored | database_service/service/documents_stored_service.py:13-36 | the new entry has the fresh id and the given filename and profile, and is appended; a colliding id violates the primary key |
| DocumentsStored.DeleteDocumentStored | database_service/service/documents_stored_service.py:39-50 | delete removes every (filename, profile) match and reports True iff the table shrank |
| DocumentsStored.GetDocumentsByProfile | database_service/service/documents_stored_service.py:53-69 | an entry is listed iff it belongs to the profile, and no more often than it is stored |
| DocumentsStored.ListingFollowsTable | database_service/service/documents_stored_service.py:53-69 | the listing follows table order: the listing of two tables joined is the first's listing followed by the second's, and one entry is listed iff it belongs to the profile |
| DocumentsStored.DeleteReportsMatch | database_service/service/documents_stored_service.py:39-50 | delete reports True iff some entry matched, and afterwards none matches |
| DocumentsStored.DeleteKeepsOthers | database_service/service/documents_stored_service.py:44-47 | entries of other files or profiles survive, and other profiles' listings are unchanged |
| DocumentsStored.CreateThenList | database_service/service/documents_stored_service.py:13-69 | a created entry is listed under its profile as the last entry |

## Left out

- The asyncio machinery is not modelled: task creation and cancellation, `asyncio.wait` timing, `gather` scheduling and the queue relay. Each race outcome and each gathered result is an input.
- The stop waiter awaits `stop_condition()`, but the driver passes a plain lambda that returns a bool. The model gives the waiter the intended sequence of boolean answers.
- `execute_task` reads `page_number` and `content_summary` from a search-result model that does not declare them. The model gives documents those fields, as the code intends; a document that was never summarised gives its citation the `Citation` model's default summary, the empty string.
- LLM provider wrappers, prompt loading and `str.format` prompt rendering are outside the model; replies come from oracles. The wording of the RAG context (`_format_context`) and of the system message is not modelled. Only the no-sources note and the choice of history are.
- JSON text is not modelled. Events are abstract JSON values, and the codec is a parameter. The client-side round trip holds for any codec that reads back what it wrote, with payloads that contain no newline and have no surrounding white space, as `json.dumps` output has.
- The driver keeps the active invocations in an in-memory set; no checkpoint store and no stop-request deletion happen on exit, so none is modelled.
- `ParallelSynthesisOutput` declares different fields from the ones the code passes. The model keeps the result and the task entries the code passes.
- The embedding-service `ChunkMetadata` drops `custom_metadata`, and `embedding-service/service/document_processor.py` ignores its `metadata` argument. Neither is modelled.
- Embedding vectors and point ids are not modelled, because they come from the encoder and from `uuid4`. PDF parsing, `partition` and file reading are also left out: page texts, elements and lines are inputs.
- `embedding_service/processor/document_processor.py` reads a text file line by line. The model splits each line into words; a line break is white space either way, so only the word list matters.
- PdfSplit.SplitPdf: a `pagesPerPart` below 1 with at least one page makes the source loop run forever; the model requires pagesPerPart ≥ 1 when there are pages. `pagesPerPart` is a JavaScript number but is modelled as a natural number, so a fractional part size is not modelled.
- The PDF library calls in `splitPdf` and `getPageCount` are not modelled: loading, copying pages, saving bytes and building `File` objects. A part records its page indices in place of its file.
- LocalStorage.GetProfileConversations: `JSON.parse` of a stored value that is valid JSON but not an object is not distinguished. The codec's parse either gives a map or fails.
- The chat session's fetch calls are left out: the steps fetch during streaming and polling, the content update of the AI message, the chat-turn and conversation creation calls with their failure paths, `loadConversation`, `loadConversations`, and the failure of `updateChatTurn`. These are network round trips; the model keeps the state they feed.
- ChatSession.Title: JavaScript `substring` counts UTF-16 code units, and the model counts Dafny characters.
- Vue reactivity, timers and console logging are not modelled. Polling is a sequence of observations; a failed fetch is an observation with nothing fetched.
- GraphService.StreamGraph: the `GraphState` class in `graph_service/model/graph_state.py` declares other fields (a required `query`, no `user_query`, `profile_id` or `messages`), so as written the construction at `graph_service.py:82` would fail validation and `model_dump` would drop the extra fields. The model keeps the state as an opaque JSON value that always validates, as the rest of the service uses it.
- GraphService.UpdateCompletesNode: for the same reason, `GraphState(**data[node_name])` at `graph_service.py:189` is taken never to raise; the node's output becomes the new state unchanged.
- RagTask.ExecuteTask: `TaskEntry.citations` is declared as a list of `TaskCitation`, but the code passes `Citation` objects, which a strict model validation rejects, so as written a task with citations would end in a failed entry. The model keeps the citations the code intends, like the search-result fields above.
- RagTask.SuccessIff: for the same reason, the success condition does not include the citation validation failure.
- RagTask.SuccessfulCitations: for the same reason, a successful entry carries the extracted citations.
- RelevanceFilter.Threshold: scores are exact reals, and the threshold 0.8 × max(mean, median, mode) is computed exactly; the double rounding of the product (0.8 × 0.9 is 0.7200000000000001 in a double) is not modelled.
- RelevanceFilter.FilterByScore: for the same reason, a score equal to the exact threshold is kept, where the double product can lie just above it.
- RelevanceFilter.KeepsExactlyAboveThreshold: for the same reason, it holds for the exact-real threshold.
- ParallelSynthesis.FormatDocumentContext: a payload that is a JSON value other than an object, or a content that is not a string, is not modelled; `str` of such a value is not rendered.
- PyRepr.Repr: `repr` escapes non-printable characters outside Latin-1 (line and paragraph separators, format characters, unassigned code points) as `\xNN`, `\uNNNN` or `\UNNNNNNNN`; the model shows them as themselves.
- StopSignalWaiter.Run: the elapsed time is summed as an exact real, whereas `time_elapsed += poll_interval` adds doubles; the poll count matches the code for intervals whose multiples are exact in binary, such as the shipped 0.5 s, but not in general (max 1 with interval 0.1 polls 11 times in a double, not 10).
- StopSignalWaiter.Run: with a poll interval of 0 and a condition that stays false, the source loop never ends, since the elapsed time never grows; the model requires a positive interval.
- StopSignalWaiter.PollBound: for the same reason, the bound ceil(max_time / poll_interval) holds for exact sums, such as those of the shipped 0.5 s interval, and not for every double interval.
- DocumentsStored.ListingFollowsTable: the query in `get_documents_by_profile` has no ORDER BY, so SQL promises no order; the model takes it to return the rows in insertion order.
- SQL ordering ties are not modelled beyond stability. A tie in `ORDER BY created_at` or `updated_at` is unspecified in SQL, and the model keeps insertion order.
- Timestamps are reals. `str(uploaded_at)` and other renderings of times are not modelled.
- The invocation model's primary key is taken to be `invocation_id`: the ORM class that declares the key is not among the modelled source files, so the key is assumed. A fresh-uuid collision is modelled as a failure.
- The invocations router's list endpoint is not modelled, because it calls a service function with an optional limit that does not exist. The service listing is modelled (`Invocations.GetInvocations`).
- The profiles, documents-stored, conversations, embedding, storage and graph routers are HTTP plumbing and not modelled. So are the FastAPI apps, the session pool and the configuration modules, apart from the default model name.

=== FILE: app_settings.dfy ===
/** The `useAppSettings` composable: the response mode, held in a ref shared
    by every caller and persisted in `localStorage`. Whether a `window`
    exists (a browser rather than server-side rendering) is a parameter. */
module AppSettings {
  import LS = LocalStorage

  datatype ResponseMode = Decomposed | Simple

  const RESPONSE_MODE_KEY := "deepresearch_response_mode"

  /** The stored spelling of a mode. */
  function ModeText(m: ResponseMode): string {
    match m
    case Decomposed => "decomposed"
    case Simple => "simple"
  }

  /** The ref's value and the browser storage. */
  datatype Settings = Settings(responseMode: ResponseMode, storage: LS.Storage)

  /** The ref's value when the module is loaded. */
  const INITIAL_MODE := Decomposed

  /** `getStoredResponseMode`: a stored "simple" or "decomposed" is taken as
      it is; a missing value or any other text gives "decomposed". */
  function StoredResponseMode(s: LS.Storage): (m: ResponseMode)
    ensures m == Simple <==> RESPONSE_MODE_KEY in s && s[RESPONSE_MODE_KEY] == "simple"
    ensures (RESPONSE_MODE_KEY in s && s[RESPONSE_MODE_KEY] == ModeText(m)) || m == Decomposed
  {
    match LS.GetItem(s, RESPONSE_MODE_KEY)
    case Some(v) =>
      if v == "simple" then Simple
      else if v == "decomposed" then Decomposed
      else Decomposed
    case None => Decomposed
  }

  /** `initializeSettings`: the ref takes the stored mode, unless there is no
      window, in which case nothing happens. */
  function InitializeSettings(st: Settings, hasWindow: bool): (st': Settings)
    ensures !hasWindow ==> st' == st
    ensures hasWindow ==> st'.storage == st.storage && st'.responseMode == StoredResponseMode(st.storage)
  {
    if !hasWindow then st
    else st.(responseMode := StoredResponseMode(st.storage))
  }

  /** `setResponseMode`: the ref and the storage both take the mode. */
  function SetResponseMode(st: Settings, mode: ResponseMode): (st': Settings)
    ensures st'.responseMode == mode
    ensures StoredResponseMode(st'.storage) == mode
    ensures forall k :: k in st.storage && k != RESPONSE_MODE_KEY ==> k in st'.storage && st'.storage[k] == st.storage[k]
  {
    Settings(mode, st.storage[RESPONSE_MODE_KEY := ModeText(mode)])
  }

  /** `useAppSettings` runs the initialisation on every call. */
  function UseAppSettings(st: Settings, hasWindow: bool): (st': Settings)
    ensures st'.storage == st.storage
  {
    InitializeSettings(st, hasWindow)
  }

  /** A freshly loaded page whose storage holds no mode starts, and stays
      after initialisation, in "decomposed". */
  lemma FreshPageIsDecomposed(s: LS.Storage, hasWindow: bool)
    requires RESPONSE_MODE_KEY !in s
    ensures UseAppSettings(Settings(INITIAL_MODE, s), hasWindow).responseMode == Decomposed
  {
  }

  /** A mode that was set survives a reload: the next page's initialisation
      reads it back from storage. */
  lemma SetSurvivesReload(st: Settings, mode: ResponseMode)
    ensures UseAppSettings(Settings(INITIAL_MODE, SetResponseMode(st, mode).storage), true).responseMode == mode
  {
  }

  /** Calling the composable again changes nothing: initialisation is
      idempotent, and a set is not undone by a later call. */
  lemma UseIsIdempotent(st: Settings, hasWindow: bool, mode: ResponseMode)
    ensures UseAppSettings(UseAppSettings(st, hasWindow), hasWindow) == UseAppSettings(st, hasWindow)
    ensures UseAppSettings(SetResponseMode(st, mode), hasWindow) == SetResponseMode(st, mode)
  {
  }
}

=== FILE: chat_session.dfy ===
/** The `useChatSession` composable of the frontend, restricted to its
    decisions: the title of a new conversation, the empty-query guard and
    the history sent with a query, the parsing of the Server-Sent Events
    stream and the status it folds into, the one-time recording of the
    invocation id, and the end of status polling.

    The awaited HTTP calls are not modelled; what they return is an input.
    JSON text is decoded by a parameter `decode`, which fails where
    `JSON.parse` throws. */
module ChatSession {
  import opened Wrappers
  import opened Json
  import Seqs
  import Text
  import CM = CopyMessages
  import GS = GraphService

  // ----- Conversation title -----

  const TITLE_LENGTH: nat := 50
  const ELLIPSIS := "..."

  /** The title `createNewConversation` gives a conversation: the first 50
      characters of the first message, followed by "..." only when the
      message is longer. */
  function Title(firstMessage: string): (t: string)
    ensures |t| <= TITLE_LENGTH + |ELLIPSIS|
    ensures |firstMessage| <= TITLE_LENGTH ==> t == firstMessage
    ensures |firstMessage| > TITLE_LENGTH ==>
      && |t| == TITLE_LENGTH + |ELLIPSIS|
      && Text.StartsWith(firstMessage, t[..TITLE_LENGTH])
      && Text.EndsWith(t, ELLIPSIS)
  {
    var cut := if |firstMessage| < TITLE_LENGTH then |firstMessage| else TITLE_LENGTH;
    firstMessage[..cut] + (if |firstMessage| > TITLE_LENGTH then ELLIPSIS else "")
  }

  /** A title is its own title: a title never needs shortening again. */
  lemma TitleIsStable(firstMessage: string)
    ensures Title(Title(firstMessage)) == Title(firstMessage)
  {
    var t := Title(firstMessage);
    if |firstMessage| > TITLE_LENGTH {
      assert t[..TITLE_LENGTH] == firstMessage[..TITLE_LENGTH];
      assert Title(t) == t[..TITLE_LENGTH] + ELLIPSIS;
    }
  }

  // ----- Messages and history -----

  const RUNNING := "running"
  const COMPLETED := "completed"
  const STOPPED := "stopped"
  const ERROR := "error"

  /** `AIMessageContent`. The status is the server's text, cast unchecked. */
  datatype AiContent = AiContent(invocationId: Option<Json>, status: string, steps: seq<Json>,
                                 finalResult: Option<string>, errorMessage: Option<Json>)

  /** `ChatMessageViewModel`: a user message holds its text, an AI message
      its content object. */
  datatype ChatMessage =
    | UserMessage(id: string, text: string)
    | AiMessage(id: string, content: AiContent)

  /** `SimpleMessage` of the stream request. */
  datatype SimpleMessage = SimpleMessage(role: string, content: string)

  function HistoryEntry(m: ChatMessage): SimpleMessage {
    match m
    case UserMessage(_, text) => SimpleMessage("human", text)
    case AiMessage(_, content) => SimpleMessage("ai", content.finalResult.GetOr(""))
  }

  /** The `chatHistory` sent with a query: one entry per message on screen,
      in order; a user message becomes role "human" with its text, an AI
      message role "ai" with its final result, or "" when it has none. */
  function ChatHistory(messages: seq<ChatMessage>): (h: seq<SimpleMessage>)
    ensures |h| == |messages|
    ensures forall i :: 0 <= i < |messages| ==> h[i] == HistoryEntry(messages[i])
  {
    Seqs.Map(HistoryEntry, messages)
  }

  /** An AI message without a final result, or with an empty one, is sent
      with empty content; a user message keeps its text. */
  lemma HistoryContents(messages: seq<ChatMessage>, i: nat)
    requires i < |messages|
    ensures messages[i].UserMessage? ==> ChatHistory(messages)[i] == SimpleMessage("human", messages[i].text)
    ensures messages[i].AiMessage? ==>
      && ChatHistory(messages)[i].role == "ai"
      && (ChatHistory(messages)[i].content == "" <==>
            messages[i].content.finalResult.None? || messages[i].content.finalResult == Some(""))
  {
  }

  /** The request body the graph service receives. */
  function Wire(h: seq<SimpleMessage>): (raw: seq<CM.RawMessage>)
    ensures |raw| == |h|
    ensures forall i :: 0 <= i < |h| ==> raw[i] == CM.RawMessage(h[i].role, h[i].content)
  {
    Seqs.Map((m: SimpleMessage) => CM.RawMessage(m.role, m.content), h)
  }

  /** The history the client sends is accepted by the graph service's input
      conversion exactly when it holds no user message: the client names
      the user's role "human", and the service accepts only "user" and "ai". */
  lemma HistoryAcceptedIffNoUserMessage(messages: seq<ChatMessage>)
    ensures GS.ConvertMessages(Wire(ChatHistory(messages))).Success?
        <==> forall i :: 0 <= i < |messages| ==> messages[i].AiMessage?
  {
    var raw := Wire(ChatHistory(messages));
    forall i | 0 <= i < |messages|
      ensures raw[i].role in {"user", "ai"} <==> messages[i].AiMessage?
    {
      assert raw[i].role == HistoryEntry(messages[i]).role;
    }
  }

  // ----- Submitting a query -----

  /** The reactive state the submission touches. */
  datatype Session = Session(messages: seq<ChatMessage>, conversationId: string, error: string, isProcessing: bool)

  /** What the stream request carries. */
  datatype StreamRequest = StreamRequest(userQuery: string, profileId: string, history: seq<SimpleMessage>)

  /** The synchronous start of `submitMessage`: the session after the guard,
      the title of the conversation to create when there is no current one,
      and the stream request to send, if any. */
  datatype SubmitStart = SubmitStart(session: Session, newTitle: Option<string>, request: Option<StreamRequest>)

  const EMPTY_QUERY_ERROR := "Please enter a message"

  function BeginSubmit(s: Session, query: string, profileId: string): (r: SubmitStart)
    ensures r.request.None? <==> Text.AllJsSpace(query)
    ensures Text.AllJsSpace(query) ==>
      r.session == s.(error := EMPTY_QUERY_ERROR) && r.newTitle.None?
    ensures !Text.AllJsSpace(query) ==>
      && r.session == s.(error := "", isProcessing := true)
      && r.request == Some(StreamRequest(query, profileId, ChatHistory(s.messages)))
      && (r.newTitle.Some? <==> s.conversationId == "")
      && (r.newTitle.Some? ==> r.newTitle.value == Title(query))
  {
    Text.TrimEmptyIffBlank(query);
    if Text.Trim(query) == "" then
      SubmitStart(s.(error := EMPTY_QUERY_ERROR), None, None)
    else
      var title := if s.conversationId == "" then Some(Title(query)) else None;
      SubmitStart(s.(error := "", isProcessing := true), title,
                  Some(StreamRequest(query, profileId, ChatHistory(s.messages))))
  }

  // ----- Parsing the stream -----

  /** JavaScript's `s.split("\n\n")`, with `cur` the piece read so far. */
  function SplitBlank(s: string, cur: string): (ps: seq<string>)
    ensures |ps| >= 1
    decreases |s|
  {
    if |s| < 2 then [cur + s]
    else if s[0] == '\n' && s[1] == '\n' then [cur] + SplitBlank(s[2..], [])
    else SplitBlank(s[1..], cur + [s[0]])
  }

  predicate NonEmpty(p: string) {
    p != ""
  }

  /** `chunk.split("\n\n").filter(Boolean)`. */
  function Pieces(chunk: string): (ps: seq<string>)
    ensures forall i :: 0 <= i < |ps| ==> ps[i] != ""
  {
    Seqs.Filter(NonEmpty, SplitBlank(chunk, []))
  }

  const DATA_PREFIX := "data: "

  /** The JSON text of a `data: ` piece: what follows the prefix, trimmed. */
  function PayloadText(piece: string): string
    requires Text.StartsWith(piece, DATA_PREFIX)
  {
    Text.Trim(piece[|DATA_PREFIX|..])
  }

  lemma {:induction false} SplitBlankPlain(t: string, rest: string, cur: string)
    requires Text.Excludes(t, '\n')
    ensures SplitBlank(t + rest, cur) == SplitBlank(rest, cur + t)
    decreases |t|
  {
    if t == [] {
      assert t + rest == rest;
      assert cur + t == cur;
    } else if |t + rest| < 2 {
      assert rest == [] && t + rest == t;
      assert SplitBlank(t + rest, cur) == [cur + t];
      assert SplitBlank(rest, cur + t) == [cur + t + rest];
      assert cur + t + rest == cur + t;
    } else {
      assert (t + rest)[0] == t[0];
      assert (t + rest)[1..] == t[1..] + rest;
      SplitBlankPlain(t[1..], rest, cur + [t[0]]);
      assert cur + [t[0]] + t[1..] == cur + t;
    }
  }

  /** The `data: ` lines of a list of events, without their blank lines. */
  function DataLines(events: seq<GS.Event>, encode: Json -> string): (ls: seq<string>)
    ensures |ls| == |events|
    ensures forall i :: 0 <= i < |events| ==> ls[i] == DATA_PREFIX + encode(GS.ToJson(events[i]))
    decreases |events|
  {
    if events == [] then [] else [DATA_PREFIX + encode(GS.ToJson(events[0]))] + DataLines(events[1..], encode)
  }

  /** The serialiser writes each event on one line. */
  predicate OneLineEach(events: seq<GS.Event>, encode: Json -> string) {
    forall i :: 0 <= i < |events| ==> Text.Excludes(encode(GS.ToJson(events[i])), '\n')
  }

  lemma {:induction false} SplitFrames(events: seq<GS.Event>, encode: Json -> string)
    requires OneLineEach(events, encode)
    ensures SplitBlank(GS.Frames(events, encode), []) == DataLines(events, encode) + [""]
    decreases |events|
  {
    if events == [] {
      assert GS.Frames(events, encode) == [];
      assert SplitBlank([], []) == [[] + []];
      assert [] + [] == "";
      assert DataLines(events, encode) == [];
      assert DataLines(events, encode) + [""] == [""];
    } else {
      var line := DATA_PREFIX + encode(GS.ToJson(events[0]));
      var rest := GS.Frames(events[1..], encode);
      assert GS.Frames(events, encode) == line + ("\n\n" + rest);
      assert Text.Excludes(line, '\n') by {
        var p := encode(GS.ToJson(events[0]));
        forall i | 0 <= i < |line| ensures line[i] != '\n' {
          if i >= |DATA_PREFIX| { assert line[i] == p[i - |DATA_PREFIX|]; }
        }
      }
      SplitBlankPlain(line, "\n\n" + rest, []);
      assert [] + line == line;
      assert ("\n\n" + rest)[2..] == rest;
      SplitFrames(events[1..], encode);
    }
  }

  /** A chunk holding whole frames splits into exactly their `data: ` lines:
      the trailing blank line yields an empty piece, which is dropped. */
  lemma FramePieces(events: seq<GS.Event>, encode: Json -> string)
    requires OneLineEach(events, encode)
    ensures Pieces(GS.Frames(events, encode)) == DataLines(events, encode)
  {
    SplitFrames(events, encode);
    var ls := DataLines(events, encode);
    Seqs.FilterAppend(NonEmpty, ls, [""]);
    Seqs.FilterAll(NonEmpty, ls);
    assert Seqs.Filter(NonEmpty, [""]) == [];
    assert ls + [] == ls;
  }

  // ----- Folding the events -----

  /** The variables of the streaming loop in `submitMessage`, and the
      `updateChatTurn` calls that record the invocation id on the AI turn. */
  datatype StreamState = StreamState(invocationIdSet: bool, currentInvocationId: Option<Json>,
                                     finalStatus: string, errorMessage: Option<Json>, recorded: seq<Json>)

  const STREAM_START := StreamState(false, None, RUNNING, None, [])

  /** `parsedData.event_value?.error`. */
  function EventError(j: Json): Option<Json> {
    match Field(j, "event_value")
    case Some(v) => Field(v, "error")
    case None => None
  }

  /** The status an event type sets, if it sets one. */
  function StatusFor(j: Json): (s: Option<string>)
    ensures s.Some? <==> Field(j, "event_type") in {Some(JStr("graph_complete")), Some(JStr("stopped")), Some(JStr("error"))}
  {
    var t := Field(j, "event_type");
    if t == Some(JStr("graph_complete")) then Some(COMPLETED)
    else if t == Some(JStr("stopped")) then Some(STOPPED)
    else if t == Some(JStr("error")) then Some(ERROR)
    else None
  }

  /** One decoded event. The first event carrying a truthy `invocation_id`
      has it recorded on the AI turn (when that turn has an id); a terminal
      event type sets the status, and an error also takes the error text. */
  function OnEvent(st: StreamState, j: Json, aiTurnId: string): (st': StreamState)
    ensures st'.finalStatus == StatusFor(j).GetOr(st.finalStatus)
    ensures st'.errorMessage == if StatusFor(j) == Some(ERROR) then EventError(j) else st.errorMessage
    ensures st.invocationIdSet ==> st'.recorded == st.recorded && st'.currentInvocationId == st.currentInvocationId
    ensures st.invocationIdSet ==> st'.invocationIdSet
  {
    var id := Field(j, "invocation_id");
    var st1 :=
      if !st.invocationIdSet && id.Some? && Truthy(id.value) && aiTurnId != "" then
        st.(invocationIdSet := true, currentInvocationId := id, recorded := st.recorded + [id.value])
      else st;
    match StatusFor(j)
    case Some(s) =>
      if s == ERROR then st1.(finalStatus := s, errorMessage := EventError(j))
      else st1.(finalStatus := s)
    case None => st1
  }

  /** The events of one chunk, in order. A piece that does not start with
      `data: ` is skipped. A payload that does not decode throws, and so
      does one that decodes to `null`, whose `invocation_id` cannot be read;
      either way the rest of the chunk is lost. */
  function OnPieces(st: StreamState, pieces: seq<string>, decode: string -> Option<Json>, aiTurnId: string): (st': StreamState)
    ensures st.invocationIdSet ==> st'.recorded == st.recorded && st'.currentInvocationId == st.currentInvocationId
    ensures st.invocationIdSet ==> st'.invocationIdSet
    decreases |pieces|
  {
    if pieces == [] then st
    else if !Text.StartsWith(pieces[0], DATA_PREFIX) then OnPieces(st, pieces[1..], decode, aiTurnId)
    else
      match decode(PayloadText(pieces[0]))
      case None => st
      case Some(j) => if j.JNull? then st else OnPieces(OnEvent(st, j, aiTurnId), pieces[1..], decode, aiTurnId)
  }

  function OnChunk(st: StreamState, chunk: string, decode: string -> Option<Json>, aiTurnId: string): (st': StreamState)
    ensures st.invocationIdSet ==> st'.recorded == st.recorded && st'.currentInvocationId == st.currentInvocationId
    ensures st.invocationIdSet ==> st'.invocationIdSet
  {
    OnPieces(st, Pieces(chunk), decode, aiTurnId)
  }

  /** The `for await` loop over the stream's chunks. Once an id is set on
      the AI turn, the rest of the stream records no other. */
  function OnStream(st: StreamState, chunks: seq<string>, decode: string -> Option<Json>, aiTurnId: string): (st': StreamState)
    ensures st.invocationIdSet ==> st'.recorded == st.recorded && st'.currentInvocationId == st.currentInvocationId
    ensures st.invocationIdSet ==> st'.invocationIdSet
    decreases |chunks|
  {
    if chunks == [] then st
    else OnStream(OnChunk(st, chunks[0], decode, aiTurnId), chunks[1..], decode, aiTurnId)
  }

  /** Decoded events folded in order. */
  function OnJsons(st: StreamState, js: seq<Json>, aiTurnId: string): StreamState
    decreases |js|
  {
    if js == [] then st else OnJsons(OnEvent(st, js[0], aiTurnId), js[1..], aiTurnId)
  }

  // ----- The invocation id is recorded once -----

  /** Either nothing has been recorded, or exactly the current id has. */
  predicate RecordedOnce(st: StreamState) {
    || (!st.invocationIdSet && st.recorded == [] && st.currentInvocationId.None?)
    || (st.invocationIdSet && st.currentInvocationId.Some? && st.recorded == [st.currentInvocationId.value])
  }

  lemma OnEventRecordsOnce(st: StreamState, j: Json, aiTurnId: string)
    requires RecordedOnce(st)
    ensures RecordedOnce(OnEvent(st, j, aiTurnId))
  {
  }

  lemma {:induction false} OnPiecesRecordsOnce(st: StreamState, pieces: seq<string>, decode: string -> Option<Json>, aiTurnId: string)
    requires RecordedOnce(st)
    ensures RecordedOnce(OnPieces(st, pieces, decode, aiTurnId))
    decreases |pieces|
  {
    if pieces != [] {
      if !Text.StartsWith(pieces[0], DATA_PREFIX) {
        OnPiecesRecordsOnce(st, pieces[1..], decode, aiTurnId);
      } else if decode(PayloadText(pieces[0])).Some? && !decode(PayloadText(pieces[0])).value.JNull? {
        var j := decode(PayloadText(pieces[0])).value;
        OnEventRecordsOnce(st, j, aiTurnId);
        OnPiecesRecordsOnce(OnEvent(st, j, aiTurnId), pieces[1..], decode, aiTurnId);
      }
    }
  }

  lemma {:induction false} OnStreamRecordsOnce(st: StreamState, chunks: seq<string>, decode: string -> Option<Json>, aiTurnId: string)
    requires RecordedOnce(st)
    ensures RecordedOnce(OnStream(st, chunks, decode, aiTurnId))
    decreases |chunks|
  {
    if chunks != [] {
      OnPiecesRecordsOnce(st, Pieces(chunks[0]), decode, aiTurnId);
      OnStreamRecordsOnce(OnChunk(st, chunks[0], decode, aiTurnId), chunks[1..], decode, aiTurnId);
    }
  }

  /** Whatever the stream holds, the AI turn is updated with an invocation id
      at most once while streaming, and only with the id the client keeps. */
  lemma StreamRecordsAtMostOnce(chunks: seq<string>, decode: string -> Option<Json>, aiTurnId: string)
    ensures var st := OnStream(STREAM_START, chunks, decode, aiTurnId);
      && |st.recorded| <= 1
      && (st.recorded != [] ==> st.currentInvocationId == Some(st.recorded[0]))
  {
    OnStreamRecordsOnce(STREAM_START, chunks, decode, aiTurnId);
  }

  // ----- The status the stream leaves -----

  /** Reference definition: the status set by the last event with a
      terminal type, or the starting status when there is none. */
  function LastStatus(js: seq<Json>, initial: string): string
    decreases |js|
  {
    if js == [] then initial
    else StatusFor(js[|js| - 1]).GetOr(LastStatus(js[..|js| - 1], initial))
  }

  lemma {:induction false} OnJsonsSnoc(st: StreamState, js: seq<Json>, j: Json, aiTurnId: string)
    ensures OnJsons(st, js + [j], aiTurnId) == OnEvent(OnJsons(st, js, aiTurnId), j, aiTurnId)
    decreases |js|
  {
    if js == [] {
      assert js + [j] == [j];
    } else {
      assert (js + [j])[0] == js[0];
      assert (js + [j])[1..] == js[1..] + [j];
      OnJsonsSnoc(OnEvent(st, js[0], aiTurnId), js[1..], j, aiTurnId);
    }
  }

  /** The fold's status is the last terminal event type's status: events of
      any other type leave it alone. */
  lemma {:induction false} OnJsonsStatus(st: StreamState, js: seq<Json>, aiTurnId: string)
    ensures OnJsons(st, js, aiTurnId).finalStatus == LastStatus(js, st.finalStatus)
    decreases |js|
  {
    if js != [] {
      var init := js[..|js| - 1];
      var j := js[|js| - 1];
      assert js == init + [j];
      OnJsonsSnoc(st, init, j, aiTurnId);
      OnJsonsStatus(st, init, aiTurnId);
    }
  }

  // ----- Client and server together -----

  /** The serialiser's text needs no trimming and decodes back. */
  predicate Faithful(events: seq<GS.Event>, encode: Json -> string, decode: string -> Option<Json>) {
    forall i :: 0 <= i < |events| ==>
      var p := encode(GS.ToJson(events[i]));
      && (p != [] ==> !Text.IsJsSpace(p[0]) && !Text.IsJsSpace(p[|p| - 1]))
      && decode(p) == Some(GS.ToJson(events[i]))
  }

  lemma {:induction false} OnDataLines(st: StreamState, events: seq<GS.Event>, encode: Json -> string,
                                        decode: string -> Option<Json>, aiTurnId: string)
    requires Faithful(events, encode, decode)
    ensures OnPieces(st, DataLines(events, encode), decode, aiTurnId)
         == OnJsons(st, Seqs.Map(GS.ToJson, events), aiTurnId)
    decreases |events|
  {
    if events != [] {
      var ls := DataLines(events, encode);
      var p := encode(GS.ToJson(events[0]));
      assert ls[0] == DATA_PREFIX + p;
      assert Text.StartsWith(ls[0], DATA_PREFIX);
      assert ls[0][|DATA_PREFIX|..] == p;
      Text.TrimNoop(p);
      assert ls[1..] == DataLines(events[1..], encode);
      assert Faithful(events[1..], encode, decode) by {
        forall i | 0 <= i < |events[1..]| ensures encode(GS.ToJson(events[1..][i])) == encode(GS.ToJson(events[i + 1])) {
        }
      }
      OnDataLines(OnEvent(st, GS.ToJson(events[0]), aiTurnId), events[1..], encode, decode, aiTurnId);
      assert Seqs.Map(GS.ToJson, events)[1..] == Seqs.Map(GS.ToJson, events[1..]);
    }
  }

  /** A chunk holding whole frames of the graph service is seen by the client
      as exactly the events the service sent, in order, provided the
      serialiser writes one line without surrounding whitespace and the
      client's parser reads it back. */
  lemma ClientSeesServerEvents(st: StreamState, events: seq<GS.Event>, encode: Json -> string,
                               decode: string -> Option<Json>, aiTurnId: string)
    requires OneLineEach(events, encode) && Faithful(events, encode, decode)
    ensures OnChunk(st, GS.Frames(events, encode), decode, aiTurnId)
         == OnJsons(st, Seqs.Map(GS.ToJson, events), aiTurnId)
  {
    FramePieces(events, encode);
    OnDataLines(st, events, encode, decode, aiTurnId);
  }

  /** What each terminal event of the graph service does to the client's
      status. The `error` event carries its text under "event_data", while
      the client reads `event_value.error`: the status becomes "error" but
      the message is lost. */
  lemma ServerTerminalsOnClient(st: StreamState, id: GS.Id, state: Json, message: string, aiTurnId: string)
    ensures OnEvent(st, GS.ToJson(GS.Event(id, GS.GraphComplete(state))), aiTurnId).finalStatus == COMPLETED
    ensures OnEvent(st, GS.ToJson(GS.Event(id, GS.Stopped)), aiTurnId).finalStatus == STOPPED
    ensures var st' := OnEvent(st, GS.ToJson(GS.Event(id, GS.Error(message))), aiTurnId);
      st'.finalStatus == ERROR && st'.errorMessage == None
  {
    var e := GS.ToJson(GS.Event(id, GS.Error(message)));
    assert Field(e, "event_value") == None;
  }

  /** Heartbeats, node completions and the start event never change the
      client's status. */
  lemma ProgressEventsKeepStatus(st: StreamState, e: GS.Event, aiTurnId: string)
    requires e.kind.GraphStart? || e.kind.Heartbeat? || e.kind.NodeComplete?
    ensures OnEvent(st, GS.ToJson(e), aiTurnId).finalStatus == st.finalStatus
  {
  }

  // ----- Polling -----

  const INVOCATION_POLL_INTERVAL: nat := 3000

  predicate IsTerminalStatus(status: string) {
    status == COMPLETED || status == STOPPED || status == ERROR
  }

  /** What one `pollInvocationStatus` call observes: the invocation's status,
      or nothing when the fetch throws; and whether the AI message is still
      on screen. */
  datatype Observation = Observation(fetched: Option<string>, messageFound: bool)

  datatype PollState = PollState(polling: bool, isProcessing: bool)

  /** Whether the poll ends the polling: the fetch succeeded and either the
      message is gone or the status is terminal. A failed fetch is only
      logged. */
  predicate Stops(o: Observation) {
    o.fetched.Some? && (!o.messageFound || IsTerminalStatus(o.fetched.value))
  }

  /** One poll. */
  function Poll(st: PollState, o: Observation): (st': PollState)
    ensures st'.polling == (st.polling && !Stops(o))
    ensures st'.isProcessing == (st.isProcessing && !(o.fetched.Some? && o.messageFound && IsTerminalStatus(o.fetched.value)))
  {
    match o.fetched
    case None => st
    case Some(status) =>
      if !o.messageFound then st.(polling := false)
      else if IsTerminalStatus(status) then PollState(false, false)
      else st
  }

  /** The interval's successive polls; once it is cleared no poll runs. The
      polling goes on exactly when it was on and no poll stopped it, and a
      message no longer processing never becomes processing again. */
  function RunPolls(st: PollState, obs: seq<Observation>): (r: PollState)
    ensures !st.polling ==> r == st
    ensures r.polling <==> st.polling && forall j :: 0 <= j < |obs| ==> !Stops(obs[j])
    ensures r.isProcessing ==> st.isProcessing
    decreases |obs|
  {
    if obs == [] || !st.polling then st else RunPolls(Poll(st, obs[0]), obs[1..])
  }

  /** The index of the poll that ends the polling: the first that stops. */
  function FirstStop(obs: seq<Observation>): (k: nat)
    ensures k <= |obs|
    ensures forall j :: 0 <= j < k ==> !Stops(obs[j])
    ensures k < |obs| ==> Stops(obs[k])
    decreases |obs|
  {
    if obs == [] then 0 else if Stops(obs[0]) then 0 else 1 + FirstStop(obs[1..])
  }

  /** Polling runs until, and only until, the first poll that sees a
      terminal status or a missing message; a terminal status also ends the
      processing state. */
  lemma {:induction false} PollingStopsAtFirstStop(isProcessing: bool, obs: seq<Observation>)
    ensures var k := FirstStop(obs);
      var st := RunPolls(PollState(true, isProcessing), obs);
      && (!st.polling <==> k < |obs|)
      && (k < |obs| && obs[k].messageFound ==> !st.isProcessing)
      && (k == |obs| ==> st.isProcessing == isProcessing)
    decreases |obs|
  {
    if obs != [] && !Stops(obs[0]) {
      assert Poll(PollState(true, isProcessing), obs[0]) == PollState(true, isProcessing);
      PollingStopsAtFirstStop(isProcessing, obs[1..]);
    }
  }
}

=== FILE: chunking.dfy ===
/** Greedy packing of words into chunks, the algorithm the three document
    processors share: a word of size `size(w)` joins the open chunk unless
    the chunk is non-empty and the word would push its size past the limit,
    in which case the chunk is closed and the word opens the next one.

    The reference is generic in the element type so that the PDF chunker can
    pack words tagged with their page numbers. */
module Chunking {
  import Seqs
  import Text

  /** The summed size of a chunk. */
  function Total<T>(size: T -> nat, c: seq<T>): nat
    decreases |c|
  {
    if c == [] then 0 else size(c[0]) + Total(size, c[1..])
  }

  lemma {:induction false} TotalAppend<T>(size: T -> nat, c: seq<T>, x: T)
    ensures Total(size, c + [x]) == Total(size, c) + size(x)
    decreases |c|
  {
    if c == [] {
      assert [] + [x] == [x];
    } else {
      assert (c + [x])[1..] == c[1..] + [x];
      TotalAppend(size, c[1..], x);
    }
  }

  /** The packing loop from an open chunk `cur` of size `curSize`. */
  function PackFrom<T>(xs: seq<T>, size: T -> nat, limit: int, cur: seq<T>, curSize: int): seq<seq<T>>
    decreases |xs|
  {
    if xs == [] then (if cur == [] then [] else [cur])
    else if curSize + size(xs[0]) > limit && cur != [] then
      [cur] + PackFrom(xs[1..], size, limit, [xs[0]], size(xs[0]))
    else PackFrom(xs[1..], size, limit, cur + [xs[0]], curSize + size(xs[0]))
  }

  /** The chunks of `xs`, starting from an empty chunk of size 0. */
  function Pack<T>(xs: seq<T>, size: T -> nat, limit: int): seq<seq<T>> {
    PackFrom(xs, size, limit, [], 0)
  }

  /** A chunk respects the limit unless it is a single element. */
  predicate Fits<T>(size: T -> nat, limit: int, c: seq<T>) {
    |c| <= 1 || Total(size, c) <= limit
  }

  predicate AllNonEmpty<T>(cs: seq<seq<T>>) {
    forall k :: 0 <= k < |cs| ==> cs[k] != []
  }

  predicate AllFit<T>(size: T -> nat, limit: int, cs: seq<seq<T>>) {
    forall k :: 0 <= k < |cs| ==> Fits(size, limit, cs[k])
  }

  /** Every chunk but the first opened because its first element would not
      fit into the chunk before it. */
  predicate Greedy<T>(size: T -> nat, limit: int, cs: seq<seq<T>>) {
    forall k :: 1 <= k < |cs| ==> cs[k] != [] && Total(size, cs[k - 1]) + size(cs[k][0]) > limit
  }

  lemma {:induction false} PackFromFlatten<T>(xs: seq<T>, size: T -> nat, limit: int, cur: seq<T>, curSize: int)
    ensures Seqs.Flatten(PackFrom(xs, size, limit, cur, curSize)) == cur + xs
    decreases |xs|
  {
    if xs == [] {
      assert cur + xs == cur;
      if cur != [] {
        assert Seqs.Flatten([cur]) == cur + Seqs.Flatten([cur][1..]);
      }
    } else if curSize + size(xs[0]) > limit && cur != [] {
      var rest := PackFrom(xs[1..], size, limit, [xs[0]], size(xs[0]));
      PackFromFlatten(xs[1..], size, limit, [xs[0]], size(xs[0]));
      assert ([cur] + rest)[1..] == rest;
      assert [xs[0]] + xs[1..] == xs;
    } else {
      PackFromFlatten(xs[1..], size, limit, cur + [xs[0]], curSize + size(xs[0]));
      assert cur + [xs[0]] + xs[1..] == cur + xs;
    }
  }

  /** The chunk of an open chunk starts with it; no chunk is empty. */
  lemma {:induction false} PackFromShape<T>(xs: seq<T>, size: T -> nat, limit: int, cur: seq<T>, curSize: int)
    ensures AllNonEmpty(PackFrom(xs, size, limit, cur, curSize))
    ensures cur != [] ==> |PackFrom(xs, size, limit, cur, curSize)| > 0
                          && PackFrom(xs, size, limit, cur, curSize)[0][0] == cur[0]
    ensures cur == [] && xs != [] ==> |PackFrom(xs, size, limit, cur, curSize)| > 0
                                      && PackFrom(xs, size, limit, cur, curSize)[0][0] == xs[0]
    decreases |xs|
  {
    if xs != [] {
      if curSize + size(xs[0]) > limit && cur != [] {
        PackFromShape(xs[1..], size, limit, [xs[0]], size(xs[0]));
      } else {
        PackFromShape(xs[1..], size, limit, cur + [xs[0]], curSize + size(xs[0]));
      }
    }
  }

  lemma {:induction false} PackFromFits<T>(xs: seq<T>, size: T -> nat, limit: int, cur: seq<T>, curSize: int)
    requires curSize == Total(size, cur) && Fits(size, limit, cur)
    ensures AllFit(size, limit, PackFrom(xs, size, limit, cur, curSize))
    decreases |xs|
  {
    if xs != [] {
      var x := xs[0];
      if curSize + size(x) > limit && cur != [] {
        assert Total(size, [x]) == size(x);
        PackFromFits(xs[1..], size, limit, [x], size(x));
      } else {
        TotalAppend(size, cur, x);
        PackFromFits(xs[1..], size, limit, cur + [x], curSize + size(x));
      }
    }
  }

  lemma {:induction false} PackFromGreedy<T>(xs: seq<T>, size: T -> nat, limit: int, cur: seq<T>, curSize: int)
    requires curSize == Total(size, cur)
    ensures Greedy(size, limit, PackFrom(xs, size, limit, cur, curSize))
    decreases |xs|
  {
    if xs != [] {
      var x := xs[0];
      if curSize + size(x) > limit && cur != [] {
        assert Total(size, [x]) == size(x);
        PackFromGreedy(xs[1..], size, limit, [x], size(x));
        PackFromShape(xs[1..], size, limit, [x], size(x));
      } else {
        TotalAppend(size, cur, x);
        PackFromGreedy(xs[1..], size, limit, cur + [x], curSize + size(x));
      }
    }
  }

  /** The four properties of the packing: the chunks concatenate back to the
      input, none is empty, each fits the limit unless it is one element,
      and a chunk is closed only when the next element would not fit. */
  lemma PackSound<T>(xs: seq<T>, size: T -> nat, limit: int)
    ensures Seqs.Flatten(Pack(xs, size, limit)) == xs
    ensures AllNonEmpty(Pack(xs, size, limit))
    ensures AllFit(size, limit, Pack(xs, size, limit))
    ensures Greedy(size, limit, Pack(xs, size, limit))
  {
    PackFromFlatten(xs, size, limit, [], 0);
    PackFromShape(xs, size, limit, [], 0);
    PackFromFits(xs, size, limit, [], 0);
    PackFromGreedy(xs, size, limit, [], 0);
    assert [] + xs == xs;
  }

  /** Packing depends only on the sizes: packing tagged elements and then
      dropping the tags is packing the untagged elements. */
  lemma {:induction false} PackFromMap<T, U>(xs: seq<T>, f: T -> U, sizeT: T -> nat, sizeU: U -> nat, limit: int,
                                            cur: seq<T>, curSize: int)
    requires forall x :: sizeT(x) == sizeU(f(x))
    ensures Seqs.Map((c: seq<T>) => Seqs.Map(f, c), PackFrom(xs, sizeT, limit, cur, curSize))
         == PackFrom(Seqs.Map(f, xs), sizeU, limit, Seqs.Map(f, cur), curSize)
    decreases |xs|
  {
    var F := (c: seq<T>) => Seqs.Map(f, c);
    var ys := Seqs.Map(f, xs);
    if xs == [] {
      assert ys == [];
      assert cur == [] <==> Seqs.Map(f, cur) == [];
    } else {
      var x := xs[0];
      assert ys[0] == f(x) && ys[1..] == Seqs.Map(f, xs[1..]);
      assert cur == [] <==> Seqs.Map(f, cur) == [];
      if curSize + sizeT(x) > limit && cur != [] {
        var rest := PackFrom(xs[1..], sizeT, limit, [x], sizeT(x));
        PackFromMap(xs[1..], f, sizeT, sizeU, limit, [x], sizeT(x));
        assert Seqs.Map(f, [x]) == [f(x)];
        assert Seqs.Map(F, [cur] + rest) == [F(cur)] + Seqs.Map(F, rest);
      } else {
        PackFromMap(xs[1..], f, sizeT, sizeU, limit, cur + [x], curSize + sizeT(x));
        assert Seqs.Map(f, cur + [x]) == Seqs.Map(f, cur) + [f(x)];
      }
    }
  }

  lemma {:induction false} TotalConcat<T>(size: T -> nat, a: seq<T>, b: seq<T>)
    ensures Total(size, a + b) == Total(size, a) + Total(size, b)
    decreases |a|
  {
    if a == [] {
      assert a + b == b;
    } else {
      assert (a + b)[1..] == a[1..] + b;
      TotalConcat(size, a[1..], b);
    }
  }

  /** Dropping the first chunk keeps the properties of a chunking. */
  lemma TailChunking<T>(cs: seq<seq<T>>, size: T -> nat, limit: int)
    requires cs != [] && AllNonEmpty(cs) && AllFit(size, limit, cs) && Greedy(size, limit, cs)
    ensures AllNonEmpty(cs[1..]) && AllFit(size, limit, cs[1..]) && Greedy(size, limit, cs[1..])
  {
    var cs' := cs[1..];
    forall k | 1 <= k < |cs'|
      ensures cs'[k] != [] && Total(size, cs'[k - 1]) + size(cs'[k][0]) > limit
    {
      assert cs'[k] == cs[k + 1] && cs'[k - 1] == cs[k];
    }
  }

  /** Inside a chunk that fits, the next element of the chunk never closes it. */
  lemma {:induction false} ResumeInside<T>(c: seq<T>, rest: seq<T>, size: T -> nat, limit: int, j: nat)
    requires 1 <= j < |c| && Fits(size, limit, c)
    ensures PackFrom(c[j..] + rest, size, limit, c[..j], Total(size, c[..j]))
         == PackFrom(c[j + 1..] + rest, size, limit, c[..j + 1], Total(size, c[..j + 1]))
  {
    var x := c[j];
    var xs := c[j..] + rest;
    assert xs[0] == x && xs[1..] == c[j + 1..] + rest;
    assert c[..j + 1] == c[..j] + [x];
    TotalAppend(size, c[..j], x);
    assert c == c[..j + 1] + c[j + 1..];
    TotalConcat(size, c[..j + 1], c[j + 1..]);
  }

  /** At the end of a chunk, the first element of the next chunk closes it. */
  lemma ResumeBoundary<T>(c: seq<T>, d: seq<T>, rest: seq<T>, size: T -> nat, limit: int)
    requires c != [] && d != [] && Total(size, c) + size(d[0]) > limit
    ensures PackFrom(d + rest, size, limit, c, Total(size, c))
         == [c] + PackFrom(d[1..] + rest, size, limit, d[..1], Total(size, d[..1]))
  {
    var xs := d + rest;
    assert xs[0] == d[0] && xs[1..] == d[1..] + rest;
    assert d[..1] == [d[0]];
    assert Total(size, [d[0]]) == size(d[0]);
  }

  /** Packing resumed inside chunk `cs[0]`, with its first `j` elements
      open, reproduces `cs`. */
  lemma {:induction false} PackFromResumes<T>(cs: seq<seq<T>>, size: T -> nat, limit: int, j: nat)
    requires cs != [] && 1 <= j <= |cs[0]|
    requires AllNonEmpty(cs) && AllFit(size, limit, cs) && Greedy(size, limit, cs)
    ensures PackFrom(cs[0][j..] + Seqs.Flatten(cs[1..]), size, limit, cs[0][..j], Total(size, cs[0][..j])) == cs
    decreases |cs[0][j..] + Seqs.Flatten(cs[1..])|
  {
    var c := cs[0];
    var rest := Seqs.Flatten(cs[1..]);
    if j < |c| {
      ResumeInside(c, rest, size, limit, j);
      PackFromResumes(cs, size, limit, j + 1);
    } else {
      assert c[j..] == [] && c[..j] == c;
      assert c[j..] + rest == rest;
      if |cs| == 1 {
        assert cs[1..] == [];
      } else {
        var cs' := cs[1..];
        assert Seqs.Flatten(cs') == cs'[0] + Seqs.Flatten(cs'[1..]);
        assert cs'[0] == cs[1];
        ResumeBoundary(c, cs'[0], Seqs.Flatten(cs'[1..]), size, limit);
        TailChunking(cs, size, limit);
        PackFromResumes(cs', size, limit, 1);
        assert [c] + cs' == cs;
      }
    }
  }

  /** The packing is the only chunking with the four properties of
      `PackSound`: any list of non-empty chunks that concatenate to `xs`, fit
      the limit and were closed only when the next element would not fit is
      exactly `Pack(xs)`. */
  lemma PackUnique<T>(xs: seq<T>, size: T -> nat, limit: int, cs: seq<seq<T>>)
    requires Seqs.Flatten(cs) == xs
    requires AllNonEmpty(cs) && AllFit(size, limit, cs) && Greedy(size, limit, cs)
    ensures cs == Pack(xs, size, limit)
  {
    if cs != [] {
      var c := cs[0];
      assert xs == c + Seqs.Flatten(cs[1..]);
      assert xs[0] == c[0] && xs[1..] == c[1..] + Seqs.Flatten(cs[1..]);
      assert [] + [c[0]] == c[..1];
      assert Total(size, [c[0]]) == size(c[0]);
      PackFromResumes(cs, size, limit, 1);
    }
  }

  // ----- words -----

  /** `len(word) + 1`: a word and the space after it. */
  function WordSize(w: string): nat {
    |w| + 1
  }

  /** The word chunks of a word list. */
  function PackWords(words: seq<string>, chunkSize: int): seq<seq<string>> {
    Pack(words, WordSize, chunkSize)
  }

  /** `" ".join(chunk)`. */
  function ChunkText(c: seq<string>): string {
    Text.Join(c, " ")
  }

  /** The chunk texts of a word list. */
  function Chunks(words: seq<string>, chunkSize: int): seq<string> {
    Seqs.Map(ChunkText, PackWords(words, chunkSize))
  }

  /** The variables of the word loop: the chunk texts emitted so far, the
      open chunk's words and its size. */
  datatype WordState = WordState(chunks: seq<string>, cur: seq<string>, curSize: int)

  const START := WordState([], [], 0)

  /** One iteration of `for word in words`. */
  function FeedWord(st: WordState, w: string, chunkSize: int): WordState {
    var wordSize := |w| + 1;
    if st.curSize + wordSize > chunkSize && st.cur != [] then WordState(st.chunks + [ChunkText(st.cur)], [w], wordSize)
    else WordState(st.chunks, st.cur + [w], st.curSize + wordSize)
  }

  function FeedWords(st: WordState, ws: seq<string>, chunkSize: int): WordState
    decreases |ws|
  {
    if ws == [] then st else FeedWords(FeedWord(st, ws[0], chunkSize), ws[1..], chunkSize)
  }

  /** The final `if current_chunk:` flush. */
  function FlushWords(st: WordState): seq<string> {
    if st.cur != [] then st.chunks + [ChunkText(st.cur)] else st.chunks
  }

  /** Feeding one more word extends the fold by one step. */
  lemma {:induction false} FeedWordsSnoc(st: WordState, ws: seq<string>, w: string, chunkSize: int)
    ensures FeedWords(st, ws + [w], chunkSize) == FeedWord(FeedWords(st, ws, chunkSize), w, chunkSize)
    decreases |ws|
  {
    if ws == [] {
      assert ws + [w] == [w];
    } else {
      assert (ws + [w])[0] == ws[0] && (ws + [w])[1..] == ws[1..] + [w];
      FeedWordsSnoc(FeedWord(st, ws[0], chunkSize), ws[1..], w, chunkSize);
    }
  }

  /** The word loop, from any state, emits what the packing of the
      remaining words from the open chunk gives. */
  lemma {:induction false} FeedWordsPack(st: WordState, ws: seq<string>, chunkSize: int)
    ensures FlushWords(FeedWords(st, ws, chunkSize))
         == st.chunks + Seqs.Map(ChunkText, PackFrom(ws, WordSize, chunkSize, st.cur, st.curSize))
    decreases |ws|
  {
    if ws == [] {
      if st.cur != [] {
        assert Seqs.Map(ChunkText, [st.cur]) == [ChunkText(st.cur)];
      } else {
        assert Seqs.Map(ChunkText, []) == [];
      }
    } else {
      var w := ws[0];
      var next := FeedWord(st, w, chunkSize);
      assert FeedWords(st, ws, chunkSize) == FeedWords(next, ws[1..], chunkSize);
      FeedWordsPack(next, ws[1..], chunkSize);
      if st.curSize + WordSize(w) > chunkSize && st.cur != [] {
        var rest := PackFrom(ws[1..], WordSize, chunkSize, [w], WordSize(w));
        assert next == WordState(st.chunks + [ChunkText(st.cur)], [w], WordSize(w));
        assert PackFrom(ws, WordSize, chunkSize, st.cur, st.curSize) == [st.cur] + rest;
        Seqs.MapCons(ChunkText, st.cur, rest);
      } else {
        assert next == WordState(st.chunks, st.cur + [w], st.curSize + WordSize(w));
        assert PackFrom(ws, WordSize, chunkSize, st.cur, st.curSize)
            == PackFrom(ws[1..], WordSize, chunkSize, st.cur + [w], st.curSize + WordSize(w));
      }
    }
  }

  /** The loop of every `chunk_text` copy computes the reference chunks. */
  lemma LoopComputesChunks(ws: seq<string>, chunkSize: int)
    ensures FlushWords(FeedWords(START, ws, chunkSize)) == Chunks(ws, chunkSize)
  {
    FeedWordsPack(START, ws, chunkSize);
  }

  lemma {:induction false} SplitChunkTexts(packed: seq<seq<string>>)
    requires forall k :: 0 <= k < |packed| ==> Text.AllWords(packed[k])
    ensures Seqs.Flatten(Seqs.Map(Text.PySplit, Seqs.Map(ChunkText, packed))) == Seqs.Flatten(packed)
    decreases |packed|
  {
    if packed != [] {
      var texts := Seqs.Map(ChunkText, packed);
      var split := Seqs.Map(Text.PySplit, texts);
      Text.JoinSplitWords(packed[0]);
      assert split[0] == packed[0];
      assert texts[1..] == Seqs.Map(ChunkText, packed[1..]);
      assert split[1..] == Seqs.Map(Text.PySplit, texts[1..]);
      SplitChunkTexts(packed[1..]);
    }
  }

  /** For words as `str.split()` makes them, no chunk text is empty, and
      splitting every chunk text again and concatenating the pieces gives
      back exactly the input words. */
  lemma ChunksKeepWords(ws: seq<string>, chunkSize: int)
    requires Text.AllWords(ws)
    ensures forall k :: 0 <= k < |Chunks(ws, chunkSize)| ==> Chunks(ws, chunkSize)[k] != ""
    ensures Seqs.Flatten(Seqs.Map(Text.PySplit, Chunks(ws, chunkSize))) == ws
  {
    PackSound(ws, WordSize, chunkSize);
    var packed := PackWords(ws, chunkSize);
    forall k | 0 <= k < |packed| ensures Text.AllWords(packed[k]) {
      forall i | 0 <= i < |packed[k]| ensures Text.IsWord(packed[k][i]) {
        Seqs.FlattenHas(packed, k, i);
      }
    }
    forall k | 0 <= k < |packed| ensures ChunkText(packed[k]) != "" {
      Text.JoinSplitWords(packed[k]);
    }
    SplitChunkTexts(packed);
  }

  /** The words of a text made of pieces that each end in whitespace (all
      but possibly the last) are the words of the pieces, in order. */
  lemma {:induction false} WordsOfPieces(pieces: seq<string>)
    requires forall i :: 0 <= i < |pieces| - 1 ==> |pieces[i]| > 0 && Text.IsPySpace(pieces[i][|pieces[i]| - 1])
    ensures Text.PySplit(Seqs.Flatten(pieces)) == Seqs.Flatten(Seqs.Map(Text.PySplit, pieces))
    decreases |pieces|
  {
    if |pieces| == 1 {
      assert Seqs.Flatten(pieces) == pieces[0] + Seqs.Flatten(pieces[1..]);
      assert pieces[0] + [] == pieces[0];
      var split := Seqs.Map(Text.PySplit, pieces);
      assert Seqs.Flatten(split) == split[0] + Seqs.Flatten(split[1..]);
      assert split[0] + [] == split[0];
    } else if |pieces| > 1 {
      var split := Seqs.Map(Text.PySplit, pieces);
      assert Seqs.Flatten(pieces) == pieces[0] + Seqs.Flatten(pieces[1..]);
      Text.PySplitAppend(pieces[0], Seqs.Flatten(pieces[1..]));
      WordsOfPieces(pieces[1..]);
      assert split[1..] == Seqs.Map(Text.PySplit, pieces[1..]);
    } else {
      assert Seqs.Map(Text.PySplit, pieces) == [];
    }
  }
}

=== FILE: conversations.dfy ===
/** Stored conversations: `service/conversations_service.py` of the database
    service. The table is the list of rows in insertion order with `id` as
    its primary key; the generated uuid and the clock are inputs. */
module Conversations {
  import opened Wrappers
  import Seqs
  import Sorting

  datatype Conversation = Conversation(id: string, profileId: string, title: Option<string>,
                                       chatTurns: seq<string>, createdAt: real, updatedAt: real)

  /** `ConversationCreate`: the rows take the profile of the route, not this
      body's `profile_id`. */
  datatype ConversationCreate = ConversationCreate(profileId: string, title: Option<string>, chatTurns: seq<string>)

  /** `ConversationUpdate`: a missing field is left as it is. */
  datatype ConversationUpdate = ConversationUpdate(title: Option<string>, chatTurns: Option<seq<string>>)

  type Table = seq<Conversation>

  predicate Owned(c: Conversation, conversationId: string, profileId: string) {
    c.id == conversationId && c.profileId == profileId
  }

  /** `create_conversation`: a new row under a fresh id, created and updated
      at the same instant. A colliding id violates the primary key. */
  function CreateConversation(t: Table, profileId: string, c: ConversationCreate, newId: string, now: real): (r: Result<(Table, Conversation)>)
    ensures r.Failure? <==> exists i :: 0 <= i < |t| && t[i].id == newId
    ensures r.Success? ==>
      && r.value.1 == Conversation(newId, profileId, c.title, c.chatTurns, now, now)
      && r.value.1.createdAt == r.value.1.updatedAt
      && r.value.0 == t + [r.value.1]
  {
    var k := Seqs.IndexWhere((row: Conversation) => row.id == newId, t);
    if k < |t| then Failure("duplicate key value violates unique constraint")
    else
      var row := Conversation(newId, profileId, c.title, c.chatTurns, now, now);
      Success((t + [row], row))
  }

  /** `get_conversation_by_id`: matches the id and the profile. */
  function GetConversation(t: Table, conversationId: string, profileId: string): (r: Option<Conversation>)
    ensures r.Some? <==> exists i :: 0 <= i < |t| && Owned(t[i], conversationId, profileId)
    ensures r.Some? ==> r.value in t && Owned(r.value, conversationId, profileId)
  {
    var k := Seqs.IndexWhere((row: Conversation) => Owned(row, conversationId, profileId), t);
    if k < |t| then Some(t[k]) else None
  }

  function UpdatedAt(c: Conversation): real {
    c.updatedAt
  }

  predicate OfProfile(c: Conversation, profileId: string) {
    c.profileId == profileId
  }

  /** The profile's rows, in table order. */
  function ProfileRows(t: Table, profileId: string): seq<Conversation> {
    Seqs.Filter((row: Conversation) => OfProfile(row, profileId), t)
  }

  /** `get_conversations_by_profile_id`: the profile's rows, most recently
      updated first, cut to `limit` when one is given. Rows updated at the
      same instant are kept in insertion order. Whatever sequence lists the
      profile's rows in that way, the result is it, or its first `limit`
      rows. */
  function GetConversations(t: Table, profileId: string, limit: Option<nat>): (r: seq<Conversation>)
    ensures forall s :: Sorting.StableDescending(UpdatedAt, ProfileRows(t, profileId), s) ==>
      && |r| == (if limit.Some? && limit.value < |s| then limit.value else |s|)
      && r == s[..|r|]
  {
    var sorted := Sorting.SortDesc(UpdatedAt, ProfileRows(t, profileId));
    Sorting.SortIsStableDescending(UpdatedAt, ProfileRows(t, profileId));
    match limit
    case None => sorted
    case Some(l) => Seqs.Window(sorted, 0, l)
  }

  /** The listing holds only the profile's rows, most recently updated first;
      without a limit it holds all of them, with one at most that many, and
      those are the most recently updated: no row of the profile left out
      was updated later than a listed one. */
  lemma ListingIsOrdered(t: Table, profileId: string, limit: Option<nat>)
    ensures var r := GetConversations(t, profileId, limit);
      && (forall i :: 0 <= i < |r| ==> r[i] in t && r[i].profileId == profileId)
      && Sorting.Descending(UpdatedAt, r)
      && (limit.Some? ==> |r| <= limit.value)
    ensures var r := GetConversations(t, profileId, limit);
      forall i, c :: 0 <= i < |r| && c in ProfileRows(t, profileId) && c !in r ==> UpdatedAt(c) <= UpdatedAt(r[i])
    ensures limit.None? ==>
      multiset(GetConversations(t, profileId, limit))
      == multiset(Seqs.Filter((row: Conversation) => OfProfile(row, profileId), t))
  {
    var p := (row: Conversation) => OfProfile(row, profileId);
    var mine := Seqs.Filter(p, t);
    var sorted := Sorting.SortDesc(UpdatedAt, mine);
    var r := GetConversations(t, profileId, limit);
    Sorting.SortDescending(UpdatedAt, mine);
    Seqs.FilterMultiset(p, t);
    forall i | 0 <= i < |r| ensures r[i] == sorted[i] {
    }
    forall i | 0 <= i < |r| ensures r[i] in t && r[i].profileId == profileId {
      assert r[i] in multiset(sorted);
      assert r[i] in multiset(mine);
      var j :| 0 <= j < |mine| && mine[j] == r[i];
      assert p(mine[j]);
    }
    forall i, j | 0 <= i < j < |r| ensures UpdatedAt(r[i]) >= UpdatedAt(r[j]) {
      assert r[i] == sorted[i] && r[j] == sorted[j];
    }
    Sorting.SortIsStableDescending(UpdatedAt, mine);
    assert r == sorted[..|r|];
    forall i, c | 0 <= i < |r| && c in ProfileRows(t, profileId) && c !in r ensures UpdatedAt(c) <= UpdatedAt(r[i]) {
      assert c in multiset(sorted);
      Sorting.PrefixHoldsLargest(UpdatedAt, sorted, |r|, i, c);
    }
  }

  /** The fields an update writes: the given ones, and always the update
      time. */
  function ApplyUpdate(c: Conversation, u: ConversationUpdate, now: real): Conversation {
    c.(title := if u.title.Some? then u.title else c.title,
       chatTurns := u.chatTurns.GetOr(c.chatTurns),
       updatedAt := now)
  }

  /** `update_conversation`: None and no change when the conversation is
      missing; otherwise the given fields are written and `updated_at` is
      refreshed, even when no field is given. */
  function UpdateConversation(t: Table, conversationId: string, u: ConversationUpdate, profileId: string, now: real): (r: (Table, Option<Conversation>))
    ensures r.1.None? <==> GetConversation(t, conversationId, profileId).None?
    ensures r.1.None? ==> r.0 == t
    ensures r.1.Some? ==> r.1.value == ApplyUpdate(GetConversation(t, conversationId, profileId).value, u, now)
    ensures |r.0| == |t|
    ensures r.1.Some? ==> forall i :: 0 <= i < |t| ==>
      r.0[i] == if Owned(t[i], conversationId, profileId) then ApplyUpdate(t[i], u, now) else t[i]
  {
    match GetConversation(t, conversationId, profileId)
    case None => (t, None)
    case Some(row) =>
      var t' := Seqs.Map((x: Conversation) => if Owned(x, conversationId, profileId) then ApplyUpdate(x, u, now) else x, t);
      (t', Some(ApplyUpdate(row, u, now)))
  }

  /** An update with no field still moves the conversation's update time,
      and an update keeps the id, profile and creation time. */
  lemma EmptyUpdateTouches(t: Table, conversationId: string, profileId: string, now: real)
    requires GetConversation(t, conversationId, profileId).Some?
    ensures var before := GetConversation(t, conversationId, profileId).value;
      var after := UpdateConversation(t, conversationId, ConversationUpdate(None, None), profileId, now).1.value;
      after == before.(updatedAt := now)
  {
  }

  /** `delete_conversation_by_id`: False when the conversation is missing;
      otherwise its row is removed and True returned. */
  function DeleteConversation(t: Table, conversationId: string, profileId: string): (r: (Table, bool))
    ensures r.1 <==> GetConversation(t, conversationId, profileId).Some?
    ensures !r.1 ==> r.0 == t
    ensures r.1 ==> r.0 == Seqs.Filter((row: Conversation) => !Owned(row, conversationId, profileId), t)
  {
    if GetConversation(t, conversationId, profileId).None? then (t, false)
    else (Seqs.Filter((row: Conversation) => !Owned(row, conversationId, profileId), t), true)
  }

  /** After a create with an unused id the conversation is found under the
      profile it was created for, and after its delete it is gone. */
  lemma CreateGetDelete(t: Table, profileId: string, c: ConversationCreate, newId: string, now: real)
    requires forall i :: 0 <= i < |t| ==> t[i].id != newId
    ensures var r := CreateConversation(t, profileId, c, newId, now);
      && r.Success?
      && GetConversation(r.value.0, newId, profileId) == Some(r.value.1)
      && GetConversation(DeleteConversation(r.value.0, newId, profileId).0, newId, profileId).None?
  {
    var (t1, row) := CreateConversation(t, profileId, c, newId, now).value;
    var p := (x: Conversation) => Owned(x, newId, profileId);
    var k := Seqs.IndexWhere(p, t1);
    forall j | 0 <= j < |t| ensures !p(t1[j]) {
      assert t1[j] == t[j];
    }
    assert p(t1[|t|]);
    assert k == |t|;
    var keep := (x: Conversation) => !Owned(x, newId, profileId);
    var t2 := Seqs.Filter(keep, t1);
    forall i | 0 <= i < |t2| ensures !Owned(t2[i], newId, profileId) {
      assert keep(t2[i]);
    }
  }
}

=== FILE: copy_messages.dfy ===
/** Chat messages and the two copy helpers of `utils/copy_messages.py`:
    copying typed messages and converting role-tagged raw messages, both with
    an optional system-message filter. */
module CopyMessages {
  import opened Wrappers
  import Seqs

  /** A langchain message. `Other` stands for any message class the helpers
      do not know (tool or function messages, for instance). */
  datatype Message =
    | System(content: string)
    | Human(content: string)
    | Ai(content: string)
    | Other(typeName: string, content: string)

  /** `RawChatMessage`: a role string and a content string. */
  datatype RawMessage = RawMessage(role: string, content: string)

  predicate Supported(m: Message) {
    !m.Other?
  }

  /** The messages a copy keeps: everything but system messages, unless they
      are asked for. */
  predicate Visible(m: Message, includeSystem: bool) {
    includeSystem || !m.System?
  }

  /** The index of the first message of an unsupported kind, if any. */
  function FirstUnsupported(ms: seq<Message>): (r: Option<nat>)
    ensures r.Some? ==> (r.value < |ms| && !Supported(ms[r.value])
                         && forall j :: 0 <= j < r.value ==> Supported(ms[j]))
    ensures r.None? ==> forall j :: 0 <= j < |ms| ==> Supported(ms[j])
    decreases |ms|
  {
    if ms == [] then None
    else if !Supported(ms[0]) then Some(0)
    else match FirstUnsupported(ms[1..])
      case None => None
      case Some(k) => Some(k + 1)
  }

  /** `copy_messages`: copy every message with the same kind and content, in
      order, dropping system messages unless `includeSystem`; an unsupported
      message type raises `ValueError` naming the first such type. */
  function CopyMessages(ms: seq<Message>, includeSystem: bool): (r: Result<seq<Message>>)
    ensures r.Success? <==> FirstUnsupported(ms).None?
    ensures r.Failure? ==> r.error == "Unsupported message type: " + ms[FirstUnsupported(ms).value].typeName
    ensures r.Success? ==> r.value == Seqs.Filter(m => Visible(m, includeSystem), ms)
    decreases |ms|
  {
    if ms == [] then Success([])
    else
      var m := ms[0];
      if m.Other? then Failure("Unsupported message type: " + m.typeName)
      else
        var rest :- CopyMessages(ms[1..], includeSystem);
        if m.System? && !includeSystem then Success(rest) else Success([m] + rest)
  }

  /** With system messages included, a successful copy loses nothing. */
  lemma CopyKeepsAllWithSystem(ms: seq<Message>)
    requires CopyMessages(ms, true).Success?
    ensures CopyMessages(ms, true).value == ms
    ensures |CopyMessages(ms, true).value| == |ms|
  {
    Seqs.FilterAll(m => Visible(m, true), ms);
  }

  /** Copying a copy changes nothing: `copy_messages` is idempotent. */
  lemma CopyIdempotent(ms: seq<Message>, includeSystem: bool)
    requires CopyMessages(ms, includeSystem).Success?
    ensures CopyMessages(CopyMessages(ms, includeSystem).value, includeSystem)
      == CopyMessages(ms, includeSystem)
  {
    var once := CopyMessages(ms, includeSystem).value;
    assert FirstUnsupported(ms).None?;
    Seqs.FilterMultiset(m => Visible(m, includeSystem), ms);
    forall i | 0 <= i < |once| ensures Supported(once[i]) {
      assert once[i] in multiset(ms);
      var j :| 0 <= j < |ms| && ms[j] == once[i];
    }
    assert FirstUnsupported(once).None?;
    Seqs.FilterAll(m => Visible(m, includeSystem), once);
  }

  /** The message kind a raw role names, if it names one. */
  function RoleMessage(raw: RawMessage): Option<Message> {
    if raw.role == "system" then Some(System(raw.content))
    else if raw.role == "human" then Some(Human(raw.content))
    else if raw.role == "ai" then Some(Ai(raw.content))
    else None
  }

  /** The message a raw message converts to; an unknown role is kept as an
      unsupported message so that conversion is total. */
  function Converted(raw: RawMessage): Message {
    RoleMessage(raw).GetOr(Other(raw.role, raw.content))
  }

  /** `copy_raw_messages`: roles "system", "human" and "ai" become those
      kinds (system ones only when asked for); any other role raises
      `ValueError` naming the role. */
  function CopyRawMessages(raws: seq<RawMessage>, includeSystem: bool): (r: Result<seq<Message>>)
    ensures r.Success? <==> forall i :: 0 <= i < |raws| ==> RoleMessage(raws[i]).Some?
    ensures r.Failure? ==> (exists i :: 0 <= i < |raws| && RoleMessage(raws[i]).None?
                                        && r.error == "Unsupported message role: " + raws[i].role
                                        && forall j :: 0 <= j < i ==> RoleMessage(raws[j]).Some?)
    ensures r.Success? ==> r.value == Seqs.Filter(m => Visible(m, includeSystem), Seqs.Map(Converted, raws))
    decreases |raws|
  {
    if raws == [] then Success([])
    else
      match RoleMessage(raws[0])
      case None => Failure("Unsupported message role: " + raws[0].role)
      case Some(m) =>
        var rest :- CopyRawMessages(raws[1..], includeSystem);
        assert Seqs.Map(Converted, raws) == [m] + Seqs.Map(Converted, raws[1..]);
        if m.System? && !includeSystem then Success(rest) else Success([m] + rest)
  }

  /** With system messages included, a successful conversion keeps every
      message, each the kind its role names. */
  lemma CopyRawKeepsAllWithSystem(raws: seq<RawMessage>)
    requires CopyRawMessages(raws, true).Success?
    ensures var r := CopyRawMessages(raws, true).value;
      && |r| == |raws|
      && forall i :: 0 <= i < |raws| ==> r[i] == RoleMessage(raws[i]).value
  {
    var converted := Seqs.Map(Converted, raws);
    Seqs.FilterAll(m => Visible(m, true), converted);
    forall i | 0 <= i < |raws| ensures converted[i] == RoleMessage(raws[i]).value {
      assert RoleMessage(raws[i]).Some?;
    }
  }
}

=== FILE: documents_stored.dfy ===
/** The record of uploaded documents: `service/documents_stored_service.py`
    of the database service. The table is the list of rows in insertion
    order with `id` as its primary key; the generated uuid and the clock are
    inputs, and the upload time is kept as a number rather than rendered. */
module DocumentsStored {
  import opened Wrappers
  import Seqs

  datatype StoredDocument = StoredDocument(id: string, filename: string, profileId: string, uploadedAt: real)

  type Table = seq<StoredDocument>

  predicate Same(d: StoredDocument, filename: string, profileId: string) {
    d.filename == filename && d.profileId == profileId
  }

  /** `create_document_stored`: a new row under a fresh id; the response
      repeats the filename and profile. Nothing prevents a second row for
      the same file. A colliding id violates the primary key. */
  function CreateDocumentStored(t: Table, profileId: string, filename: string, newId: string, now: real): (r: Result<(Table, StoredDocument)>)
    ensures r.Failure? <==> exists i :: 0 <= i < |t| && t[i].id == newId
    ensures r.Success? ==>
      && r.value.1 == StoredDocument(newId, filename, profileId, now)
      && r.value.0 == t + [r.value.1]
  {
    var k := Seqs.IndexWhere((d: StoredDocument) => d.id == newId, t);
    if k < |t| then Failure("duplicate key value violates unique constraint")
    else
      var row := StoredDocument(newId, filename, profileId, now);
      Success((t + [row], row))
  }

  /** `delete_document_stored`: every row for the (filename, profile) pair is
      removed; True exactly when at least one was. */
  function DeleteDocumentStored(t: Table, filename: string, profileId: string): (r: (Table, bool))
    ensures r.0 == Seqs.Filter((d: StoredDocument) => !Same(d, filename, profileId), t)
    ensures r.1 <==> |r.0| < |t|
  {
    var kept := Seqs.Filter((d: StoredDocument) => !Same(d, filename, profileId), t);
    (kept, |t| - |kept| > 0)
  }

  /** `get_documents_by_profile`: the profile's rows, in table order. A row
      is listed iff it belongs to the profile, and no more often than it is
      stored. */
  function GetDocumentsByProfile(t: Table, profileId: string): (r: seq<StoredDocument>)
    ensures forall i :: 0 <= i < |r| ==> r[i].profileId == profileId
    ensures forall i :: 0 <= i < |t| && t[i].profileId == profileId ==> t[i] in r
    ensures multiset(r) <= multiset(t)
  {
    Seqs.FilterMultiset((d: StoredDocument) => d.profileId == profileId, t);
    Seqs.Filter((d: StoredDocument) => d.profileId == profileId, t)
  }

  /** The listing follows table order: the listing of a table split in two
      is the listing of the first part followed by that of the second, and a
      single row is listed iff it belongs to the profile. */
  lemma ListingFollowsTable(a: Table, b: Table, profileId: string)
    ensures GetDocumentsByProfile(a + b, profileId) == GetDocumentsByProfile(a, profileId) + GetDocumentsByProfile(b, profileId)
    ensures forall d :: GetDocumentsByProfile([d], profileId) == if d.profileId == profileId then [d] else []
  {
    Seqs.FilterAppend((d: StoredDocument) => d.profileId == profileId, a, b);
    forall d ensures GetDocumentsByProfile([d], profileId) == if d.profileId == profileId then [d] else [] {
      assert [d][1..] == [];
    }
  }

  /** The delete reports True exactly when some row matched, and afterwards
      no row matches. */
  lemma DeleteReportsMatch(t: Table, filename: string, profileId: string)
    ensures var (t', deleted) := DeleteDocumentStored(t, filename, profileId);
      && (deleted <==> exists i :: 0 <= i < |t| && Same(t[i], filename, profileId))
      && (forall i :: 0 <= i < |t'| ==> !Same(t'[i], filename, profileId))
  {
    var keep := (d: StoredDocument) => !Same(d, filename, profileId);
    var same := (d: StoredDocument) => Same(d, filename, profileId);
    Seqs.FilterDropped(keep, same, t);
    Seqs.CountIfPositive(same, t);
    var t' := Seqs.Filter(keep, t);
    forall i | 0 <= i < |t'| ensures !Same(t'[i], filename, profileId) {
      assert keep(t'[i]);
    }
  }

  /** The delete leaves every other row in place: rows of other profiles or
      other files keep their order, and a profile's listing loses exactly
      that file. */
  lemma DeleteKeepsOthers(t: Table, filename: string, profileId: string, other: string)
    ensures other != profileId ==>
      GetDocumentsByProfile(DeleteDocumentStored(t, filename, profileId).0, other) == GetDocumentsByProfile(t, other)
    ensures forall i :: 0 <= i < |t| && !Same(t[i], filename, profileId) ==> t[i] in DeleteDocumentStored(t, filename, profileId).0
  {
    var keep := (d: StoredDocument) => !Same(d, filename, profileId);
    Seqs.FilterMultiset(keep, t);
    forall i | 0 <= i < |t| && !Same(t[i], filename, profileId) ensures t[i] in Seqs.Filter(keep, t) {
      assert t[i] in t && keep(t[i]);
    }
    if other != profileId {
      FilterOtherProfile(t, filename, profileId, other);
    }
  }

  lemma {:induction false} FilterOtherProfile(t: Table, filename: string, profileId: string, other: string)
    requires other != profileId
    ensures GetDocumentsByProfile(Seqs.Filter((d: StoredDocument) => !Same(d, filename, profileId), t), other)
         == GetDocumentsByProfile(t, other)
    decreases |t|
  {
    var keep := (d: StoredDocument) => !Same(d, filename, profileId);
    if t != [] {
      FilterOtherProfile(t[1..], filename, profileId, other);
      var rest := Seqs.Filter(keep, t[1..]);
      if keep(t[0]) {
        assert Seqs.Filter(keep, t) == [t[0]] + rest;
        assert ([t[0]] + rest)[1..] == rest;
      } else {
        assert Seqs.Filter(keep, t) == [] + rest;
        assert [] + rest == rest;
      }
    }
  }

  /** A document created is listed under its profile, as the last entry. */
  lemma CreateThenList(t: Table, profileId: string, filename: string, newId: string, now: real)
    requires forall i :: 0 <= i < |t| ==> t[i].id != newId
    ensures var r := CreateDocumentStored(t, profileId, filename, newId, now);
      && r.Success?
      && GetDocumentsByProfile(r.value.0, profileId) == GetDocumentsByProfile(t, profileId) + [r.value.1]
  {
    var row := StoredDocument(newId, filename, profileId, now);
    var p := (d: StoredDocument) => d.profileId == profileId;
    Seqs.FilterAppend(p, t, [row]);
    assert Seqs.Filter(p, [row]) == [row];
  }
}

=== FILE: embedding_processor.dfy ===
/** `processor/document_processor.py` of the `embedding-service` copy of the
    embedding service: extract the text of a `.pdf` or `.txt` file, chunk it
    with the greedy word packing, and turn every chunk into one indexed
    point. The file contents (page texts, text-file contents) are inputs;
    the embedding vector and the point id are left out. */
module EmbeddingProcessor {
  import opened Wrappers
  import Seqs
  import Text
  import C = Chunking

  const UNSUPPORTED_FORMAT := "Unsupported file format. Supported: .pdf, .txt"

  /** `_extract_pdf`: every page's text followed by a newline. */
  function PdfText(pages: seq<string>): (t: string)
    decreases |pages|
  {
    if pages == [] then "" else pages[0] + "\n" + PdfText(pages[1..])
  }

  /** The PDF text is one newline-terminated piece per page. */
  lemma {:induction false} PdfTextPieces(pages: seq<string>)
    ensures PdfText(pages) == Seqs.Flatten(Seqs.Map((p: string) => p + "\n", pages))
    decreases |pages|
  {
    var pieces := Seqs.Map((p: string) => p + "\n", pages);
    if pages != [] {
      PdfTextPieces(pages[1..]);
      assert pieces[1..] == Seqs.Map((p: string) => p + "\n", pages[1..]);
    } else {
      assert pieces == [];
    }
  }

  /** The words of the extracted PDF text are the words of the pages, page
      after page: the newline after each page keeps words of adjacent pages
      apart. */
  lemma PdfTextWords(pages: seq<string>)
    ensures Text.PySplit(PdfText(pages)) == Seqs.Flatten(Seqs.Map(Text.PySplit, pages))
  {
    var pieces := Seqs.Map((p: string) => p + "\n", pages);
    PdfTextPieces(pages);
    forall i | 0 <= i < |pieces| ensures |pieces[i]| > 0 && Text.IsPySpace(pieces[i][|pieces[i]| - 1]) {
      assert pieces[i] == pages[i] + "\n";
    }
    C.WordsOfPieces(pieces);
    var a := Seqs.Map(Text.PySplit, pieces);
    var b := Seqs.Map(Text.PySplit, pages);
    forall i | 0 <= i < |pages| ensures a[i] == b[i] {
      Text.PySplitSpaceTail(pages[i], "\n");
    }
    assert a == b;
  }

  /** `extract_text`: the extension picks the reader; any other extension
      raises `ValueError`. */
  function ExtractText(filePath: string, pages: seq<string>, fileText: string): (r: Result<string>)
    ensures r.Failure? <==> !Text.EndsWith(filePath, ".pdf") && !Text.EndsWith(filePath, ".txt")
    ensures r.Failure? ==> r.error == UNSUPPORTED_FORMAT
  {
    if Text.EndsWith(filePath, ".pdf") then Success(PdfText(pages))
    else if Text.EndsWith(filePath, ".txt") then Success(fileText)
    else Failure(UNSUPPORTED_FORMAT)
  }

  /** `chunk_text`. */
  method ChunkText(text: string, chunkSize: int) returns (chunks: seq<string>)
    ensures chunks == C.Chunks(Text.PySplit(text), chunkSize)
    ensures Text.AllPySpace(text) ==> chunks == []
    ensures forall k :: 0 <= k < |chunks| ==> chunks[k] != ""
    ensures Seqs.Flatten(Seqs.Map(Text.PySplit, chunks)) == Text.PySplit(text)
  {
    var words := Text.PySplit(text);
    chunks := [];
    var currentChunk: seq<string> := [];
    var currentSize := 0;
    var i := 0;
    while i < |words|
      invariant 0 <= i <= |words|
      invariant C.WordState(chunks, currentChunk, currentSize) == C.FeedWords(C.START, words[..i], chunkSize)
    {
      var word := words[i];
      var wordSize := |word| + 1;
      if currentSize + wordSize > chunkSize && |currentChunk| != 0 {
        chunks := chunks + [C.ChunkText(currentChunk)];
        currentChunk := [word];
        currentSize := wordSize;
      } else {
        currentChunk := currentChunk + [word];
        currentSize := currentSize + wordSize;
      }
      C.FeedWordsSnoc(C.START, words[..i], word, chunkSize);
      assert words[..i + 1] == words[..i] + [word];
      i := i + 1;
    }
    if currentChunk != [] {
      chunks := chunks + [C.ChunkText(currentChunk)];
    }
    assert words[..|words|] == words;
    C.LoopComputesChunks(words, chunkSize);
    Text.PySplitWords(text);
    C.ChunksKeepWords(words, chunkSize);
    if Text.AllPySpace(text) {
      Text.PySplitAllSpace(text);
    }
  }

  /** `ChunkMetadata` of this copy (it has no page number; the custom
      metadata the processor passes is not a field of it). */
  datatype ChunkMetadata = ChunkMetadata(chunkIndex: int, sourceName: string, content: string)

  /** `process_document`: one point per chunk, numbered by position. */
  method ProcessDocument(filePath: string, filename: string, pages: seq<string>, fileText: string, chunkSize: int)
    returns (r: Result<seq<ChunkMetadata>>)
    ensures r.Failure? <==> ExtractText(filePath, pages, fileText).Failure?
    ensures r.Failure? ==> r.error == UNSUPPORTED_FORMAT
    ensures r.Success? ==>
      var chunks := C.Chunks(Text.PySplit(ExtractText(filePath, pages, fileText).value), chunkSize);
      && |r.value| == |chunks|
      && forall i :: 0 <= i < |chunks| ==> r.value[i] == ChunkMetadata(i, filename, chunks[i])
  {
    var text := ExtractText(filePath, pages, fileText);
    if text.Failure? {
      return Failure(text.error);
    }
    var chunks := ChunkText(text.value, chunkSize);
    var points: seq<ChunkMetadata> := [];
    var i := 0;
    while i < |chunks|
      invariant 0 <= i <= |chunks|
      invariant |points| == i
      invariant forall j :: 0 <= j < i ==> points[j] == ChunkMetadata(j, filename, chunks[j])
    {
      points := points + [ChunkMetadata(i, filename, chunks[i])];
      i := i + 1;
    }
    return Success(points);
  }
}

=== FILE: embedding_service_processor.dfy ===
/** `service/document_processor.py` of the `embedding-service` copy: the
    partitioned elements of a file are joined with blank lines, chunked with
    the same greedy word packing, and indexed by position. The partitioner's
    elements are an input. */
module EmbeddingServiceProcessor {
  import Seqs
  import Text
  import C = Chunking
  import EP = EmbeddingProcessor

  /** `extract_text`: `"\n\n".join(str(el) for el in elements)`. */
  function ExtractText(elements: seq<string>): string {
    Text.Join(elements, "\n\n")
  }

  /** The blank lines between elements keep their words apart: the words of
      the text are the words of the elements, element after element. */
  lemma {:induction false} ExtractTextWords(elements: seq<string>)
    ensures Text.PySplit(ExtractText(elements)) == Seqs.Flatten(Seqs.Map(Text.PySplit, elements))
    decreases |elements|
  {
    var split := Seqs.Map(Text.PySplit, elements);
    if elements == [] {
      assert split == [];
    } else if |elements| == 1 {
      assert Seqs.Flatten(split) == split[0] + Seqs.Flatten(split[1..]);
      assert split[0] + [] == split[0];
    } else {
      var rest := Text.Join(elements[1..], "\n\n");
      assert ExtractText(elements) == (elements[0] + "\n\n") + rest;
      Text.PySplitAppend(elements[0] + "\n\n", rest);
      Text.PySplitSpaceTail(elements[0], "\n\n");
      ExtractTextWords(elements[1..]);
      assert split[1..] == Seqs.Map(Text.PySplit, elements[1..]);
    }
  }

  /** `chunk_text` of this copy; it tests the open chunk's truthiness where
      the processor copy compares its length with 0, and computes the same
      chunks. */
  method ChunkText(text: string, chunkSize: int) returns (chunks: seq<string>)
    ensures chunks == C.Chunks(Text.PySplit(text), chunkSize)
    ensures forall k :: 0 <= k < |chunks| ==> chunks[k] != ""
    ensures Seqs.Flatten(Seqs.Map(Text.PySplit, chunks)) == Text.PySplit(text)
  {
    var words := Text.PySplit(text);
    chunks := [];
    var currentChunk: seq<string> := [];
    var currentSize := 0;
    for i := 0 to |words|
      invariant C.WordState(chunks, currentChunk, currentSize) == C.FeedWords(C.START, words[..i], chunkSize)
    {
      var word := words[i];
      var wordSize := |word| + 1;
      if currentSize + wordSize > chunkSize && currentChunk != [] {
        chunks := chunks + [C.ChunkText(currentChunk)];
        currentChunk := [word];
        currentSize := wordSize;
      } else {
        currentChunk := currentChunk + [word];
        currentSize := currentSize + wordSize;
      }
      C.FeedWordsSnoc(C.START, words[..i], word, chunkSize);
      assert words[..i + 1] == words[..i] + [word];
    }
    if currentChunk != [] {
      chunks := chunks + [C.ChunkText(currentChunk)];
    }
    assert words[..|words|] == words;
    C.LoopComputesChunks(words, chunkSize);
    Text.PySplitWords(text);
    C.ChunksKeepWords(words, chunkSize);
  }

  /** `process_document`: one point per chunk of the joined elements, with
      the chunk's position as its index and the file name as its source. */
  method ProcessDocument(elements: seq<string>, filename: string, chunkSize: int)
    returns (points: seq<EP.ChunkMetadata>)
    ensures var words := Seqs.Flatten(Seqs.Map(Text.PySplit, elements));
      var chunks := C.Chunks(words, chunkSize);
      && |points| == |chunks|
      && forall i :: 0 <= i < |chunks| ==> points[i] == EP.ChunkMetadata(i, filename, chunks[i])
  {
    var text := ExtractText(elements);
    var chunks := ChunkText(text, chunkSize);
    ExtractTextWords(elements);
    points := [];
    for i := 0 to |chunks|
      invariant |points| == i
      invariant forall j :: 0 <= j < i ==> points[j] == EP.ChunkMetadata(j, filename, chunks[j])
    {
      points := points + [EP.ChunkMetadata(i, filename, chunks[i])];
    }
  }
}

=== FILE: file_chunker.dfy ===
/** `processor/document_processor.py` of `embedding_service`: chunk a `.pdf`
    page by page or a `.txt` file line by line with the greedy word packing,
    recording a page number per chunk, then number the chunks. The PDF page
    texts and the text file's lines are inputs; vectors and point ids are
    left out. */
module FileChunker {
  import opened Wrappers
  import Seqs
  import Text
  import Json
  import C = Chunking

  /** `DocumentChunk`. */
  datatype DocumentChunk = DocumentChunk(pageNumber: int, text: string)

  /** A word of a PDF with the 1-based number of the page it is on. */
  datatype PageWord = PageWord(word: string, page: int)

  function PageWordSize(pw: PageWord): nat {
    |pw.word| + 1
  }

  function WordOf(pw: PageWord): string {
    pw.word
  }

  function Tag(words: seq<string>, page: int): (r: seq<PageWord>)
    ensures |r| == |words|
    ensures forall i :: 0 <= i < |words| ==> r[i] == PageWord(words[i], page)
  {
    Seqs.Map((w: string) => PageWord(w, page), words)
  }

  /** The words of the pages in reading order, each tagged with its page. */
  function PageWords(pages: seq<string>): seq<PageWord>
    decreases |pages|
  {
    if pages == [] then [] else PageWords(pages[..|pages| - 1]) + Tag(Text.PySplit(pages[|pages| - 1]), |pages|)
  }

  lemma TagWords(words: seq<string>, page: int)
    ensures Seqs.Map(WordOf, Tag(words, page)) == words
  {
    var r := Seqs.Map(WordOf, Tag(words, page));
    assert |r| == |words|;
    forall i | 0 <= i < |r| ensures r[i] == words[i] {
      assert Tag(words, page)[i] == PageWord(words[i], page);
    }
  }

  /** Dropping the tags gives the pages' words, page after page. */
  lemma {:induction false} PageWordsWords(pages: seq<string>)
    ensures Seqs.Map(WordOf, PageWords(pages)) == Seqs.Flatten(Seqs.Map(Text.PySplit, pages))
    decreases |pages|
  {
    if pages != [] {
      var n := |pages|;
      var init := pages[..n - 1];
      var last := pages[n - 1];
      PageWordsWords(init);
      var tagged := Tag(Text.PySplit(last), n);
      assert PageWords(pages) == PageWords(init) + tagged;
      Seqs.MapAppend(WordOf, PageWords(init), tagged);
      TagWords(Text.PySplit(last), n);
      assert pages == init + [last];
      Seqs.MapAppend(Text.PySplit, init, [last]);
      assert Seqs.Map(Text.PySplit, [last]) == [Text.PySplit(last)];
      Seqs.FlattenSnoc(Seqs.Map(Text.PySplit, init), Text.PySplit(last));
    } else {
      assert Seqs.Map(Text.PySplit, pages) == [];
    }
  }

  /** Every tag is a page number between 1 and the page count. */
  lemma {:induction false} PageWordsPages(pages: seq<string>)
    ensures forall i :: 0 <= i < |PageWords(pages)| ==> 1 <= PageWords(pages)[i].page <= |pages|
    decreases |pages|
  {
    if pages != [] {
      var n := |pages|;
      var init := pages[..n - 1];
      PageWordsPages(init);
      var head := PageWords(init);
      var tagged := Tag(Text.PySplit(pages[n - 1]), n);
      assert PageWords(pages) == head + tagged;
      forall i | 0 <= i < |PageWords(pages)| ensures 1 <= PageWords(pages)[i].page <= n {
        if i < |head| {
          assert (head + tagged)[i] == head[i];
        } else {
          assert (head + tagged)[i] == tagged[i - |head|];
        }
      }
    }
  }

  /** The PDF chunks built from packed tagged words, the first of them at
      position `k0`: the chunk at position 0 carries page -1, every later
      chunk the page of its first word. */
  function PdfChunksFrom(packed: seq<seq<PageWord>>, k0: nat): (r: seq<DocumentChunk>)
    ensures |r| == |packed|
  {
    seq(|packed|, k requires 0 <= k < |packed| =>
      DocumentChunk(if k0 + k == 0 || packed[k] == [] then -1 else packed[k][0].page,
                    C.ChunkText(Seqs.Map(WordOf, packed[k]))))
  }

  /** The reference PDF chunks of a list of page texts. */
  function PdfChunks(pages: seq<string>, chunkSize: int): seq<DocumentChunk> {
    PdfChunksFrom(C.Pack(PageWords(pages), PageWordSize, chunkSize), 0)
  }

  /** The variables of the PDF loop. */
  datatype PdfState = PdfState(chunks: seq<DocumentChunk>, cur: seq<string>, curSize: int, curPage: int)

  const PDF_START := PdfState([], [], 0, -1)

  /** One iteration of the inner `for word in words` loop of the PDF branch.
      The `current_page is None` test can never hold, since the page starts
      at -1 and is only ever set to page numbers. */
  function FeedPdf(st: PdfState, pw: PageWord, chunkSize: int): PdfState {
    var wordSize := |pw.word| + 1;
    if st.curSize + wordSize > chunkSize && |st.cur| != 0 then
      PdfState(st.chunks + [DocumentChunk(st.curPage, C.ChunkText(st.cur))], [pw.word], wordSize, pw.page)
    else PdfState(st.chunks, st.cur + [pw.word], st.curSize + wordSize, st.curPage)
  }

  function FeedPdfAll(st: PdfState, pws: seq<PageWord>, chunkSize: int): PdfState
    decreases |pws|
  {
    if pws == [] then st else FeedPdfAll(FeedPdf(st, pws[0], chunkSize), pws[1..], chunkSize)
  }

  function FlushPdf(st: PdfState): seq<DocumentChunk> {
    if st.cur != [] then st.chunks + [DocumentChunk(st.curPage, C.ChunkText(st.cur))] else st.chunks
  }

  lemma {:induction false} FeedPdfSnoc(st: PdfState, pws: seq<PageWord>, pw: PageWord, chunkSize: int)
    ensures FeedPdfAll(st, pws + [pw], chunkSize) == FeedPdf(FeedPdfAll(st, pws, chunkSize), pw, chunkSize)
    decreases |pws|
  {
    if pws == [] {
      assert pws + [pw] == [pw];
    } else {
      assert (pws + [pw])[0] == pws[0] && (pws + [pw])[1..] == pws[1..] + [pw];
      FeedPdfSnoc(FeedPdf(st, pws[0], chunkSize), pws[1..], pw, chunkSize);
    }
  }

  /** How the loop's variables stand for an open chunk `open` of tagged
      words: the page variable is -1 while nothing has been emitted, and the
      page of the open chunk's first word afterwards. */
  predicate Tracks(st: PdfState, open: seq<PageWord>) {
    && st.cur == Seqs.Map(WordOf, open)
    && (open == [] ==> st.chunks == [] && st.curPage == -1)
    && (open != [] ==> st.curPage == if st.chunks == [] then -1 else open[0].page)
  }

  /** The chunk the loop emits for the open chunk `open` of state `st`. */
  function OpenChunk(st: PdfState, open: seq<PageWord>): DocumentChunk
    requires open != []
  {
    DocumentChunk(if |st.chunks| == 0 then -1 else open[0].page, C.ChunkText(Seqs.Map(WordOf, open)))
  }

  lemma PdfChunksFromCons(c: seq<PageWord>, rest: seq<seq<PageWord>>, k0: nat)
    requires c != []
    ensures PdfChunksFrom([c] + rest, k0)
         == [DocumentChunk(if k0 == 0 then -1 else c[0].page, C.ChunkText(Seqs.Map(WordOf, c)))]
            + PdfChunksFrom(rest, k0 + 1)
  {
    var a := PdfChunksFrom([c] + rest, k0);
    var b := [DocumentChunk(if k0 == 0 then -1 else c[0].page, C.ChunkText(Seqs.Map(WordOf, c)))]
             + PdfChunksFrom(rest, k0 + 1);
    assert |a| == |b|;
    forall k | 0 <= k < |a| ensures a[k] == b[k] {
      if k > 0 {
        assert ([c] + rest)[k] == rest[k - 1];
      }
    }
  }

  /** Whether the loop closes the open chunk before word `pw`. */
  predicate Closes(st: PdfState, open: seq<PageWord>, pw: PageWord, chunkSize: int) {
    st.curSize + PageWordSize(pw) > chunkSize && open != []
  }

  /** The open chunk after word `pw`. */
  function NextOpen(st: PdfState, open: seq<PageWord>, pw: PageWord, chunkSize: int): seq<PageWord> {
    if Closes(st, open, pw, chunkSize) then [pw] else open + [pw]
  }

  lemma TracksNext(st: PdfState, open: seq<PageWord>, pw: PageWord, chunkSize: int)
    requires Tracks(st, open)
    ensures Tracks(FeedPdf(st, pw, chunkSize), NextOpen(st, open, pw, chunkSize))
  {
    if Closes(st, open, pw, chunkSize) {
      assert Seqs.Map(WordOf, [pw]) == [pw.word];
    } else {
      Seqs.MapAppend(WordOf, open, [pw]);
    }
  }

  /** The flush at the end of the words emits the open chunk, if any. */
  lemma FeedPdfPackEnd(st: PdfState, open: seq<PageWord>, chunkSize: int)
    requires Tracks(st, open)
    ensures FlushPdf(st) == st.chunks + PdfChunksFrom(C.PackFrom([], PageWordSize, chunkSize, open, st.curSize), |st.chunks|)
  {
    if open != [] {
      assert C.PackFrom([], PageWordSize, chunkSize, open, st.curSize) == [open];
      PdfChunksFromCons(open, [], |st.chunks|);
    } else {
      assert PdfChunksFrom([], 0) == [];
    }
  }

  /** A word that does not fit closes the open chunk: the loop emits it and
      the reference's next chunk is the same. */
  lemma FeedPdfPackClose(st: PdfState, open: seq<PageWord>, pws: seq<PageWord>, chunkSize: int)
    requires Tracks(st, open) && pws != [] && Closes(st, open, pws[0], chunkSize)
    requires var next := FeedPdf(st, pws[0], chunkSize);
      FlushPdf(FeedPdfAll(next, pws[1..], chunkSize))
      == next.chunks + PdfChunksFrom(C.PackFrom(pws[1..], PageWordSize, chunkSize, [pws[0]], PageWordSize(pws[0])), |next.chunks|)
    ensures FlushPdf(FeedPdfAll(st, pws, chunkSize))
         == st.chunks + PdfChunksFrom(C.PackFrom(pws, PageWordSize, chunkSize, open, st.curSize), |st.chunks|)
  {
    var pw := pws[0];
    var next := FeedPdf(st, pw, chunkSize);
    var rest := C.PackFrom(pws[1..], PageWordSize, chunkSize, [pw], PageWordSize(pw));
    assert FeedPdfAll(st, pws, chunkSize) == FeedPdfAll(next, pws[1..], chunkSize);
    assert C.PackFrom(pws, PageWordSize, chunkSize, open, st.curSize) == [open] + rest;
    assert next.chunks == st.chunks + [OpenChunk(st, open)];
    PdfChunksFromCons(open, rest, |st.chunks|);
    Seqs.Associative(st.chunks, [OpenChunk(st, open)], PdfChunksFrom(rest, |st.chunks| + 1));
  }

  /** A word that fits joins the open chunk, on both sides. */
  lemma FeedPdfPackGrow(st: PdfState, open: seq<PageWord>, pws: seq<PageWord>, chunkSize: int)
    requires Tracks(st, open) && pws != [] && !Closes(st, open, pws[0], chunkSize)
    requires var next := FeedPdf(st, pws[0], chunkSize);
      FlushPdf(FeedPdfAll(next, pws[1..], chunkSize))
      == next.chunks + PdfChunksFrom(C.PackFrom(pws[1..], PageWordSize, chunkSize, open + [pws[0]], st.curSize + PageWordSize(pws[0])), |next.chunks|)
    ensures FlushPdf(FeedPdfAll(st, pws, chunkSize))
         == st.chunks + PdfChunksFrom(C.PackFrom(pws, PageWordSize, chunkSize, open, st.curSize), |st.chunks|)
  {
    var pw := pws[0];
    assert FeedPdfAll(st, pws, chunkSize) == FeedPdfAll(FeedPdf(st, pw, chunkSize), pws[1..], chunkSize);
    assert C.PackFrom(pws, PageWordSize, chunkSize, open, st.curSize)
        == C.PackFrom(pws[1..], PageWordSize, chunkSize, open + [pw], st.curSize + PageWordSize(pw));
  }

  /** The PDF loop, from any state tracking an open chunk, emits the
      reference chunks of the packing of the remaining words. */
  lemma {:induction false} FeedPdfPack(st: PdfState, open: seq<PageWord>, pws: seq<PageWord>, chunkSize: int)
    requires Tracks(st, open)
    ensures FlushPdf(FeedPdfAll(st, pws, chunkSize))
         == st.chunks + PdfChunksFrom(C.PackFrom(pws, PageWordSize, chunkSize, open, st.curSize), |st.chunks|)
    decreases |pws|
  {
    if pws == [] {
      FeedPdfPackEnd(st, open, chunkSize);
    } else {
      var pw := pws[0];
      TracksNext(st, open, pw, chunkSize);
      var next := FeedPdf(st, pw, chunkSize);
      if Closes(st, open, pw, chunkSize) {
        FeedPdfPack(next, [pw], pws[1..], chunkSize);
        FeedPdfPackClose(st, open, pws, chunkSize);
      } else {
        assert next.curSize == st.curSize + PageWordSize(pw);
        FeedPdfPack(next, open + [pw], pws[1..], chunkSize);
        FeedPdfPackGrow(st, open, pws, chunkSize);
      }
    }
  }

  lemma PageWordsNext(pages: seq<string>, p: nat)
    requires p < |pages|
    ensures PageWords(pages[..p + 1]) == PageWords(pages[..p]) + Tag(Text.PySplit(pages[p]), p + 1)
  {
    assert pages[..p + 1][..p] == pages[..p];
  }

  /** Feeding one more word of a page continues the fold over the tagged
      words seen so far. */
  lemma FeedPdfTagStep(before: seq<PageWord>, words: seq<string>, i: nat, page: int, chunkSize: int)
    requires i < |words|
    ensures FeedPdfAll(PDF_START, before + Tag(words[..i + 1], page), chunkSize)
         == FeedPdf(FeedPdfAll(PDF_START, before + Tag(words[..i], page), chunkSize), PageWord(words[i], page), chunkSize)
  {
    var prev := before + Tag(words[..i], page);
    assert Tag(words[..i + 1], page) == Tag(words[..i], page) + [PageWord(words[i], page)];
    assert before + Tag(words[..i + 1], page) == prev + [PageWord(words[i], page)];
    FeedPdfSnoc(PDF_START, prev, PageWord(words[i], page), chunkSize);
  }

  /** The PDF branch of `_chunk_file`, as the source's two nested loops. */
  method ChunkPdf(pages: seq<string>, chunkSize: int) returns (chunks: seq<DocumentChunk>)
    ensures chunks == PdfChunks(pages, chunkSize)
  {
    var st := PDF_START;
    for p := 0 to |pages|
      invariant st == FeedPdfAll(PDF_START, PageWords(pages[..p]), chunkSize)
    {
      var pageNum := p + 1;
      var words := Text.PySplit(pages[p]);
      ghost var before := PageWords(pages[..p]);
      assert Tag(words[..0], pageNum) == [];
      assert before + Tag(words[..0], pageNum) == before;
      for i := 0 to |words|
        invariant st == FeedPdfAll(PDF_START, before + Tag(words[..i], pageNum), chunkSize)
      {
        var word := words[i];
        var wordSize := |word| + 1;
        ghost var prev := st;
        if st.curSize + wordSize > chunkSize && |st.cur| != 0 {
          st := PdfState(st.chunks + [DocumentChunk(st.curPage, C.ChunkText(st.cur))], [word], wordSize, pageNum);
        } else {
          st := st.(cur := st.cur + [word], curSize := st.curSize + wordSize);
        }
        assert st == FeedPdf(prev, PageWord(word, pageNum), chunkSize);
        FeedPdfTagStep(before, words, i, pageNum, chunkSize);
      }
      assert words[..|words|] == words;
      PageWordsNext(pages, p);
    }
    chunks := FlushPdf(st);
    assert pages[..|pages|] == pages;
    FeedPdfPack(PDF_START, [], PageWords(pages), chunkSize);
  }

  /** The text of the PDF chunks is exactly the chunking of the pages' words
      that the text copies compute, and every chunk but the first carries
      the page of its first word, a page between 1 and the page count. */
  lemma PdfChunksAgree(pages: seq<string>, chunkSize: int)
    ensures var r := PdfChunks(pages, chunkSize);
      var words := Seqs.Flatten(Seqs.Map(Text.PySplit, pages));
      && |r| == |C.Chunks(words, chunkSize)|
      && (forall k :: 0 <= k < |r| ==> r[k].text == C.Chunks(words, chunkSize)[k])
      && (|r| > 0 ==> r[0].pageNumber == -1)
      && (forall k :: 1 <= k < |r| ==> 1 <= r[k].pageNumber <= |pages|)
  {
    var pws := PageWords(pages);
    var packed := C.Pack(pws, PageWordSize, chunkSize);
    PageWordsWords(pages);
    PageWordsPages(pages);
    C.PackFromMap(pws, WordOf, PageWordSize, C.WordSize, chunkSize, [], 0);
    assert Seqs.Map(WordOf, []) == [];
    var F := (c: seq<PageWord>) => Seqs.Map(WordOf, c);
    assert Seqs.Map(F, packed) == C.PackWords(Seqs.Map(WordOf, pws), chunkSize);
    C.PackSound(pws, PageWordSize, chunkSize);
    var r := PdfChunks(pages, chunkSize);
    forall k | 1 <= k < |r| ensures 1 <= r[k].pageNumber <= |pages| {
      assert packed[k] != [];
      Seqs.FlattenHas(packed, k, 0);
      var j :| 0 <= j < |pws| && pws[j] == packed[k][0];
    }
  }

  /** The text branch of `_chunk_file`: the same packing over the words of
      every line, each chunk on page 1. */
  method ChunkTxt(lines: seq<string>, chunkSize: int) returns (chunks: seq<DocumentChunk>)
    ensures var words := Seqs.Flatten(Seqs.Map(Text.PySplit, lines));
      && |chunks| == |C.Chunks(words, chunkSize)|
      && forall k :: 0 <= k < |chunks| ==> chunks[k] == DocumentChunk(1, C.Chunks(words, chunkSize)[k])
  {
    var texts: seq<string> := [];
    var currentChunk: seq<string> := [];
    var currentSize := 0;
    ghost var seen: seq<string> := [];
    for l := 0 to |lines|
      invariant seen == Seqs.Flatten(Seqs.Map(Text.PySplit, lines[..l]))
      invariant C.WordState(texts, currentChunk, currentSize) == C.FeedWords(C.START, seen, chunkSize)
    {
      var words := Text.PySplit(lines[l]);
      texts, currentChunk, currentSize := FeedLine(texts, currentChunk, currentSize, words, chunkSize, seen);
      FlattenSnoc(lines, l);
      seen := seen + words;
    }
    ghost var last := C.WordState(texts, currentChunk, currentSize);
    if currentChunk != [] {
      texts := texts + [C.ChunkText(currentChunk)];
    }
    assert texts == C.FlushWords(last);
    assert lines[..|lines|] == lines;
    C.LoopComputesChunks(seen, chunkSize);
    chunks := Seqs.Map((t: string) => DocumentChunk(1, t), texts);
  }

  /** The inner `for word in words` loop of the text branch over the words
      of one line, continuing the fold over the words `seen` before it. */
  method FeedLine(texts: seq<string>, currentChunk: seq<string>, currentSize: int, words: seq<string>,
                  chunkSize: int, ghost seen: seq<string>)
    returns (texts': seq<string>, currentChunk': seq<string>, currentSize': int)
    requires C.WordState(texts, currentChunk, currentSize) == C.FeedWords(C.START, seen, chunkSize)
    ensures C.WordState(texts', currentChunk', currentSize') == C.FeedWords(C.START, seen + words, chunkSize)
  {
    texts', currentChunk', currentSize' := texts, currentChunk, currentSize;
    assert seen + words[..0] == seen;
    for i := 0 to |words|
      invariant C.WordState(texts', currentChunk', currentSize') == C.FeedWords(C.START, seen + words[..i], chunkSize)
    {
      var word := words[i];
      var wordSize := |word| + 1;
      ghost var prev := C.WordState(texts', currentChunk', currentSize');
      if currentSize' + wordSize > chunkSize && |currentChunk'| != 0 {
        texts' := texts' + [C.ChunkText(currentChunk')];
        currentChunk' := [word];
        currentSize' := wordSize;
      } else {
        currentChunk' := currentChunk' + [word];
        currentSize' := currentSize' + wordSize;
      }
      assert C.WordState(texts', currentChunk', currentSize') == C.FeedWord(prev, word, chunkSize);
      FeedWordsPrefixStep(seen, words, i, chunkSize);
    }
    assert words[..|words|] == words;
  }

  /** Feeding the next word of a line continues the fold over the words
      seen so far. */
  lemma FeedWordsPrefixStep(seen: seq<string>, words: seq<string>, i: nat, chunkSize: int)
    requires i < |words|
    ensures C.FeedWords(C.START, seen + words[..i + 1], chunkSize)
         == C.FeedWord(C.FeedWords(C.START, seen + words[..i], chunkSize), words[i], chunkSize)
  {
    assert seen + words[..i + 1] == (seen + words[..i]) + [words[i]];
    C.FeedWordsSnoc(C.START, seen + words[..i], words[i], chunkSize);
  }

  lemma FlattenSnoc(lines: seq<string>, l: nat)
    requires l < |lines|
    ensures Seqs.Flatten(Seqs.Map(Text.PySplit, lines[..l + 1]))
         == Seqs.Flatten(Seqs.Map(Text.PySplit, lines[..l])) + Text.PySplit(lines[l])
  {
    assert Seqs.Map(Text.PySplit, lines[..l + 1]) == Seqs.Map(Text.PySplit, lines[..l]) + [Text.PySplit(lines[l])];
    Seqs.FlattenAppend(Seqs.Map(Text.PySplit, lines[..l]), [Text.PySplit(lines[l])]);
    assert Seqs.Flatten([Text.PySplit(lines[l])]) == Text.PySplit(lines[l]) + Seqs.Flatten([]);
  }

  const UNSUPPORTED_FORMAT := "Unsupported file format. Supported: .pdf, .txt"

  /** What the two readers would see of one file: its page texts and its
      lines. Which one is read depends on the path's extension. */
  datatype FileContent = FileContent(pages: seq<string>, lines: seq<string>)

  /** `_chunk_file`. */
  method ChunkFile(filePath: string, file: FileContent, chunkSize: int) returns (r: Result<seq<DocumentChunk>>)
    ensures Text.EndsWith(filePath, ".pdf") ==> r == Success(PdfChunks(file.pages, chunkSize))
    ensures !Text.EndsWith(filePath, ".pdf") && Text.EndsWith(filePath, ".txt") ==>
      var texts := C.Chunks(Seqs.Flatten(Seqs.Map(Text.PySplit, file.lines)), chunkSize);
      && r.Success? && |r.value| == |texts|
      && forall k :: 0 <= k < |texts| ==> r.value[k] == DocumentChunk(1, texts[k])
    ensures r.Failure? <==> !Text.EndsWith(filePath, ".pdf") && !Text.EndsWith(filePath, ".txt")
    ensures r.Failure? ==> r.error == UNSUPPORTED_FORMAT
  {
    if Text.EndsWith(filePath, ".pdf") {
      var chunks := ChunkPdf(file.pages, chunkSize);
      return Success(chunks);
    } else if Text.EndsWith(filePath, ".txt") {
      var chunks := ChunkTxt(file.lines, chunkSize);
      return Success(chunks);
    }
    return Failure(UNSUPPORTED_FORMAT);
  }

  /** `ChunkMetadata` of this service. */
  datatype ChunkMetadata = ChunkMetadata(
    chunkIndex: int,
    sourceName: string,
    content: string,
    pageNumber: int,
    customMetadata: map<string, Json.Json>)

  /** `process_document`: the chunks of the file, numbered 0, 1, 2, … in
      order, each with the file name, its text, its page and the custom
      metadata. */
  method ProcessDocument(filePath: string, filename: string, file: FileContent, chunkSize: int,
                         customMetadata: map<string, Json.Json>)
    returns (r: Result<seq<ChunkMetadata>>)
    ensures r.Failure? <==> !Text.EndsWith(filePath, ".pdf") && !Text.EndsWith(filePath, ".txt")
    ensures r.Failure? ==> r.error == UNSUPPORTED_FORMAT
    ensures Text.EndsWith(filePath, ".pdf") ==>
      var chunks := PdfChunks(file.pages, chunkSize);
      && r.Success? && |r.value| == |chunks|
      && forall i :: 0 <= i < |chunks| ==>
           r.value[i] == ChunkMetadata(i, filename, chunks[i].text, chunks[i].pageNumber, customMetadata)
    ensures !Text.EndsWith(filePath, ".pdf") && Text.EndsWith(filePath, ".txt") ==>
      var texts := C.Chunks(Seqs.Flatten(Seqs.Map(Text.PySplit, file.lines)), chunkSize);
      && r.Success? && |r.value| == |texts|
      && forall i :: 0 <= i < |texts| ==> r.value[i] == ChunkMetadata(i, filename, texts[i], 1, customMetadata)
    ensures r.Success? ==> forall i :: 0 <= i < |r.value| ==> r.value[i].chunkIndex == i
  {
    var chunks :- ChunkFile(filePath, file, chunkSize);
    var points: seq<ChunkMetadata> := [];
    var chunkIndex := 0;
    for k := 0 to |chunks|
      invariant chunkIndex == k == |points|
      invariant forall i :: 0 <= i < k ==>
        points[i] == ChunkMetadata(i, filename, chunks[i].text, chunks[i].pageNumber, customMetadata)
    {
      points := points + [ChunkMetadata(chunkIndex, filename, chunks[k].text, chunks[k].pageNumber, customMetadata)];
      chunkIndex := chunkIndex + 1;
    }
    return Success(points);
  }
}

=== FILE: graph_service.dfy ===
/** The streaming execution driver `stream_graph` of `service/graph_service.py`.

    The driver's `asyncio.wait` race is an oracle: each loop iteration
    consumes one `Race`, saying whether the stop task is among the finished
    tasks and what the pending graph step did within the heartbeat interval.
    The driver itself is a pure fold over those races that yields the event
    list; the active-invocation set is threaded through explicitly. */
module GraphService {
  import opened Wrappers
  import opened Json
  import Seqs
  import CM = CopyMessages
  import W = StopSignalWaiter
  import PyRepr

  const HEARTBEAT_INTERVAL: nat := 30
  const MAX_TIME_THRESHOLD_PER_NODE: nat := 600
  const STOP_SIGNAL_POLL_INTERVAL: real := 0.5
  const STOP_SIGNAL_TOTAL_WAIT_TIME: real := 600.0

  /** Consecutive heartbeats on one step after which the loop gives up. */
  const MAX_HEARTBEATS_PER_NODE: nat := MAX_TIME_THRESHOLD_PER_NODE / HEARTBEAT_INTERVAL

  type Id = string

  datatype EventKind =
    | GraphStart
    | Heartbeat
    | NodeComplete(node: string, state: Json)
    | Custom(eventType: Json, value: map<string, Json>)
    | GraphComplete(state: Json)
    | Stopped
    | Error(message: string)

  datatype Event = Event(invocationId: Id, kind: EventKind)

  predicate IsTerminal(e: Event) {
    e.kind.GraphComplete? || e.kind.Stopped? || e.kind.Error?
  }

  /** The event as the dictionary `stream_graph` serialises. The error text
      sits under "event_data"; every other payload under "event_value". */
  function ToJson(e: Event): Json {
    var base := map["invocation_id" := JStr(e.invocationId)];
    match e.kind
    case GraphStart => JObj(base["event_type" := JStr("graph_start")])
    case Heartbeat => JObj(base["event_type" := JStr("heartbeat")])
    case NodeComplete(node, state) =>
      JObj(base["event_type" := JStr("node_complete")]
               ["event_value" := JObj(map["node" := JStr(node), "graph_state" := state])])
    case Custom(t, v) => JObj(base["event_type" := t]["event_value" := JObj(v)])
    case GraphComplete(state) =>
      JObj(base["event_type" := JStr("graph_complete")]
               ["event_value" := JObj(map["graph_state" := state])])
    case Stopped => JObj(base["event_type" := JStr("stopped")])
    case Error(message) =>
      JObj(base["event_type" := JStr("error")]
               ["event_data" := JObj(map["error" := JStr(message)])])
  }

  /** One Server-Sent Events frame: `data: <json>` followed by a blank line. */
  function Frame(payload: string): (f: string)
    ensures f == "data: " + payload + "\n\n"
  {
    "data: " + payload + "\n\n"
  }

  /** The byte stream of a trace, given the JSON serialiser. */
  function Frames(events: seq<Event>, encode: Json -> string): string
    decreases |events|
  {
    if events == [] then [] else Frame(encode(ToJson(events[0]))) + Frames(events[1..], encode)
  }

  /** One output of the graph stream in stream modes "updates" and "custom". */
  datatype Output =
    | Updates(data: seq<(string, Json)>)
    | CustomOutput(payload: map<string, Json>)
    | OtherMode(mode: string)

  /** What the pending step had done when the race returned. */
  datatype StepStatus =
    | Running
    | Yielded(output: Output)
    | Exhausted
    | Raised(message: string)

  /** One `asyncio.wait(..., FIRST_COMPLETED, timeout=HEARTBEAT_INTERVAL)`. */
  datatype Race = Race(stopDone: bool, step: StepStatus)

  /** Loop state: a step is in flight (`pending`), the heartbeat-accounted
      time spent on it, the latest graph state and the stop waiter. */
  datatype Driver = Driver(id: Id, pending: bool, elapsed: nat, state: Json, waiter: W.Waiter)

  /** How the loop ended; `Suspended` means the races ran out while it was
      still running. */
  datatype Exit = Completed | StoppedExit | Failed | Suspended(driver: Driver)

  datatype Trace = Trace(events: seq<Event>, exit: Exit)

  /** Starting the next step: mark it pending, zero the elapsed time, reset
      the stop waiter. */
  function Launch(d: Driver): (d': Driver)
    ensures d'.pending && d'.elapsed == 0 && d'.waiter == W.Reset(d.waiter)
    ensures d'.id == d.id && d'.state == d.state
  {
    d.(pending := true, elapsed := 0, waiter := W.Reset(d.waiter))
  }

  /** The custom event for a payload: its "type" (default "none") and the
      rest of the payload. A payload whose "type" names a terminal event,
      such as "graph_complete", reaches a client as that event type, yet
      it is a relayed custom event: `IsTerminal` does not hold of it and
      the driver goes on. */
  function CustomEvent(payload: map<string, Json>): (k: EventKind)
    ensures k.Custom?
    ensures "type" in payload ==> k.eventType == payload["type"]
    ensures "type" !in payload ==> k.eventType == JStr("none")
    ensures k.value.Keys == payload.Keys - {"type"}
    ensures forall key :: key in k.value ==> k.value[key] == payload[key]
  {
    Custom(if "type" in payload then payload["type"] else JStr("none"), payload - {"type"})
  }

  /** Python's text of `IndexError` from `list(data.keys())[0]` on an empty dict. */
  const INDEX_ERROR_TEXT := "list index out of range"

  /** The result of one iteration after the launch check. */
  datatype Tick = Continue(emitted: seq<Event>, next: Driver) | Finish(last: Event, exit: Exit)

  /** One race outcome, applied to a driver whose step is in flight. The stop
      task is looked at first, so a stop wins over a step that finished in
      the same race. */
  function Step(d: Driver, race: Race): (t: Tick)
    requires d.pending
    ensures t.Continue? ==> (t.next.id == d.id && |t.emitted| <= 1
                             && forall e :: e in t.emitted ==>
                                  !IsTerminal(e) && !e.kind.GraphStart? && e.invocationId == d.id)
    ensures t.Finish? ==> IsTerminal(t.last) && t.last.invocationId == d.id && !t.exit.Suspended?
    ensures race.stopDone ==> t == Finish(Event(d.id, Stopped), StoppedExit)
    ensures t.Continue? && race.step.Running? ==> t.next.pending
    ensures t.Continue? && !race.step.Running? ==> !t.next.pending
  {
    if race.stopDone then Finish(Event(d.id, Stopped), StoppedExit)
    else match race.step
      case Running =>
        Continue([Event(d.id, Heartbeat)], d.(elapsed := d.elapsed + HEARTBEAT_INTERVAL))
      case Exhausted => Finish(Event(d.id, GraphComplete(d.state)), Completed)
      case Raised(message) => Finish(Event(d.id, Error(message)), Failed)
      case Yielded(out) =>
        match out
        case Updates(data) =>
          if data == [] then Finish(Event(d.id, Error(INDEX_ERROR_TEXT)), Failed)
          else Continue([Event(d.id, NodeComplete(data[0].0, data[0].1))],
                        d.(pending := false, state := data[0].1))
        case CustomOutput(payload) =>
          Continue([Event(d.id, CustomEvent(payload))], d.(pending := false))
        case OtherMode(_) => Continue([], d.(pending := false))
  }

  /** Non-terminal everywhere except possibly the last position, which is
      terminal exactly when the loop ended. */
  predicate WellShaped(t: Trace, id: Id) {
    && (forall i :: 0 <= i < |t.events| ==> t.events[i].invocationId == id)
    && (forall i :: 0 <= i < |t.events| - 1 ==> !IsTerminal(t.events[i]))
    && (!t.exit.Suspended? <==> (|t.events| > 0 && IsTerminal(t.events[|t.events| - 1])))
  }

  /** The `while node_elapsed_time < MAX_TIME_THRESHOLD_PER_NODE` loop and the
      `graph_complete` emitted when it exits normally. */
  function Loop(d: Driver, races: seq<Race>): (t: Trace)
    ensures WellShaped(t, d.id)
    ensures forall i :: 0 <= i < |t.events| ==> !t.events[i].kind.GraphStart?
    ensures t.exit.Completed? ==> t.events[|t.events| - 1].kind.GraphComplete?
    ensures t.exit.StoppedExit? ==> t.events[|t.events| - 1].kind.Stopped?
    ensures t.exit.Failed? ==> t.events[|t.events| - 1].kind.Error?
    decreases |races|
  {
    if d.elapsed >= MAX_TIME_THRESHOLD_PER_NODE then
      Trace([Event(d.id, GraphComplete(d.state))], Completed)
    else
      var d1 := if !d.pending then Launch(d) else d;
      if races == [] then Trace([], Suspended(d1))
      else
        match Step(d1, races[0])
        case Finish(last, exit) => Trace([last], exit)
        case Continue(emitted, next) =>
          var rest := Loop(next, races[1..]);
          PrefixKeepsShape(emitted, rest, d.id);
          Trace(emitted + rest.events, rest.exit)
  }

  /** The loop's trace facts survive putting non-terminal events of the same
      invocation in front. */
  lemma PrefixKeepsShape(emitted: seq<Event>, rest: Trace, id: Id)
    requires forall e :: e in emitted ==> !IsTerminal(e) && !e.kind.GraphStart? && e.invocationId == id
    requires WellShaped(rest, id)
    requires forall i :: 0 <= i < |rest.events| ==> !rest.events[i].kind.GraphStart?
    requires rest.exit.Completed? ==> rest.events[|rest.events| - 1].kind.GraphComplete?
    requires rest.exit.StoppedExit? ==> rest.events[|rest.events| - 1].kind.Stopped?
    requires rest.exit.Failed? ==> rest.events[|rest.events| - 1].kind.Error?
    ensures var t := Trace(emitted + rest.events, rest.exit);
      && WellShaped(t, id)
      && (forall i :: 0 <= i < |t.events| ==> !t.events[i].kind.GraphStart?)
      && (t.exit.Completed? ==> t.events[|t.events| - 1].kind.GraphComplete?)
      && (t.exit.StoppedExit? ==> t.events[|t.events| - 1].kind.Stopped?)
      && (t.exit.Failed? ==> t.events[|t.events| - 1].kind.Error?)
  {
    var es := emitted + rest.events;
    forall i | 0 <= i < |es|
      ensures es[i].invocationId == id && !es[i].kind.GraphStart?
      ensures i < |es| - 1 ==> !IsTerminal(es[i])
    {
      if i < |emitted| {
        assert es[i] == emitted[i] && emitted[i] in emitted;
      } else {
        assert es[i] == rest.events[i - |emitted|];
      }
    }
    if |rest.events| > 0 {
      assert es[|es| - 1] == rest.events[|rest.events| - 1];
    } else if |emitted| > 0 {
      assert es[|es| - 1] == emitted[|emitted| - 1] && emitted[|emitted| - 1] in emitted;
    }
  }

  /** The request body `GraphInput`. */
  datatype GraphInput = GraphInput(userQuery: string, profileId: string, messages: seq<CM.RawMessage>)

  /** `str()` of a `RawChatMessage` in the "Invalid message" error: pydantic
      shows each field as `name=repr(value)`, separated by a space. */
  function RenderMessage(m: CM.RawMessage): string {
    "role=" + PyRepr.Repr(m.role) + " content=" + PyRepr.Repr(m.content)
  }

  /** The input conversion: role "user" becomes a human message, "ai" an AI
      message, anything else raises naming the message. */
  function ConvertMessages(ms: seq<CM.RawMessage>): (r: Result<seq<CM.Message>>)
    ensures r.Success? <==> forall i :: 0 <= i < |ms| ==> ms[i].role in {"user", "ai"}
    ensures r.Success? ==> |r.value| == |ms| && forall i :: 0 <= i < |ms| ==>
      r.value[i] == (if ms[i].role == "user" then CM.Human(ms[i].content) else CM.Ai(ms[i].content))
    ensures r.Failure? ==> (exists i :: 0 <= i < |ms| && ms[i].role !in {"user", "ai"}
                                        && (forall j :: 0 <= j < i ==> ms[j].role in {"user", "ai"})
                                        && r.error == "Invalid message: " + RenderMessage(ms[i]))
    decreases |ms|
  {
    if ms == [] then Success([])
    else
      var m := ms[0];
      var first :-
        if m.role == "user" then Success(CM.Human(m.content))
        else if m.role == "ai" then Success(CM.Ai(m.content))
        else Failure("Invalid message: " + RenderMessage(m));
      var rest :- ConvertMessages(ms[1..]);
      Success([first] + rest)
  }

  function MessageJson(m: CM.Message): Json {
    match m
    case System(c) => JObj(map["type" := JStr("system"), "content" := JStr(c)])
    case Human(c) => JObj(map["type" := JStr("human"), "content" := JStr(c)])
    case Ai(c) => JObj(map["type" := JStr("ai"), "content" := JStr(c)])
    case Other(t, c) => JObj(map["type" := JStr(t), "content" := JStr(c)])
  }

  /** The initial `GraphState` built from the request. */
  function InitialState(input: GraphInput, ms: seq<CM.Message>): Json {
    JObj(map["user_query" := JStr(input.userQuery),
             "profile_id" := JStr(input.profileId),
             "messages" := JArr(Seqs.Map(MessageJson, ms))])
  }

  /** The outcome of one `stream_graph` call: the events it yielded, how it
      ended, and the active-invocation set afterwards. */
  datatype Invocation = Invocation(events: seq<Event>, exit: Exit, active: set<Id>)

  /** The stop condition the waiter polls. */
  predicate StopRequested(active: set<Id>, id: Id) {
    id !in active
  }

  /** `stream_graph` for the fresh invocation id `id`, with `active` the
      module's `_invocations` set on entry. */
  function StreamGraph(input: GraphInput, id: Id, active: set<Id>, races: seq<Race>): (r: Invocation)
    ensures |r.events| >= 1 && r.events[0] == Event(id, GraphStart)
    ensures forall i :: 1 <= i < |r.events| ==> !r.events[i].kind.GraphStart?
    ensures WellShaped(Trace(r.events, r.exit), id)
    ensures !r.exit.Suspended? ==> r.active == active - {id} && StopRequested(r.active, id)
    ensures r.exit.Suspended? ==> r.active == active + {id} && !StopRequested(r.active, id)
  {
    var start := Event(id, GraphStart);
    match ConvertMessages(input.messages)
    case Failure(message) =>
      Invocation([start, Event(id, Error(message))], Failed, active - {id})
    case Success(ms) =>
      var d := Driver(id, false, 0, InitialState(input, ms),
                      W.NewWaiter(STOP_SIGNAL_TOTAL_WAIT_TIME, STOP_SIGNAL_POLL_INTERVAL));
      var t := Loop(d, races);
      Invocation([start] + t.events, t.exit,
                 if t.exit.Suspended? then active + {id} else active - {id})
  }

  // ----- Properties of the trace -----

  /** A trace that has ended holds exactly one terminal event, and it is the
      last event; a suspended trace holds none. */
  lemma {:induction false} TerminalCount(events: seq<Event>, exit: Exit, id: Id)
    requires WellShaped(Trace(events, exit), id)
    ensures Seqs.CountIf(IsTerminal, events) == if exit.Suspended? then 0 else 1
    decreases |events|
  {
    if events != [] {
      if |events| == 1 {
        assert events[1..] == [];
      } else {
        assert !IsTerminal(events[0]);
        var rest := events[1..];
        assert forall i :: 0 <= i < |rest| - 1 ==> rest[i] == events[i + 1];
        assert rest[|rest| - 1] == events[|events| - 1];
        TerminalCount(rest, exit, id);
      }
    }
  }

  lemma ExactlyOneTerminal(input: GraphInput, id: Id, active: set<Id>, races: seq<Race>)
    requires !StreamGraph(input, id, active, races).exit.Suspended?
    ensures var r := StreamGraph(input, id, active, races);
      Seqs.CountIf(IsTerminal, r.events) == 1 && IsTerminal(r.events[|r.events| - 1])
  {
    var r := StreamGraph(input, id, active, races);
    TerminalCount(r.events, r.exit, id);
  }

  /** A finished stop task ends the invocation with `stopped`, whatever the
      step did in the same race (even when the waiter gave up rather than
      observed a stop). */
  lemma StopWinsTies(d: Driver, race: Race, rest: seq<Race>)
    requires race.stopDone && d.elapsed < MAX_TIME_THRESHOLD_PER_NODE
    ensures Loop(d, [race] + rest) == Trace([Event(d.id, Stopped)], StoppedExit)
  {
    assert ([race] + rest)[0] == race;
  }

  /** A race that times out emits a heartbeat, adds one heartbeat interval to
      the step's elapsed time and keeps the same step in flight (no relaunch,
      no waiter reset). */
  lemma HeartbeatKeepsStep(d: Driver, rest: seq<Race>)
    requires d.pending && d.elapsed < MAX_TIME_THRESHOLD_PER_NODE
    ensures Loop(d, [Race(false, Running)] + rest)
      == var t := Loop(d.(elapsed := d.elapsed + HEARTBEAT_INTERVAL), rest);
         Trace([Event(d.id, Heartbeat)] + t.events, t.exit)
  {
    var races := [Race(false, Running)] + rest;
    assert races[0] == Race(false, Running);
    assert races[1..] == rest;
    assert Step(d, races[0]) == Continue([Event(d.id, Heartbeat)], d.(elapsed := d.elapsed + HEARTBEAT_INTERVAL));
  }

  /** With no step in flight the loop launches one: elapsed time back to 0 and
      the waiter reset before the race is looked at. */
  lemma LaunchResets(d: Driver, race: Race, rest: seq<Race>)
    requires !d.pending && d.elapsed < MAX_TIME_THRESHOLD_PER_NODE
    ensures Loop(d, [race] + rest) == Loop(Launch(d), [race] + rest)
    ensures Launch(d).elapsed == 0 && Launch(d).waiter.timeElapsed == 0.0
  {
    assert ([race] + rest)[0] == race;
    assert ([race] + rest)[1..] == rest;
  }

  function Timeouts(n: nat): (rs: seq<Race>)
    ensures |rs| == n && forall i :: 0 <= i < n ==> rs[i] == Race(false, Running)
  {
    seq(n, _ => Race(false, Running))
  }

  function Heartbeats(id: Id, n: nat): (es: seq<Event>)
    ensures |es| == n && forall i :: 0 <= i < n ==> es[i] == Event(id, Heartbeat)
  {
    seq(n, _ => Event(id, Heartbeat))
  }

  lemma {:induction false} StallFrom(d: Driver, k: nat, rest: seq<Race>)
    requires d.pending && k <= MAX_HEARTBEATS_PER_NODE
    requires d.elapsed == k * HEARTBEAT_INTERVAL
    ensures Loop(d, Timeouts(MAX_HEARTBEATS_PER_NODE - k) + rest)
      == Trace(Heartbeats(d.id, MAX_HEARTBEATS_PER_NODE - k) + [Event(d.id, GraphComplete(d.state))], Completed)
    decreases MAX_HEARTBEATS_PER_NODE - k
  {
    assert MAX_HEARTBEATS_PER_NODE == 20;
    assert d.elapsed == k * 30;
    var n := MAX_HEARTBEATS_PER_NODE - k;
    if n > 0 {
      assert d.elapsed < MAX_TIME_THRESHOLD_PER_NODE;
      var next := d.(elapsed := d.elapsed + HEARTBEAT_INTERVAL);
      assert next.elapsed == (k + 1) * HEARTBEAT_INTERVAL;
      var tail := Timeouts(n - 1) + rest;
      assert Timeouts(n) + rest == [Race(false, Running)] + tail;
      HeartbeatKeepsStep(d, tail);
      StallFrom(next, k + 1, rest);
      var gc := [Event(d.id, GraphComplete(d.state))];
      assert Heartbeats(d.id, n) == [Event(d.id, Heartbeat)] + Heartbeats(d.id, n - 1);
      Seqs.Associative([Event(d.id, Heartbeat)], Heartbeats(d.id, n - 1), gc);
    } else {
      assert d.elapsed >= MAX_TIME_THRESHOLD_PER_NODE;
      assert Timeouts(0) + rest == rest;
      assert Heartbeats(d.id, 0) == [];
    }
  }

  /** Twenty consecutive timeouts on one step (600 s at 30 s per heartbeat)
      end the loop, and the invocation ends with `graph_complete`, not
      `stopped`; the races after them are never looked at. */
  lemma StallEndsInGraphComplete(d: Driver, rest: seq<Race>)
    requires !d.pending && d.elapsed < MAX_TIME_THRESHOLD_PER_NODE
    ensures MAX_HEARTBEATS_PER_NODE == 20
    ensures Loop(d, Timeouts(MAX_HEARTBEATS_PER_NODE) + rest)
      == Trace(Heartbeats(d.id, MAX_HEARTBEATS_PER_NODE) + [Event(d.id, GraphComplete(d.state))], Completed)
  {
    var races := Timeouts(MAX_HEARTBEATS_PER_NODE) + rest;
    assert races[0] == Race(false, Running);
    assert Loop(d, races) == Loop(Launch(d), races);
    StallFrom(Launch(d), 0, rest);
  }

  /** An "updates" output yields `node_complete` named by the update's first
      key, adopts that node's state and clears the pending step. */
  lemma UpdateCompletesNode(d: Driver, data: seq<(string, Json)>, rest: seq<Race>)
    requires d.pending && d.elapsed < MAX_TIME_THRESHOLD_PER_NODE && |data| > 0
    ensures Loop(d, [Race(false, Yielded(Updates(data)))] + rest)
      == var t := Loop(d.(pending := false, state := data[0].1), rest);
         Trace([Event(d.id, NodeComplete(data[0].0, data[0].1))] + t.events, t.exit)
  {
    assert ([Race(false, Yielded(Updates(data)))] + rest)[1..] == rest;
  }

  /** A "custom" output is relayed with its own type and the remaining
      payload, and clears the pending step. */
  lemma CustomIsRelayed(d: Driver, payload: map<string, Json>, rest: seq<Race>)
    requires d.pending && d.elapsed < MAX_TIME_THRESHOLD_PER_NODE
    ensures Loop(d, [Race(false, Yielded(CustomOutput(payload)))] + rest)
      == var t := Loop(d.(pending := false), rest);
         Trace([Event(d.id, CustomEvent(payload))] + t.events, t.exit)
  {
    assert ([Race(false, Yielded(CustomOutput(payload)))] + rest)[1..] == rest;
  }

  /** A message with a role other than "user" or "ai" ends the invocation
      right after `graph_start` with an `error` event, whose text is
      serialised under "event_data" and not "event_value". */
  lemma InvalidRoleIsError(input: GraphInput, id: Id, active: set<Id>, races: seq<Race>, i: nat)
    requires i < |input.messages| && input.messages[i].role !in {"user", "ai"}
    ensures var r := StreamGraph(input, id, active, races);
      && |r.events| == 2 && r.events[1].kind.Error? && r.exit == Failed
      && "event_data" in ToJson(r.events[1]).fields
      && "event_value" !in ToJson(r.events[1]).fields
      && StopRequested(r.active, id)
  {
  }
}

=== FILE: http.dfy ===
/** The outcome of a FastAPI route: the returned body, or the status code
    and detail of an `HTTPException`. */
module Http {
  datatype Response<T> =
    | Ok(body: T)
    | HttpError(status: nat, detail: string)

  const BAD_REQUEST: nat := 400
  const NOT_FOUND: nat := 404
  /** An exception no route catches, such as a primary-key violation. */
  const INTERNAL_SERVER_ERROR: nat := 500
}

=== FILE: invocations.dfy ===
/** Stored graph invocations: the service in `service/database_service.py`
    and the routes of `router/invocations_router.py`.

    The table is the list of rows in insertion order, with `invocation_id`
    as its primary key. The routes call the service under other names
    (`get_invocation_by_id`, `delete_invocation_by_id`); they are taken to
    be the service functions below. */
module Invocations {
  import opened Wrappers
  import opened Json
  import Seqs
  import Sorting
  import Http

  datatype Invocation = Invocation(invocationId: string, profileId: string, userQuery: string,
                                   status: string, graphState: Option<Json>, createdAt: real)

  /** `InvocationCreate`: the body of a create request. */
  datatype InvocationCreate = InvocationCreate(invocationId: string, profileId: string, userQuery: string,
                                               status: string, graphState: Option<Json>)

  /** `InvocationUpdate`: a missing field is left as it is. */
  datatype InvocationUpdate = InvocationUpdate(status: Option<string>, graphState: Option<Json>)

  type Table = seq<Invocation>

  predicate UniqueIds(t: Table) {
    forall i, j :: 0 <= i < j < |t| ==> t[i].invocationId != t[j].invocationId
  }

  /** The row the filter `invocation_id == id AND profile_id == profile`
      selects. */
  predicate Owned(r: Invocation, invocationId: string, profileId: string) {
    r.invocationId == invocationId && r.profileId == profileId
  }

  // ----- Service -----

  /** `create_invocation`: the row takes the profile id argument, not the
      body's; a second row with the same invocation id violates the
      primary key. */
  function CreateInvocation(t: Table, profileId: string, inv: InvocationCreate, now: real): (r: Result<(Table, Invocation)>)
    ensures r.Failure? <==> exists i :: 0 <= i < |t| && t[i].invocationId == inv.invocationId
    ensures r.Success? ==>
      && r.value.1 == Invocation(inv.invocationId, profileId, inv.userQuery, inv.status, inv.graphState, now)
      && r.value.0 == t + [r.value.1]
  {
    var k := Seqs.IndexWhere((row: Invocation) => row.invocationId == inv.invocationId, t);
    if k < |t| then Failure("duplicate key value violates unique constraint")
    else
      var row := Invocation(inv.invocationId, profileId, inv.userQuery, inv.status, inv.graphState, now);
      Success((t + [row], row))
  }

  /** `get_invocation`: matches both the invocation id and the profile. */
  function GetInvocation(t: Table, invocationId: string, profileId: string): (r: Option<Invocation>)
    ensures r.Some? <==> exists i :: 0 <= i < |t| && Owned(t[i], invocationId, profileId)
    ensures r.Some? ==> r.value in t && Owned(r.value, invocationId, profileId)
  {
    var k := Seqs.IndexWhere((row: Invocation) => Owned(row, invocationId, profileId), t);
    if k < |t| then Some(t[k]) else None
  }

  function CreatedAt(r: Invocation): real {
    r.createdAt
  }

  predicate OfProfile(r: Invocation, profileId: string) {
    r.profileId == profileId
  }

  /** The profile's rows, in table order. */
  function ProfileRows(t: Table, profileId: string): seq<Invocation> {
    Seqs.Filter((row: Invocation) => OfProfile(row, profileId), t)
  }

  /** `get_invocations`: the profile's rows, newest first, then `skip` rows
      dropped and at most `limit` kept. Rows created at the same instant are
      kept in insertion order. Whatever sequence lists the profile's rows
      newest first in that way, the result is its window from `skip`. */
  function GetInvocations(t: Table, profileId: string, skip: nat, limit: nat): (r: seq<Invocation>)
    ensures |r| <= limit
    ensures forall s :: Sorting.StableDescending(CreatedAt, ProfileRows(t, profileId), s) ==>
      && |r| == (if skip >= |s| then 0 else if skip + limit < |s| then limit else |s| - skip)
      && forall i :: 0 <= i < |r| ==> skip + i < |s| && r[i] == s[skip + i]
  {
    Sorting.SortIsStableDescending(CreatedAt, ProfileRows(t, profileId));
    Seqs.Window(Sorting.SortDesc(CreatedAt, ProfileRows(t, profileId)), skip, limit)
  }

  /** The listing holds only the profile's rows, newest first, and is the
      window [skip, skip + limit) of the one stable newest-first order of
      those rows; with no skip and a large enough limit it holds every row
      of the profile. */
  lemma ListingIsWindow(t: Table, profileId: string, skip: nat, limit: nat)
    ensures var r := GetInvocations(t, profileId, skip, limit);
      && (forall i :: 0 <= i < |r| ==> r[i] in t && r[i].profileId == profileId)
      && Sorting.Descending(CreatedAt, r)
    ensures exists s :: Sorting.StableDescending(CreatedAt, ProfileRows(t, profileId), s)
    ensures var r := GetInvocations(t, profileId, skip, limit);
      forall s :: Sorting.StableDescending(CreatedAt, ProfileRows(t, profileId), s) ==>
        forall i :: 0 <= i < |r| ==> r[i] == s[skip + i]
    ensures var n := |Seqs.Filter((row: Invocation) => OfProfile(row, profileId), t)|;
      |GetInvocations(t, profileId, skip, limit)| == if skip >= n then 0 else if skip + limit < n then limit else n - skip
    ensures skip == 0 && limit >= |t| ==>
      multiset(GetInvocations(t, profileId, skip, limit))
      == multiset(Seqs.Filter((row: Invocation) => OfProfile(row, profileId), t))
  {
    var p := (row: Invocation) => OfProfile(row, profileId);
    var mine := Seqs.Filter(p, t);
    var sorted := Sorting.SortDesc(CreatedAt, mine);
    var r := Seqs.Window(sorted, skip, limit);
    Sorting.SortDescending(CreatedAt, mine);
    Sorting.SortIsStableDescending(CreatedAt, mine);
    Seqs.FilterMultiset(p, t);
    forall i | 0 <= i < |r| ensures r[i] in t && r[i].profileId == profileId {
      assert r[i] == sorted[skip + i];
      assert r[i] in multiset(sorted);
      assert r[i] in multiset(mine);
      var j :| 0 <= j < |mine| && mine[j] == r[i];
      assert p(mine[j]);
    }
    forall i, j | 0 <= i < j < |r| ensures CreatedAt(r[i]) >= CreatedAt(r[j]) {
      assert r[i] == sorted[skip + i] && r[j] == sorted[skip + j];
    }
    if skip == 0 && limit >= |t| {
      assert |sorted| == |mine| <= |t|;
      if sorted != [] {
        assert r == sorted[0..];
        assert sorted[0..] == sorted;
      }
    }
  }

  /** The fields an update writes. */
  function ApplyUpdate(r: Invocation, u: InvocationUpdate): Invocation {
    r.(status := u.status.GetOr(r.status),
       graphState := if u.graphState.Some? then u.graphState else r.graphState)
  }

  /** `update_invocation`: a missing invocation gives None and changes
      nothing; otherwise only the fields given are written, on that row
      alone. */
  function UpdateInvocation(t: Table, invocationId: string, u: InvocationUpdate, profileId: string): (r: (Table, Option<Invocation>))
    ensures r.1.None? <==> GetInvocation(t, invocationId, profileId).None?
    ensures r.1.None? ==> r.0 == t
    ensures r.1.Some? ==> r.1.value == ApplyUpdate(GetInvocation(t, invocationId, profileId).value, u)
    ensures |r.0| == |t|
    ensures forall i :: 0 <= i < |t| ==>
      r.0[i] == if Owned(t[i], invocationId, profileId) then ApplyUpdate(t[i], u) else t[i]
  {
    match GetInvocation(t, invocationId, profileId)
    case None => (t, None)
    case Some(row) =>
      var t' := Seqs.Map((x: Invocation) => if Owned(x, invocationId, profileId) then ApplyUpdate(x, u) else x, t);
      (t', Some(ApplyUpdate(row, u)))
  }

  /** An update keeps every field it is not given: the id, the profile, the
      query and the creation time always, the status and state when absent. */
  lemma UpdateKeepsOtherFields(t: Table, invocationId: string, u: InvocationUpdate, profileId: string)
    requires GetInvocation(t, invocationId, profileId).Some?
    ensures var before := GetInvocation(t, invocationId, profileId).value;
      var after := UpdateInvocation(t, invocationId, u, profileId).1.value;
      && after.invocationId == before.invocationId && after.profileId == before.profileId
      && after.userQuery == before.userQuery && after.createdAt == before.createdAt
      && (u.status.None? ==> after.status == before.status)
      && (u.graphState.None? ==> after.graphState == before.graphState)
      && (u.status.Some? ==> after.status == u.status.value)
      && (u.graphState.Some? ==> after.graphState == u.graphState)
  {
  }

  /** `delete_invocation`: False when the invocation is missing; otherwise
      its row is removed and True returned. */
  function DeleteInvocation(t: Table, invocationId: string, profileId: string): (r: (Table, bool))
    ensures r.1 <==> GetInvocation(t, invocationId, profileId).Some?
    ensures !r.1 ==> r.0 == t
    ensures r.1 ==> r.0 == Seqs.Filter((row: Invocation) => !Owned(row, invocationId, profileId), t)
  {
    if GetInvocation(t, invocationId, profileId).None? then (t, false)
    else (Seqs.Filter((row: Invocation) => !Owned(row, invocationId, profileId), t), true)
  }

  /** After a delete the invocation is gone. */
  lemma DeleteThenGet(t: Table, invocationId: string, profileId: string)
    ensures GetInvocation(DeleteInvocation(t, invocationId, profileId).0, invocationId, profileId).None?
  {
    var keep := (row: Invocation) => !Owned(row, invocationId, profileId);
    var t1 := DeleteInvocation(t, invocationId, profileId).0;
    if t1 != t {
      forall i | 0 <= i < |t1| ensures !Owned(t1[i], invocationId, profileId) {
        assert keep(Seqs.Filter(keep, t)[i]);
      }
    }
  }

  // ----- Routes -----

  const PROFILE_MISMATCH := "Profile ID in URL does not match profile ID in request body"
  const ALREADY_EXISTS := "Invocation already exists"
  const NOT_FOUND := "Invocation not found"
  const DELETED := "Invocation deleted successfully"

  /** `POST /{profile_id}/invocations`: 400 when the body names another
      profile or the invocation exists for this profile. An invocation id
      taken by another profile passes the existence test and then violates the
      primary key. */
  function RouteCreate(t: Table, profileId: string, inv: InvocationCreate, now: real): (r: (Table, Http.Response<Invocation>))
    ensures inv.profileId != profileId ==> r == (t, Http.HttpError(Http.BAD_REQUEST, PROFILE_MISMATCH))
    ensures inv.profileId == profileId && GetInvocation(t, inv.invocationId, profileId).Some? ==>
      r == (t, Http.HttpError(Http.BAD_REQUEST, ALREADY_EXISTS))
    ensures r.1.Ok? <==> inv.profileId == profileId && forall i :: 0 <= i < |t| ==> t[i].invocationId != inv.invocationId
    ensures r.1.Ok? ==> r.0 == t + [r.1.body] && Owned(r.1.body, inv.invocationId, profileId)
  {
    if inv.profileId != profileId then (t, Http.HttpError(Http.BAD_REQUEST, PROFILE_MISMATCH))
    else if GetInvocation(t, inv.invocationId, profileId).Some? then (t, Http.HttpError(Http.BAD_REQUEST, ALREADY_EXISTS))
    else match CreateInvocation(t, profileId, inv, now)
      case Failure(e) => (t, Http.HttpError(Http.INTERNAL_SERVER_ERROR, e))
      case Success((t', row)) => (t', Http.Ok(row))
  }

  /** `GET /{profile_id}/invocations/{invocation_id}`. */
  function RouteGet(t: Table, profileId: string, invocationId: string): (r: Http.Response<Invocation>)
    ensures r.HttpError? <==> GetInvocation(t, invocationId, profileId).None?
    ensures r.HttpError? ==> r == Http.HttpError(Http.NOT_FOUND, NOT_FOUND)
    ensures r.Ok? ==> Owned(r.body, invocationId, profileId)
  {
    match GetInvocation(t, invocationId, profileId)
    case Some(row) => Http.Ok(row)
    case None => Http.HttpError(Http.NOT_FOUND, NOT_FOUND)
  }

  /** `PATCH /{profile_id}/invocations/{invocation_id}`. */
  function RouteUpdate(t: Table, profileId: string, invocationId: string, u: InvocationUpdate): (r: (Table, Http.Response<Invocation>))
    ensures r.1.HttpError? <==> GetInvocation(t, invocationId, profileId).None?
    ensures r.1.HttpError? ==> r == (t, Http.HttpError(Http.NOT_FOUND, NOT_FOUND))
  {
    var (t', updated) := UpdateInvocation(t, invocationId, u, profileId);
    match updated
    case None => (t, Http.HttpError(Http.NOT_FOUND, NOT_FOUND))
    case Some(row) => (t', Http.Ok(row))
  }

  /** `DELETE /{profile_id}/invocations/{invocation_id}`. */
  function RouteDelete(t: Table, profileId: string, invocationId: string): (r: (Table, Http.Response<string>))
    ensures r.1.HttpError? <==> GetInvocation(t, invocationId, profileId).None?
    ensures r.1.HttpError? ==> r == (t, Http.HttpError(Http.NOT_FOUND, NOT_FOUND))
    ensures r.1.Ok? ==> r.1.body == DELETED
  {
    var (t', deleted) := DeleteInvocation(t, invocationId, profileId);
    if !deleted then (t, Http.HttpError(Http.NOT_FOUND, NOT_FOUND))
    else (t', Http.Ok(DELETED))
  }

  /** A create that succeeds keeps the primary key, and the new invocation
      is then found under its profile with exactly the body's fields. */
  lemma CreateThenGet(t: Table, profileId: string, inv: InvocationCreate, now: real)
    requires UniqueIds(t)
    requires RouteCreate(t, profileId, inv, now).1.Ok?
    ensures var (t1, r1) := RouteCreate(t, profileId, inv, now);
      && UniqueIds(t1)
      && RouteGet(t1, profileId, inv.invocationId) == r1
      && r1.body == Invocation(inv.invocationId, inv.profileId, inv.userQuery, inv.status, inv.graphState, now)
  {
    var (t1, r1) := RouteCreate(t, profileId, inv, now);
    var p := (row: Invocation) => Owned(row, inv.invocationId, profileId);
    var k := Seqs.IndexWhere(p, t1);
    forall j | 0 <= j < |t| ensures !p(t1[j]) {
      assert t1[j] == t[j];
    }
    assert p(t1[|t|]);
    assert k == |t|;
  }

  /** Updating and deleting a missing invocation both give 404 and leave the
      table as it was. */
  lemma MissingIsNotFound(t: Table, profileId: string, invocationId: string, u: InvocationUpdate)
    requires forall i :: 0 <= i < |t| ==> !Owned(t[i], invocationId, profileId)
    ensures RouteGet(t, profileId, invocationId) == Http.HttpError(Http.NOT_FOUND, NOT_FOUND)
    ensures RouteUpdate(t, profileId, invocationId, u) == (t, Http.HttpError(Http.NOT_FOUND, NOT_FOUND))
    ensures RouteDelete(t, profileId, invocationId) == (t, Http.HttpError(Http.NOT_FOUND, NOT_FOUND))
  {
  }

  /** Another profile's invocation is invisible: reading, updating or
      deleting it under the wrong profile gives 404. */
  lemma OtherProfilesAreHidden(t: Table, profileId: string, other: string, invocationId: string, u: InvocationUpdate)
    requires UniqueIds(t)
    requires GetInvocation(t, invocationId, other).Some? && other != profileId
    ensures RouteGet(t, profileId, invocationId) == Http.HttpError(Http.NOT_FOUND, NOT_FOUND)
    ensures RouteUpdate(t, profileId, invocationId, u).0 == t
    ensures RouteDelete(t, profileId, invocationId).0 == t
  {
    var row := GetInvocation(t, invocationId, other).value;
    forall i | 0 <= i < |t| ensures !Owned(t[i], invocationId, profileId) {
      var j :| 0 <= j < |t| && t[j] == row;
      if t[i].invocationId == invocationId {
        assert i == j;
      }
    }
  }
}

=== FILE: json.dfy ===
/** An abstract JSON value: the shape of event payloads, graph states and
    stored blobs. Encoding to and decoding from text is not modelled here. */
module Json {
  import opened Wrappers

  datatype Json =
    | JNull
    | JBool(b: bool)
    | JNum(n: int)
    | JStr(s: string)
    | JArr(items: seq<Json>)
    | JObj(fields: map<string, Json>)

  /** Field lookup on a value that is not `null`: nothing on a missing key
      or on a value that is not an object. JavaScript's `value.key` throws on
      `null`, so callers that use plain `.` rule `JNull` out first; with
      `value?.key` it also gives nothing. */
  function Field(j: Json, key: string): Option<Json> {
    if j.JObj? && key in j.fields then Some(j.fields[key]) else None
  }

  /** JavaScript truthiness of a JSON value. */
  predicate Truthy(j: Json) {
    match j
    case JNull => false
    case JBool(b) => b
    case JNum(n) => n != 0
    case JStr(s) => s != []
    case JArr(_) => true
    case JObj(_) => true
  }
}

=== FILE: llm_factory.dfy ===
/** `get_llm` of `llm/llm_factory.py`: pick an LLM wrapper by name, falling
    back to the configured default when no name is given. The default comes
    from the `DEFAULT_LLM_MODEL` environment variable and is a parameter here;
    `SHIPPED_DEFAULT` is the value `config.py` uses when it is unset. */
module LlmFactory {
  import opened Wrappers

  datatype Llm = Ollama | Claude

  const SHIPPED_DEFAULT := "openai"

  function UnknownModel(selected: string): string {
    "Unknown model selection: '" + selected + "'. Supported values: 'claude', 'ollama'."
  }

  /** `model_selection or DEFAULT_LLM_MODEL`: `None` and `""` are falsy. */
  function Selected(selection: Option<string>, default: string): (s: string)
    ensures selection.Some? && selection.value != "" ==> s == selection.value
    ensures selection.None? || selection.value == "" ==> s == default
  {
    if selection.Some? && selection.value != "" then selection.value else default
  }

  function GetLlm(selection: Option<string>, default: string): (r: Result<Llm>)
    ensures r == Success(Ollama) <==> Selected(selection, default) == "ollama"
    ensures r == Success(Claude) <==> Selected(selection, default) == "claude"
    ensures r.Failure? <==> Selected(selection, default) !in {"ollama", "claude"}
    ensures r.Failure? ==> r.error == UnknownModel(Selected(selection, default))
  {
    var selected := Selected(selection, default);
    if selected == "ollama" then Success(Ollama)
    else if selected == "claude" then Success(Claude)
    else Failure(UnknownModel(selected))
  }

  /** With the shipped default, calling without a selection (or with an
      empty one) raises; only the two named wrappers can ever be built. */
  lemma ShippedDefaultRaises(selection: Option<string>)
    requires selection.None? || selection.value == ""
    ensures GetLlm(selection, SHIPPED_DEFAULT) == Failure(UnknownModel("openai"))
  {
  }

  /** An explicit non-empty selection ignores the default entirely. */
  lemma ExplicitSelectionIgnoresDefault(name: string, d1: string, d2: string)
    requires name != ""
    ensures GetLlm(Some(name), d1) == GetLlm(Some(name), d2)
  {
  }
}

=== FILE: local_storage.dfy ===
/** The `useLocalStorage` composable of the frontend: the selected profile
    and a profile → conversation map kept in the browser's `localStorage`.

    The storage is a map from keys to strings. JSON text is not modelled
    character by character: the map's serialisation is a `MapCodec` given
    as a parameter, and the properties that depend on it assume only that
    `JSON.parse` undoes `JSON.stringify` and that the text is never empty. */
module LocalStorage {
  import opened Wrappers

  type Storage = map<string, string>

  const SELECTED_PROFILE_KEY := "deepresearch_selected_profile"
  const PROFILE_CONVERSATIONS_KEY := "deepresearch_profile_conversations"

  /** `JSON.stringify` of a string map, and `JSON.parse` back, which fails on
      text that is not a JSON object of strings. */
  datatype MapCodec = MapCodec(parse: string -> Option<map<string, string>>,
                               stringify: map<string, string> -> string)

  /** The codec behaves as the browser's JSON does on string maps. */
  ghost predicate Faithful(c: MapCodec) {
    forall m: map<string, string> :: c.stringify(m) != "" && c.parse(c.stringify(m)) == Some(m)
  }

  /** `localStorage.getItem`: null for a missing key. */
  function GetItem(s: Storage, key: string): (r: Option<string>)
    ensures r.Some? <==> key in s
    ensures r.Some? ==> r.value == s[key]
  {
    if key in s then Some(s[key]) else None
  }

  /** `getSelectedProfile`. */
  function GetSelectedProfile(s: Storage): (r: Option<string>)
    ensures r.Some? <==> SELECTED_PROFILE_KEY in s
    ensures r.Some? ==> r.value == s[SELECTED_PROFILE_KEY]
  {
    GetItem(s, SELECTED_PROFILE_KEY)
  }

  /** `setSelectedProfile`. */
  function SetSelectedProfile(s: Storage, profileId: string): (s': Storage)
    ensures s'.Keys == s.Keys + {SELECTED_PROFILE_KEY}
    ensures forall k :: k in s && k != SELECTED_PROFILE_KEY ==> s'[k] == s[k]
  {
    s[SELECTED_PROFILE_KEY := profileId]
  }

  /** `getProfileConversations`: a missing or empty entry, or text that does
      not parse, counts as the empty map. */
  function GetProfileConversations(s: Storage, c: MapCodec): (m: map<string, string>)
    ensures PROFILE_CONVERSATIONS_KEY !in s ==> m == map[]
    ensures PROFILE_CONVERSATIONS_KEY in s && s[PROFILE_CONVERSATIONS_KEY] == "" ==> m == map[]
    ensures PROFILE_CONVERSATIONS_KEY in s && c.parse(s[PROFILE_CONVERSATIONS_KEY]).None? ==> m == map[]
    ensures PROFILE_CONVERSATIONS_KEY in s && s[PROFILE_CONVERSATIONS_KEY] != "" && c.parse(s[PROFILE_CONVERSATIONS_KEY]).Some? ==>
      m == c.parse(s[PROFILE_CONVERSATIONS_KEY]).value
  {
    match GetItem(s, PROFILE_CONVERSATIONS_KEY)
    case None => map[]
    case Some(stored) =>
      if stored == "" then map[]
      else c.parse(stored).GetOr(map[])
  }

  /** `getConversationForProfile`: null when the profile has no entry. */
  function GetConversationForProfile(s: Storage, c: MapCodec, profileId: string): (r: Option<string>)
    ensures r.Some? <==> profileId in GetProfileConversations(s, c)
    ensures r.Some? ==> r.value == GetProfileConversations(s, c)[profileId]
  {
    var conversations := GetProfileConversations(s, c);
    if profileId in conversations then Some(conversations[profileId]) else None
  }

  /** Write the map back as JSON text. */
  function StoreConversations(s: Storage, c: MapCodec, conversations: map<string, string>): (s': Storage)
    ensures s'.Keys == s.Keys + {PROFILE_CONVERSATIONS_KEY}
    ensures forall k :: k in s && k != PROFILE_CONVERSATIONS_KEY ==> s'[k] == s[k]
  {
    s[PROFILE_CONVERSATIONS_KEY := c.stringify(conversations)]
  }

  /** `setConversationForProfile`. */
  function SetConversationForProfile(s: Storage, c: MapCodec, profileId: string, conversationId: string): (s': Storage)
    ensures forall k :: k in s && k != PROFILE_CONVERSATIONS_KEY ==> k in s' && s'[k] == s[k]
  {
    var conversations := GetProfileConversations(s, c);
    StoreConversations(s, c, conversations[profileId := conversationId])
  }

  /** `clearConversationForProfile`. */
  function ClearConversationForProfile(s: Storage, c: MapCodec, profileId: string): (s': Storage)
    ensures forall k :: k in s && k != PROFILE_CONVERSATIONS_KEY ==> k in s' && s'[k] == s[k]
  {
    var conversations := GetProfileConversations(s, c);
    StoreConversations(s, c, conversations - {profileId})
  }

  /** Reading back what was stored gives the map that was stored. */
  lemma StoredMapReadsBack(s: Storage, c: MapCodec, m: map<string, string>)
    requires Faithful(c)
    ensures GetProfileConversations(StoreConversations(s, c, m), c) == m
  {
    assert c.stringify(m) != "" && c.parse(c.stringify(m)) == Some(m);
  }

  /** After a set, the get for that profile returns the conversation set, and
      every other profile's entry is what it was. */
  lemma SetThenGet(s: Storage, c: MapCodec, profileId: string, conversationId: string, other: string)
    requires Faithful(c)
    ensures GetConversationForProfile(SetConversationForProfile(s, c, profileId, conversationId), c, profileId)
         == Some(conversationId)
    ensures other != profileId ==>
      GetConversationForProfile(SetConversationForProfile(s, c, profileId, conversationId), c, other)
      == GetConversationForProfile(s, c, other)
  {
    var conversations := GetProfileConversations(s, c);
    StoredMapReadsBack(s, c, conversations[profileId := conversationId]);
  }

  /** After a clear, the get for that profile returns null, and every other
      profile's entry is what it was. */
  lemma ClearThenGet(s: Storage, c: MapCodec, profileId: string, other: string)
    requires Faithful(c)
    ensures GetConversationForProfile(ClearConversationForProfile(s, c, profileId), c, profileId) == None
    ensures other != profileId ==>
      GetConversationForProfile(ClearConversationForProfile(s, c, profileId), c, other)
      == GetConversationForProfile(s, c, other)
  {
    var conversations := GetProfileConversations(s, c);
    StoredMapReadsBack(s, c, conversations - {profileId});
  }

  /** Unreadable stored text is discarded: a set on it leaves exactly one
      entry, and a get on it finds nothing. */
  lemma UnreadableCountsAsEmpty(s: Storage, c: MapCodec, profileId: string, conversationId: string, other: string)
    requires Faithful(c)
    requires PROFILE_CONVERSATIONS_KEY in s && c.parse(s[PROFILE_CONVERSATIONS_KEY]).None?
    ensures GetConversationForProfile(s, c, other) == None
    ensures GetProfileConversations(SetConversationForProfile(s, c, profileId, conversationId), c)
         == map[profileId := conversationId]
  {
    StoredMapReadsBack(s, c, map[profileId := conversationId]);
  }

  /** `setSelectedProfile` then `getSelectedProfile` gives the id back, and
      the conversations are not touched. */
  lemma SelectedProfileRoundTrip(s: Storage, c: MapCodec, profileId: string, other: string)
    ensures GetSelectedProfile(SetSelectedProfile(s, profileId)) == Some(profileId)
    ensures GetConversationForProfile(SetSelectedProfile(s, profileId), c, other)
         == GetConversationForProfile(s, c, other)
  {
    assert SELECTED_PROFILE_KEY != PROFILE_CONVERSATIONS_KEY;
  }

  /** Conversation writes do not touch the selected profile. */
  lemma ConversationWritesKeepSelection(s: Storage, c: MapCodec, profileId: string, conversationId: string)
    ensures GetSelectedProfile(SetConversationForProfile(s, c, profileId, conversationId)) == GetSelectedProfile(s)
    ensures GetSelectedProfile(ClearConversationForProfile(s, c, profileId)) == GetSelectedProfile(s)
  {
    assert SELECTED_PROFILE_KEY != PROFILE_CONVERSATIONS_KEY;
  }
}

=== FILE: parallel_synthesis.dfy ===
/** The parallel-synthesis service of `service/parallel_synthesis_service.py`:
    decompose the query into tasks, run every task against the document
    search and the LLM independently, then ask for a summary of a transcript
    that lists every task with its outcome.

    Every LLM reply and every search answer is an oracle result; rendering of
    prompt templates is reduced to the already-rendered strings. */
module ParallelSynthesis {
  import opened Wrappers
  import Text
  import CM = CopyMessages
  import RT = RagTask

  // ----- _format_document_context -----

  /** A field of a JSON object as `dict.get` sees it: missing, present
      with `null`, or present with a value. */
  datatype Lookup<T> = Missing | Null | Found(value: T)

  /** One search hit as the synthesis service reads it: a `payload` object
      with a `content` string, either of which may be missing or `null`. */
  datatype Payload = Payload(content: Lookup<string>)
  datatype Hit = Hit(payload: Lookup<Payload>)

  /** The AttributeError that `.get` on `None` raises. */
  const NO_GET_ON_NONE := "'NoneType' object has no attribute 'get'"

  /** `doc.get("payload", {}).get("content", "")` as the f-string renders
      it: a missing payload or content gives "", a `null` content gives
      "None", and a `null` payload raises. */
  function ContentOf(h: Hit): Result<string> {
    match h.payload
    case Null => Failure(NO_GET_ON_NONE)
    case Missing => Success("")
    case Found(p) =>
      match p.content
      case Missing => Success("")
      case Null => Success("None")
      case Found(c) => Success(c)
  }

  const NO_DOCUMENTS_PREFIX := "No documents found for search query: "

  function Header(query: string): seq<string> {
    ["Based on search results for: " + query, "", "Retrieved documents:"]
  }

  function NumberedLine(n: nat, content: string): string {
    Text.NatToString(n) + ". " + content
  }

  /** The lines the `for i, doc in enumerate(documents, k)` loop appends;
      the loop raises at the first hit whose content cannot be read. */
  function NumberFrom(docs: seq<Hit>, k: nat): Result<seq<string>>
    decreases |docs|
  {
    if docs == [] then Success([])
    else
      var content :- ContentOf(docs[0]);
      var rest :- NumberFrom(docs[1..], k + 1);
      Success([NumberedLine(k, content)] + rest)
  }

  /** The loop fails exactly when some payload is `null`, with the
      AttributeError; otherwise it gives one line per hit, in order and
      numbered from `k`. */
  lemma {:induction false} NumberFromLines(docs: seq<Hit>, k: nat)
    ensures NumberFrom(docs, k).Success? <==> forall i :: 0 <= i < |docs| ==> !docs[i].payload.Null?
    ensures NumberFrom(docs, k).Failure? ==> NumberFrom(docs, k).error == NO_GET_ON_NONE
    ensures NumberFrom(docs, k).Success? ==>
      && |NumberFrom(docs, k).value| == |docs|
      && forall i :: 0 <= i < |docs| ==>
           ContentOf(docs[i]).Success? && NumberFrom(docs, k).value[i] == NumberedLine(k + i, ContentOf(docs[i]).value)
    decreases |docs|
  {
    if docs != [] {
      NumberFromLines(docs[1..], k + 1);
      assert forall i :: 1 <= i < |docs| ==> docs[1..][i - 1] == docs[i];
    }
  }

  /** `_format_document_context`: it fails exactly when some hit has a
      `null` payload. */
  function FormatDocumentContext(query: string, docs: seq<Hit>): (r: Result<string>)
    ensures r.Failure? <==> exists i :: 0 <= i < |docs| && docs[i].payload.Null?
    ensures r.Failure? ==> r.error == NO_GET_ON_NONE
  {
    if docs == [] then Success(NO_DOCUMENTS_PREFIX + query)
    else
      NumberFromLines(docs, 1);
      var lines :- NumberFrom(docs, 1);
      Success(Text.Join(Header(query) + lines, "\n"))
  }

  lemma {:induction false} NatToStringDigits(n: nat)
    ensures Text.Excludes(Text.NatToString(n), '\n')
    decreases n
  {
    if n >= 10 {
      NatToStringDigits(n / 10);
    }
  }

  predicate OneLine(s: string) {
    Text.Excludes(s, '\n')
  }

  lemma OneLineAppend(a: string, b: string)
    requires OneLine(a) && OneLine(b)
    ensures OneLine(a + b)
  {
    forall i | 0 <= i < |a + b| ensures (a + b)[i] != '\n' {
      if i < |a| {
        assert (a + b)[i] == a[i];
      } else {
        assert (a + b)[i] == b[i - |a|];
      }
    }
  }

  lemma NumberedLineOneLine(n: nat, content: string)
    requires OneLine(content)
    ensures OneLine(NumberedLine(n, content))
  {
    NatToStringDigits(n);
    assert OneLine(". ");
    OneLineAppend(Text.NatToString(n), ". ");
    OneLineAppend(Text.NatToString(n) + ". ", content);
  }

  /** With a one-line query and one-line contents, a context that could be
      formatted splits back into three header lines followed by one line per
      hit, numbered from 1, holding the hit's content ("" when it has none,
      "None" when it is `null`). */
  lemma FormatDocumentContextLines(query: string, docs: seq<Hit>)
    requires docs != []
    requires OneLine(query)
    requires forall i :: 0 <= i < |docs| && ContentOf(docs[i]).Success? ==> OneLine(ContentOf(docs[i]).value)
    ensures FormatDocumentContext(query, docs).Success? ==>
      var lines := Text.SplitChar(FormatDocumentContext(query, docs).value, '\n', []);
      && |lines| == 3 + |docs|
      && lines[..3] == Header(query)
      && forall i :: 0 <= i < |docs| ==>
           ContentOf(docs[i]).Success? && lines[3 + i] == NumberedLine(i + 1, ContentOf(docs[i]).value)
  {
    NumberFromLines(docs, 1);
    if NumberFrom(docs, 1).Success? {
      var numbered := NumberFrom(docs, 1).value;
      var parts := Header(query) + numbered;
      assert FormatDocumentContext(query, docs).value == Text.Join(parts, "\n");
      forall i | 0 <= i < |parts| ensures OneLine(parts[i]) {
        if i == 0 {
          assert OneLine("Based on search results for: ");
          OneLineAppend("Based on search results for: ", query);
        } else if i >= 3 {
          assert parts[i] == numbered[i - 3];
          NumberedLineOneLine(i - 2, ContentOf(docs[i - 3]).value);
        }
      }
      Text.SplitJoinRoundTrip(parts, '\n');
      assert "\n" == ['\n'];
    }
  }

  /** No hits give exactly the fixed sentence with the query. */
  lemma NoDocumentsContext(query: string)
    ensures FormatDocumentContext(query, []) == Success("No documents found for search query: " + query)
  {
  }

  // ----- _execute_task -----

  /** The outside world of one synthesis task: the search-query LLM call,
      the document search and the answering LLM call. */
  datatype TaskOracle = TaskOracle(
    searchQuery: Result<string>,
    search: string -> Result<seq<Hit>>,
    answer: seq<CM.Message> -> Result<RT.TaskResult>)

  /** The messages of the answering call: the shared history, then the task
      instructions with the document context, then the task. */
  function TaskMessages(history: seq<CM.Message>, instructions: string, context: string, task: string): seq<CM.Message> {
    history + [CM.System(instructions + "\n\n## Relevant Context\n\n" + context), CM.Human(task)]
  }

  /** `_execute_task`; `instructions` is the task prompt already rendered for
      this task. Every exception of the body becomes a failed entry. */
  function ExecuteTask(task: string, instructions: string, history: seq<CM.Message>, o: TaskOracle): (e: RT.TaskEntry)
    ensures e.task == task && e.citations == []
    ensures e.success ==> e.result.Some? && e.reasoning.Some?
    ensures !e.success ==> e.result.Some? && e.reasoning.None?
  {
    match TaskAnswer(task, instructions, history, o)
    case Success(out) => RT.TaskEntry(task, true, Some(out.result), Some(out.reasoning), [])
    case Failure(err) => RT.TaskEntry(task, false, Some(err), None, [])
  }

  /** The body of the `try`: search query, search, context, answer. */
  function TaskAnswer(task: string, instructions: string, history: seq<CM.Message>, o: TaskOracle): Result<RT.TaskResult> {
    var query :- o.searchQuery;
    var docs :- o.search(query);
    var context :- FormatDocumentContext(query, docs);
    o.answer(TaskMessages(history, instructions, context, task))
  }

  /** A task succeeds exactly when the three outside calls succeed and
      every hit's content can be read, and then it carries the answer's
      result and reasoning; otherwise its result is the text of the first
      error, the AttributeError when some hit's payload is `null`. */
  lemma ExecuteTaskOutcome(task: string, instructions: string, history: seq<CM.Message>, o: TaskOracle)
    ensures var e := ExecuteTask(task, instructions, history, o);
      && (e.success <==> (&& o.searchQuery.Success?
                          && o.search(o.searchQuery.value).Success?
                          && FormatDocumentContext(o.searchQuery.value, o.search(o.searchQuery.value).value).Success?
                          && o.answer(TaskMessages(history, instructions,
                                FormatDocumentContext(o.searchQuery.value, o.search(o.searchQuery.value).value).value,
                                task)).Success?))
      && (o.searchQuery.Failure? ==> e == RT.TaskEntry(task, false, Some(o.searchQuery.error), None, []))
      && (o.searchQuery.Success? && o.search(o.searchQuery.value).Failure? ==>
            e == RT.TaskEntry(task, false, Some(o.search(o.searchQuery.value).error), None, []))
      && (o.searchQuery.Success? && o.search(o.searchQuery.value).Success? &&
          (exists i :: 0 <= i < |o.search(o.searchQuery.value).value| && o.search(o.searchQuery.value).value[i].payload.Null?) ==>
            e == RT.TaskEntry(task, false, Some(NO_GET_ON_NONE), None, []))
    ensures var e := ExecuteTask(task, instructions, history, o);
      o.searchQuery.Success? && o.search(o.searchQuery.value).Success?
        && FormatDocumentContext(o.searchQuery.value, o.search(o.searchQuery.value).value).Success? ==>
      var a := o.answer(TaskMessages(history, instructions,
                 FormatDocumentContext(o.searchQuery.value, o.search(o.searchQuery.value).value).value, task));
      && (a.Failure? ==> e == RT.TaskEntry(task, false, Some(a.error), None, []))
      && (a.Success? ==> e == RT.TaskEntry(task, true, Some(a.value.result), Some(a.value.reasoning), []))
  {
  }

  // ----- execute_parallel_synthesis -----

  /** `ParallelSynthesisInput`. */
  datatype SynthesisInput = SynthesisInput(query: string, collection: string, messages: Option<seq<CM.Message>>)

  /** The outside world of one synthesis request: the rendered decomposition
      prompt and its call, the task prompt rendered per task, one oracle per
      task, and the summary prompt and its call. */
  datatype SynthesisOracle = SynthesisOracle(
    decompositionPrompt: string,
    decompose: seq<CM.Message> -> Result<seq<string>>,
    instructions: string -> string,
    tasks: nat -> TaskOracle,
    summaryPrompt: string,
    summarize: seq<CM.Message> -> Result<string>)

  datatype SynthesisOutput = SynthesisOutput(overallResult: string, taskEntries: seq<RT.TaskEntry>)

  const SUMMARY_REQUEST := "Generate the summary."

  /** The messages of the decomposition call: the input messages (or none),
      the decomposition prompt and the query. */
  function Opening(input: SynthesisInput, o: SynthesisOracle): (ms: seq<CM.Message>)
    ensures |ms| >= 2 && ms[|ms| - 2..] == [CM.System(o.decompositionPrompt), CM.Human(input.query)]
  {
    input.messages.GetOr([]) + [CM.System(o.decompositionPrompt), CM.Human(input.query)]
  }

  /** The history every task receives: `input_data.messages or []`. The
      list was extended in place, so given input messages the tasks see the
      opening messages too; with `None` they see nothing. */
  function TaskHistory(input: SynthesisInput, o: SynthesisOracle): seq<CM.Message> {
    if input.messages.Some? then Opening(input, o) else []
  }

  /** `asyncio.gather` over the task coroutines. */
  function RunTasks(input: SynthesisInput, o: SynthesisOracle, tasks: seq<string>): (es: seq<RT.TaskEntry>)
    ensures |es| == |tasks|
    ensures forall i :: 0 <= i < |tasks| ==>
      es[i] == ExecuteTask(tasks[i], o.instructions(tasks[i]), TaskHistory(input, o), o.tasks(i))
    ensures forall i :: 0 <= i < |tasks| ==> es[i].task == tasks[i]
  {
    seq(|tasks|, i requires 0 <= i < |tasks| =>
      ExecuteTask(tasks[i], o.instructions(tasks[i]), TaskHistory(input, o), o.tasks(i)))
  }

  /** The AI reply recorded for an entry. */
  function Reply(e: RT.TaskEntry): CM.Message {
    if e.success then CM.Ai("Result: " + PyStr(e.result) + "\n\nReasoning: " + PyStr(e.reasoning))
    else CM.Ai("Error: " + PyStr(e.result))
  }

  /** How an f-string renders an optional string. */
  function PyStr(s: Option<string>): string {
    s.GetOr("None")
  }

  /** What the `for entry in task_entries` loop appends. */
  function Exchanges(es: seq<RT.TaskEntry>): seq<CM.Message>
    decreases |es|
  {
    if es == [] then [] else [CM.Human(es[0].task), Reply(es[0])] + Exchanges(es[1..])
  }

  /** Entry `i` occupies positions `2i` (its task) and `2i + 1` (its reply). */
  lemma {:induction false} ExchangesLayout(es: seq<RT.TaskEntry>)
    ensures |Exchanges(es)| == 2 * |es|
    ensures forall i :: 0 <= i < |es| ==>
      Exchanges(es)[2 * i] == CM.Human(es[i].task) && Exchanges(es)[2 * i + 1] == Reply(es[i])
    decreases |es|
  {
    if es != [] {
      ExchangesLayout(es[1..]);
      var rest := Exchanges(es[1..]);
      assert Exchanges(es) == [CM.Human(es[0].task), Reply(es[0])] + rest;
      forall i | 1 <= i < |es|
        ensures Exchanges(es)[2 * i] == CM.Human(es[i].task) && Exchanges(es)[2 * i + 1] == Reply(es[i])
      {
        assert Exchanges(es)[2 * i] == rest[2 * (i - 1)];
        assert Exchanges(es)[2 * i + 1] == rest[2 * (i - 1) + 1];
      }
    }
  }

  /** The messages of the summary call. */
  function SummaryTranscript(input: SynthesisInput, o: SynthesisOracle, es: seq<RT.TaskEntry>): seq<CM.Message> {
    Opening(input, o) + Exchanges(es) + [CM.System(o.summaryPrompt), CM.Human(SUMMARY_REQUEST)]
  }

  /** `execute_parallel_synthesis`. A failed decomposition or summary call
      propagates; a failed task does not. */
  function ExecuteParallelSynthesis(input: SynthesisInput, o: SynthesisOracle): (r: Result<SynthesisOutput>)
    ensures o.decompose(Opening(input, o)).Failure? ==> r == Failure(o.decompose(Opening(input, o)).error)
    ensures r.Success? ==> o.decompose(Opening(input, o)).Success?
    ensures r.Success? ==> var tasks := o.decompose(Opening(input, o)).value;
      && |r.value.taskEntries| == |tasks|
      && forall i :: 0 <= i < |tasks| ==> r.value.taskEntries[i].task == tasks[i]
  {
    var tasks :- o.decompose(Opening(input, o));
    var entries := RunTasks(input, o, tasks);
    var summary :- o.summarize(SummaryTranscript(input, o, entries));
    Success(SynthesisOutput(summary, entries))
  }

  /** The summary transcript: the opening messages, then for every entry in
      order its task and its reply ("Result: …\n\nReasoning: …" or
      "Error: …"), then the summary prompt and the summary request. */
  lemma SummaryTranscriptLayout(input: SynthesisInput, o: SynthesisOracle, es: seq<RT.TaskEntry>)
    ensures var t := SummaryTranscript(input, o, es);
      var n := |Opening(input, o)|;
      && |t| == n + 2 * |es| + 2
      && t[..n] == Opening(input, o)
      && (forall i :: 0 <= i < |es| ==> t[n + 2 * i] == CM.Human(es[i].task) && t[n + 2 * i + 1] == Reply(es[i]))
      && t[|t| - 2..] == [CM.System(o.summaryPrompt), CM.Human("Generate the summary.")]
  {
    ExchangesLayout(es);
    var t := SummaryTranscript(input, o, es);
    var n := |Opening(input, o)|;
    forall i | 0 <= i < |es|
      ensures t[n + 2 * i] == CM.Human(es[i].task) && t[n + 2 * i + 1] == Reply(es[i])
    {
      assert t[n + 2 * i] == Exchanges(es)[2 * i];
      assert t[n + 2 * i + 1] == Exchanges(es)[2 * i + 1];
    }
  }

  /** A reply reads "Result: …\n\nReasoning: …" for a successful entry and
      "Error: <error text>" for a failed one. */
  lemma ReplyText(e: RT.TaskEntry, out: RT.TaskResult, err: string)
    ensures e == RT.TaskEntry(e.task, true, Some(out.result), Some(out.reasoning), []) ==>
      Reply(e) == CM.Ai("Result: " + out.result + "\n\nReasoning: " + out.reasoning)
    ensures e == RT.TaskEntry(e.task, false, Some(err), None, []) ==> Reply(e) == CM.Ai("Error: " + err)
  {
  }

  /** Task `i`'s entry depends on its own task, its own oracle and the shared
      history only: another task failing changes nothing about it. */
  lemma TasksIndependent(input: SynthesisInput, o: SynthesisOracle, o': SynthesisOracle, tasks: seq<string>, i: nat)
    requires i < |tasks|
    requires o.tasks(i) == o'.tasks(i) && o.instructions == o'.instructions
    requires TaskHistory(input, o) == TaskHistory(input, o')
    ensures RunTasks(input, o, tasks)[i] == RunTasks(input, o', tasks)[i]
  {
  }

  /** Given input messages, every task's history ends with the decomposition
      prompt and the query; without them it is empty. */
  lemma TaskHistoryAliasesOpening(input: SynthesisInput, o: SynthesisOracle)
    ensures input.messages.Some? ==>
      var h := TaskHistory(input, o);
      |h| == |input.messages.value| + 2
      && h[..|input.messages.value|] == input.messages.value
      && h[|h| - 2..] == [CM.System(o.decompositionPrompt), CM.Human(input.query)]
    ensures input.messages.None? ==> TaskHistory(input, o) == []
  {
  }

  /** The overall result is the summary call's answer on the transcript. */
  lemma SynthesisResult(input: SynthesisInput, o: SynthesisOracle)
    requires o.decompose(Opening(input, o)).Success?
    ensures var entries := RunTasks(input, o, o.decompose(Opening(input, o)).value);
      var r := ExecuteParallelSynthesis(input, o);
      var s := o.summarize(SummaryTranscript(input, o, entries));
      && (s.Success? ==> r == Success(SynthesisOutput(s.value, entries)))
      && (s.Failure? ==> r == Failure(s.error))
  {
  }
}

=== FILE: pdf_split.dfy ===
/** `services/pdfSplitService.ts` of the frontend: the upload size limit, the
    human-readable file size, and the page ranges of splitting a PDF into
    parts of at most `pagesPerPart` pages. The PDF library's loading,
    copying and saving are left out; a part records the 0-based indices of
    the pages it copies. */
module PdfSplit {
  import Seqs
  import Text

  const MAX_FILE_SIZE_MB: nat := 50

  function MaxFileSizeMb(): nat {
    MAX_FILE_SIZE_MB
  }

  function MaxFileSizeBytes(): (n: nat)
    ensures n == 52428800
  {
    MAX_FILE_SIZE_MB * 1024 * 1024
  }

  /** A file is too large only when strictly larger than the limit. */
  predicate FileSizeExceedsMax(size: nat) {
    size > MaxFileSizeBytes()
  }

  lemma LimitIsInclusive()
    ensures !FileSizeExceedsMax(50 * 1024 * 1024) && FileSizeExceedsMax(50 * 1024 * 1024 + 1)
  {
  }

  // ----- formatFileSize -----

  const KIB: nat := 1024
  const MIB: nat := 1024 * 1024

  /** `(bytes / unit).toFixed(1)` as tenths: the quotient is exact in a
      double for any file size, and `toFixed` picks the nearest tenth,
      taking the larger one on a tie. */
  function Tenths(bytes: nat, unit: nat): (n: nat)
    requires unit > 0
    ensures 20 * bytes < (2 * n + 1) * unit
    ensures (2 * n - 1) * unit <= 20 * bytes
  {
    (20 * bytes + unit) / (2 * unit)
  }

  /** A number of tenths written with one decimal, as `toFixed(1)` writes it. */
  function FixedOne(tenths: nat): string {
    Text.NatToString(tenths / 10) + "." + [Text.DigitChar(tenths % 10)]
  }

  /** `formatFileSize`. */
  function FormatFileSize(bytes: nat): (s: string)
    ensures bytes < KIB ==> s == Text.NatToString(bytes) + " B"
    ensures KIB <= bytes < MIB ==> s == FixedOne(Tenths(bytes, KIB)) + " KB"
    ensures MIB <= bytes ==> s == FixedOne(Tenths(bytes, MIB)) + " MB"
  {
    if bytes < 1024 then Text.NatToString(bytes) + " B"
    else if bytes < 1024 * 1024 then FixedOne(Tenths(bytes, 1024)) + " KB"
    else FixedOne(Tenths(bytes, 1024 * 1024)) + " MB"
  }

  /** The unit is B below 1024 bytes, KB below 1024² and MB from there on. */
  lemma FormatFileSizeUnit(bytes: nat)
    ensures Text.EndsWith(FormatFileSize(bytes), " B") <==> bytes < 1024
    ensures Text.EndsWith(FormatFileSize(bytes), " KB") <==> 1024 <= bytes < 1024 * 1024
    ensures Text.EndsWith(FormatFileSize(bytes), " MB") <==> 1024 * 1024 <= bytes
  {
    var s := FormatFileSize(bytes);
    if bytes < KIB {
      assert s[|s| - 2..] == " B";
      assert s[|s| - 3..] != " KB" && s[|s| - 3..] != " MB" by {
        NatToStringDigitsOnly(bytes);
        assert s[|s| - 3] == Text.NatToString(bytes)[|Text.NatToString(bytes)| - 1];
      }
    } else if bytes < MIB {
      assert s[|s| - 3..] == " KB";
      assert s[|s| - 2..] == "KB";
    } else {
      assert s[|s| - 3..] == " MB";
      assert s[|s| - 2..] == "MB";
    }
  }

  lemma {:induction false} NatToStringDigitsOnly(n: nat)
    ensures forall i :: 0 <= i < |Text.NatToString(n)| ==> '0' <= Text.NatToString(n)[i] <= '9'
    decreases n
  {
    if n >= 10 {
      NatToStringDigitsOnly(n / 10);
    }
  }

  // ----- splitPdf -----

  /** `SplitPart`, with the pages the part copies in place of its file. */
  datatype SplitPart = SplitPart(
    fileName: string,
    pageIndices: seq<nat>,
    pageStart: nat,
    pageEnd: nat,
    totalPages: nat)

  function Lower(c: char): char {
    if 'A' <= c <= 'Z' then (c as int + 32) as char else c
  }

  /** `name.replace(/\.pdf$/i, '')`: a trailing ".pdf" in any letter case
      is removed once. */
  function BaseName(name: string): (b: string)
    ensures |b| <= |name| && b == name[..|b|]
    ensures |b| < |name| <==> |name| >= 4 && Seqs.Map(Lower, name[|name| - 4..]) == ".pdf"
    ensures |b| < |name| ==> |b| == |name| - 4
  {
    assert |name| >= 4 ==> var tail := Seqs.Map(Lower, name[|name| - 4..]);
      (tail == ".pdf" <==> tail[0] == '.' && tail[1] == 'p' && tail[2] == 'd' && tail[3] == 'f');
    if |name| >= 4 && name[|name| - 4] == '.' && Lower(name[|name| - 3]) == 'p'
       && Lower(name[|name| - 2]) == 'd' && Lower(name[|name| - 1]) == 'f'
    then name[..|name| - 4]
    else name
  }

  /** `Array.from({length: n}, (_, i) => start + i)`. */
  function Range(start: nat, n: nat): (r: seq<nat>)
    ensures |r| == n
    ensures forall i :: 0 <= i < n ==> r[i] == start + i
  {
    seq(n, i requires 0 <= i < n => start + i)
  }

  function Min(a: nat, b: nat): nat {
    if a <= b then a else b
  }

  function PartFileName(baseName: string, partNumber: nat): string {
    baseName + "_part" + Text.NatToString(partNumber) + ".pdf"
  }

  /** The part the loop builds for `startPage`. */
  function PartAt(baseName: string, startPage: nat, pagesPerPart: nat, totalPages: nat): SplitPart
    requires pagesPerPart >= 1 && startPage < totalPages
  {
    var endPage := Min(startPage + pagesPerPart, totalPages);
    SplitPart(PartFileName(baseName, startPage / pagesPerPart + 1), Range(startPage, endPage - startPage),
              startPage + 1, endPage, totalPages)
  }

  /** The `for (startPage = …; startPage < totalPages; startPage += pagesPerPart)`
      loop from `startPage` on. */
  function PartsFrom(baseName: string, startPage: nat, pagesPerPart: nat, totalPages: nat): seq<SplitPart>
    requires pagesPerPart >= 1
    decreases totalPages - startPage
  {
    if startPage >= totalPages then []
    else [PartAt(baseName, startPage, pagesPerPart, totalPages)]
         + PartsFrom(baseName, startPage + pagesPerPart, pagesPerPart, totalPages)
  }

  /** A part records the document's page count and copies exactly the
      0-based pages of its 1-based range, which lies within the document. */
  predicate Consistent(part: SplitPart, totalPages: nat) {
    && part.totalPages == totalPages
    && 1 <= part.pageStart <= part.pageEnd <= totalPages
    && part.pageIndices == Range(part.pageStart - 1, part.pageEnd - part.pageStart + 1)
  }

  lemma {:induction false} PartsConsistent(baseName: string, startPage: nat, pagesPerPart: nat, totalPages: nat)
    requires pagesPerPart >= 1
    ensures forall k :: 0 <= k < |PartsFrom(baseName, startPage, pagesPerPart, totalPages)| ==>
      Consistent(PartsFrom(baseName, startPage, pagesPerPart, totalPages)[k], totalPages)
    decreases totalPages - startPage
  {
    if startPage < totalPages {
      var rest := PartsFrom(baseName, startPage + pagesPerPart, pagesPerPart, totalPages);
      PartsConsistent(baseName, startPage + pagesPerPart, pagesPerPart, totalPages);
      var ps := PartsFrom(baseName, startPage, pagesPerPart, totalPages);
      assert ps == [PartAt(baseName, startPage, pagesPerPart, totalPages)] + rest;
      var part := PartAt(baseName, startPage, pagesPerPart, totalPages);
      var endPage := Min(startPage + pagesPerPart, totalPages);
      assert part.pageStart == startPage + 1 && part.pageEnd == endPage;
      assert part.pageIndices == Range(startPage, endPage - startPage);
      assert Consistent(part, totalPages);
      forall k | 0 <= k < |ps| ensures Consistent(ps[k], totalPages) {
        if k == 0 {
          assert ps[k] == part;
        } else {
          assert ps[k] == rest[k - 1];
          assert Consistent(rest[k - 1], totalPages);
        }
      }
    }
  }

  /** `splitPdf` on a file name and its page count. With no pages there is
      nothing to split, whatever `pagesPerPart` is; otherwise a
      `pagesPerPart` below 1 would never end the loop. Every part copies
      exactly the pages its range names. */
  function SplitPdf(fileName: string, totalPages: nat, pagesPerPart: nat): (ps: seq<SplitPart>)
    requires totalPages == 0 || pagesPerPart >= 1
    ensures totalPages == 0 ==> ps == []
    ensures forall k :: 0 <= k < |ps| ==> Consistent(ps[k], totalPages)
  {
    if totalPages == 0 then []
    else
      PartsConsistent(BaseName(fileName), 0, pagesPerPart, totalPages);
      PartsFrom(BaseName(fileName), 0, pagesPerPart, totalPages)
  }

  lemma MulSucc(k: nat, p: nat)
    ensures (k + 1) * p == k * p + p
  {
  }

  lemma MulMonotone(a: nat, b: nat, p: nat)
    requires a <= b
    ensures a * p <= b * p
  {
    assert b * p == a * p + (b - a) * p;
  }

  /** Division is determined by the multiples around its argument. */
  lemma DivUnique(x: nat, p: nat, n: nat)
    requires p >= 1 && n * p <= x < n * p + p
    ensures x / p == n
  {
    var q := x / p;
    assert x == q * p + x % p;
    MulSucc(q, p);
    MulSucc(n, p);
    if q < n {
      MulMonotone(q + 1, n, p);
    } else if q > n {
      MulMonotone(n + 1, q, p);
    }
  }

  /** The loop from `s` makes just enough parts to pass the last page. */
  lemma {:induction false} PartsFromCount(baseName: string, s: nat, pagesPerPart: nat, totalPages: nat)
    requires pagesPerPart >= 1
    ensures var n := |PartsFrom(baseName, s, pagesPerPart, totalPages)|;
      && (n == 0 <==> s >= totalPages)
      && (n > 0 ==> s + (n - 1) * pagesPerPart < totalPages <= s + n * pagesPerPart)
    decreases totalPages - s
  {
    if s < totalPages {
      var p := pagesPerPart;
      PartsFromCount(baseName, s + p, p, totalPages);
      var m := |PartsFrom(baseName, s + p, p, totalPages)|;
      assert |PartsFrom(baseName, s, p, totalPages)| == m + 1;
      MulSucc(m, p);
      if m > 0 {
        MulSucc(m - 1, p);
      }
    }
  }

  lemma {:induction false} PartsFromAt(baseName: string, s: nat, pagesPerPart: nat, totalPages: nat, k: nat)
    requires pagesPerPart >= 1 && k < |PartsFrom(baseName, s, pagesPerPart, totalPages)|
    ensures s + k * pagesPerPart < totalPages
    ensures PartsFrom(baseName, s, pagesPerPart, totalPages)[k] == PartAt(baseName, s + k * pagesPerPart, pagesPerPart, totalPages)
    decreases k
  {
    var p := pagesPerPart;
    var rest := PartsFrom(baseName, s + p, p, totalPages);
    assert PartsFrom(baseName, s, p, totalPages) == [PartAt(baseName, s, p, totalPages)] + rest;
    if k == 0 {
      assert k * p == 0;
    } else {
      PartsFromAt(baseName, s + p, p, totalPages, k - 1);
      MulSucc(k - 1, p);
      assert s + k * p == (s + p) + (k - 1) * p;
    }
  }

  /** Part `k` of the loop started at `s` is the part for start page
      `s + k * pagesPerPart`. */
  lemma PartsFromIndexed(baseName: string, s: nat, pagesPerPart: nat, totalPages: nat)
    requires pagesPerPart >= 1
    ensures var ps := PartsFrom(baseName, s, pagesPerPart, totalPages);
      forall k :: 0 <= k < |ps| ==>
        (s + k * pagesPerPart < totalPages
         && ps[k] == PartAt(baseName, s + k * pagesPerPart, pagesPerPart, totalPages))
  {
    var ps := PartsFrom(baseName, s, pagesPerPart, totalPages);
    forall k | 0 <= k < |ps|
      ensures s + k * pagesPerPart < totalPages
           && ps[k] == PartAt(baseName, s + k * pagesPerPart, pagesPerPart, totalPages)
    {
      PartsFromAt(baseName, s, pagesPerPart, totalPages, k);
    }
  }

  /** ceil(t / p), for a count `n` of parts with `(n - 1) * p < t <= n * p`. */
  lemma CeilCount(t: nat, p: nat, n: nat)
    requires p >= 1 && n >= 1 && (n - 1) * p < t <= n * p
    ensures (t + p - 1) / p == n
  {
    MulSucc(n - 1, p);
    DivUnique(t + p - 1, p, n);
  }

  /** The fields of the part the loop builds for start page `k * pagesPerPart`. */
  lemma PartFields(baseName: string, k: nat, pagesPerPart: nat, totalPages: nat)
    requires pagesPerPart >= 1 && k * pagesPerPart < totalPages
    ensures var part := PartAt(baseName, k * pagesPerPart, pagesPerPart, totalPages);
      && part.pageStart == k * pagesPerPart + 1
      && part.fileName == PartFileName(baseName, k + 1)
      && part.pageEnd == Min((k + 1) * pagesPerPart, totalPages)
      && part.totalPages == totalPages
  {
    MulSucc(k, pagesPerPart);
    DivUnique(k * pagesPerPart, pagesPerPart, k);
  }

  /** The number of parts is ceil(totalPages / pagesPerPart); part `k`
      (numbered `k + 1` in its name) covers the 1-based pages
      `k * pagesPerPart + 1` to `min((k + 1) * pagesPerPart, totalPages)`
      and records the same total page count. */
  lemma SplitPdfParts(fileName: string, totalPages: nat, pagesPerPart: nat)
    requires pagesPerPart >= 1
    ensures var ps := SplitPdf(fileName, totalPages, pagesPerPart);
      && |ps| == (totalPages + pagesPerPart - 1) / pagesPerPart
      && forall k :: 0 <= k < |ps| ==>
           && ps[k].pageStart == k * pagesPerPart + 1
           && ps[k].pageEnd == Min((k + 1) * pagesPerPart, totalPages)
           && ps[k].totalPages == totalPages
           && ps[k].fileName == PartFileName(BaseName(fileName), k + 1)
  {
    if totalPages > 0 {
      PartsCount(BaseName(fileName), pagesPerPart, totalPages);
      PartsFields(BaseName(fileName), pagesPerPart, totalPages);
    } else {
      DivUnique(pagesPerPart - 1, pagesPerPart, 0);
    }
  }

  lemma PartsCount(baseName: string, pagesPerPart: nat, totalPages: nat)
    requires pagesPerPart >= 1 && totalPages >= 1
    ensures |PartsFrom(baseName, 0, pagesPerPart, totalPages)| == (totalPages + pagesPerPart - 1) / pagesPerPart
  {
    PartsFromCount(baseName, 0, pagesPerPart, totalPages);
    CeilCount(totalPages, pagesPerPart, |PartsFrom(baseName, 0, pagesPerPart, totalPages)|);
  }

  lemma PartsFields(baseName: string, pagesPerPart: nat, totalPages: nat)
    requires pagesPerPart >= 1
    ensures var ps := PartsFrom(baseName, 0, pagesPerPart, totalPages);
      forall k :: 0 <= k < |ps| ==>
        && ps[k].pageStart == k * pagesPerPart + 1
        && ps[k].pageEnd == Min((k + 1) * pagesPerPart, totalPages)
        && ps[k].totalPages == totalPages
        && ps[k].fileName == PartFileName(baseName, k + 1)
  {
    var ps := PartsFrom(baseName, 0, pagesPerPart, totalPages);
    forall k | 0 <= k < |ps|
      ensures && ps[k].pageStart == k * pagesPerPart + 1
              && ps[k].pageEnd == Min((k + 1) * pagesPerPart, totalPages)
              && ps[k].totalPages == totalPages
              && ps[k].fileName == PartFileName(baseName, k + 1)
    {
      PartsFromAt(baseName, 0, pagesPerPart, totalPages, k);
      PartFields(baseName, k, pagesPerPart, totalPages);
    }
  }

  /** The parts' ranges tile the document: the first starts at page 1,
      each next one starts right after the previous one ends, the last ends
      at the last page, every part has between 1 and `pagesPerPart` pages
      and all but the last exactly `pagesPerPart`. */
  lemma SplitPdfTiles(fileName: string, totalPages: nat, pagesPerPart: nat)
    requires pagesPerPart >= 1
    ensures var ps := SplitPdf(fileName, totalPages, pagesPerPart);
      && (totalPages == 0 <==> ps == [])
      && (ps != [] ==> ps[0].pageStart == 1 && ps[|ps| - 1].pageEnd == totalPages)
      && (forall k :: 0 <= k < |ps| - 1 ==> ps[k + 1].pageStart == ps[k].pageEnd + 1)
      && (forall k :: 0 <= k < |ps| ==> ps[k].pageStart <= ps[k].pageEnd <= ps[k].pageStart + pagesPerPart - 1)
      && (forall k :: 0 <= k < |ps| - 1 ==> ps[k].pageEnd - ps[k].pageStart + 1 == pagesPerPart)
  {
    var p := pagesPerPart;
    var ps := SplitPdf(fileName, totalPages, p);
    SplitPdfParts(fileName, totalPages, p);
    if totalPages > 0 {
      PartsFromCount(BaseName(fileName), 0, p, totalPages);
      var n := |ps|;
      assert ps[0].pageStart == 1 by {
        assert 0 * p == 0;
      }
      assert ps[n - 1].pageEnd == totalPages;
      forall k | 0 <= k < n
        ensures ps[k].pageStart <= ps[k].pageEnd <= ps[k].pageStart + p - 1
      {
        MulSucc(k, p);
        MulMonotone(k, n - 1, p);
      }
      forall k | 0 <= k < n - 1
        ensures ps[k + 1].pageStart == ps[k].pageEnd + 1
             && ps[k].pageEnd - ps[k].pageStart + 1 == p
      {
        MulSucc(k, p);
        MulMonotone(k + 1, n - 1, p);
      }
    }
  }

  function PagesOf(part: SplitPart): seq<nat> {
    part.pageIndices
  }

  /** The pages of consecutive ranges are the pages of their union. */
  lemma RangeSplit(a: nat, n: nat, m: nat)
    ensures Range(a, n) + Range(a + n, m) == Range(a, n + m)
  {
  }

  /** The parts copy every page exactly once and in order. */
  lemma {:induction false} PartsFromPages(baseName: string, startPage: nat, pagesPerPart: nat, totalPages: nat)
    requires pagesPerPart >= 1 && startPage <= totalPages
    ensures Seqs.Flatten(Seqs.Map(PagesOf, PartsFrom(baseName, startPage, pagesPerPart, totalPages)))
         == Range(startPage, totalPages - startPage)
    decreases totalPages - startPage
  {
    var ps := PartsFrom(baseName, startPage, pagesPerPart, totalPages);
    if startPage >= totalPages {
      assert Seqs.Map(PagesOf, ps) == [];
    } else {
      var part := PartAt(baseName, startPage, pagesPerPart, totalPages);
      var endPage := Min(startPage + pagesPerPart, totalPages);
      var rest := PartsFrom(baseName, startPage + pagesPerPart, pagesPerPart, totalPages);
      assert ps == [part] + rest;
      assert PagesOf(part) == Range(startPage, endPage - startPage);
      Seqs.MapCons(PagesOf, part, rest);
      Seqs.FlattenCons(PagesOf(part), Seqs.Map(PagesOf, rest));
      if startPage + pagesPerPart <= totalPages {
        PartsFromPages(baseName, startPage + pagesPerPart, pagesPerPart, totalPages);
        RangeSplit(startPage, endPage - startPage, totalPages - endPage);
      } else {
        assert rest == [];
        assert Seqs.Map(PagesOf, rest) == [];
        assert Range(startPage, endPage - startPage) + [] == Range(startPage, totalPages - startPage);
      }
    }
  }

  lemma SplitPdfCoversPages(fileName: string, totalPages: nat, pagesPerPart: nat)
    requires pagesPerPart >= 1
    ensures Seqs.Flatten(Seqs.Map(PagesOf, SplitPdf(fileName, totalPages, pagesPerPart)))
         == Range(0, totalPages)
  {
    if totalPages > 0 {
      PartsFromPages(BaseName(fileName), 0, pagesPerPart, totalPages);
    } else {
      assert Seqs.Map(PagesOf, []) == [];
    }
  }
}

=== FILE: perform_research.dfy ===
/** The two fan-out strategies of `service/perform_research_service.py`:
    every decomposed task run independently (`execute_tasks_in_parallel`)
    or one after another with a growing chat history
    (`execute_tasks_in_sequence`).

    The decomposition call is an oracle result; task `i` meets the outside
    world through `oracles(i)`. `asyncio.gather` returns its results in the
    order of its arguments, so the parallel mode is a map over the tasks. */
module PerformResearch {
  import opened Wrappers
  import Seqs
  import CM = CopyMessages
  import RT = RagTask

  /** `PerformResearchInput`. */
  datatype ResearchInput = ResearchInput(query: string, collection: string, chatHistory: Option<seq<CM.Message>>)

  /** What every task of one request shares: the task prompt template and
      the general-knowledge switch of the execution config. */
  datatype TaskContext = TaskContext(template: string, allowGeneralKnowledge: bool)

  function RunTask(input: ResearchInput, ctx: TaskContext, task: string,
                   history: Option<seq<CM.Message>>, o: RT.RagOracle): (e: RT.TaskEntry)
    ensures e.task == task && (e.success ==> e.result.Some?)
  {
    RT.ExecuteTask(task, ctx.template, input.collection, ctx.allowGeneralKnowledge, history, o)
  }

  /** Python truthiness of the optional history: `None` and `[]` are false. */
  predicate HasHistory(input: ResearchInput) {
    input.chatHistory.Some? && input.chatHistory.value != []
  }

  /** `execute_tasks_in_parallel`. Each task copies the input history (system
      messages dropped) inside its own coroutine, so an unsupported message
      fails the whole call, but only when there is at least one task. */
  function ExecuteInParallel(input: ResearchInput, ctx: TaskContext, decomposition: Result<seq<string>>,
                             oracles: nat -> RT.RagOracle): (r: Result<seq<RT.TaskEntry>>)
    ensures r.Success? ==> decomposition.Success? && |r.value| == |decomposition.value|
    ensures r.Success? ==> forall i :: 0 <= i < |r.value| ==> r.value[i].task == decomposition.value[i]
    ensures decomposition.Failure? ==> r == Failure(decomposition.error)
  {
    var tasks :- decomposition;
    if tasks != [] && HasHistory(input) then
      var copy :- CM.CopyMessages(input.chatHistory.value, false);
      Success(Gather(input, ctx, tasks, Some(copy), oracles))
    else
      Success(Gather(input, ctx, tasks, None, oracles))
  }

  /** `asyncio.gather` over the task coroutines: one entry per task, in task
      order, each computed from its own task and oracle only. */
  function Gather(input: ResearchInput, ctx: TaskContext, tasks: seq<string>, history: Option<seq<CM.Message>>,
                  oracles: nat -> RT.RagOracle): (es: seq<RT.TaskEntry>)
    ensures |es| == |tasks|
    ensures forall i :: 0 <= i < |tasks| ==> es[i] == RunTask(input, ctx, tasks[i], history, oracles(i))
    ensures forall i :: 0 <= i < |tasks| ==> es[i].task == tasks[i]
  {
    seq(|tasks|, i requires 0 <= i < |tasks| => RunTask(input, ctx, tasks[i], history, oracles(i)))
  }

  /** Each parallel task is run on its own, with the same history copy, and
      one task's failure does not touch any other entry. */
  lemma ParallelTasksIndependent(input: ResearchInput, ctx: TaskContext, tasks: seq<string>,
                                 oracles: nat -> RT.RagOracle, i: nat)
    requires i < |tasks|
    requires !HasHistory(input) || CM.CopyMessages(input.chatHistory.value, false).Success?
    ensures var r := ExecuteInParallel(input, ctx, Success(tasks), oracles);
      var history := if HasHistory(input) then Some(CM.CopyMessages(input.chatHistory.value, false).value) else None;
      r.Success? && r.value[i] == RunTask(input, ctx, tasks[i], history, oracles(i))
  {
  }

  /** An unsupported message in the history fails the parallel call, unless
      the decomposition produced no task at all. */
  lemma ParallelHistoryError(input: ResearchInput, ctx: TaskContext, tasks: seq<string>, oracles: nat -> RT.RagOracle)
    requires HasHistory(input) && CM.CopyMessages(input.chatHistory.value, false).Failure?
    ensures ExecuteInParallel(input, ctx, Success(tasks), oracles)
         == if tasks == [] then Success([]) else Failure(CM.CopyMessages(input.chatHistory.value, false).error)
  {
  }

  /** The history a successful entry appends: the task as a human message,
      then the result as an AI message. */
  function Exchange(e: RT.TaskEntry): seq<CM.Message> {
    if e.success then [CM.Human(e.task), CM.Ai(e.result.GetOr(""))] else []
  }

  /** The exchanges of a list of entries, in order. */
  function Transcript(es: seq<RT.TaskEntry>): seq<CM.Message>
    decreases |es|
  {
    if es == [] then [] else Exchange(es[0]) + Transcript(es[1..])
  }

  lemma {:induction false} TranscriptAppend(a: seq<RT.TaskEntry>, b: seq<RT.TaskEntry>)
    ensures Transcript(a + b) == Transcript(a) + Transcript(b)
    decreases |a|
  {
    if a == [] {
      assert a + b == b;
    } else {
      assert (a + b)[0] == a[0];
      assert (a + b)[1..] == a[1..] + b;
      TranscriptAppend(a[1..], b);
    }
  }

  /** Appending one entry's exchange to a history built from the start
      gives the history of the longer entry list. */
  lemma HistoryStep(start: seq<CM.Message>, entries: seq<RT.TaskEntry>, e: RT.TaskEntry)
    ensures (start + Transcript(entries)) + Exchange(e) == start + Transcript(entries + [e])
  {
    TranscriptAppend(entries, [e]);
    TranscriptSingle(e);
    Seqs.Associative(start, Transcript(entries), Exchange(e));
  }

  lemma TranscriptSingle(e: RT.TaskEntry)
    ensures Transcript([e]) == Exchange(e)
  {
    assert [e][1..] == [];
    assert Exchange(e) + [] == Exchange(e);
  }

  /** The starting history of the sequential mode: a copy of the input
      history, or empty. */
  function StartingHistory(input: ResearchInput): Result<seq<CM.Message>> {
    if HasHistory(input) then CM.CopyMessages(input.chatHistory.value, false) else Success([])
  }

  datatype SequenceState = SequenceState(entries: seq<RT.TaskEntry>, history: seq<CM.Message>)

  /** The state after one more entry: the entry is recorded and, when it
      succeeded, its exchange is appended to the history. */
  function Advance(st: SequenceState, e: RT.TaskEntry): SequenceState {
    SequenceState(st.entries + [e], st.history + Exchange(e))
  }

  /** One iteration of the `for task in decomposition.tasks` loop. */
  function SequenceStep(input: ResearchInput, ctx: TaskContext, st: SequenceState, task: string,
                        o: RT.RagOracle): (st': SequenceState)
    ensures |st'.entries| == |st.entries| + 1 && st'.entries[..|st.entries|] == st.entries
    ensures st'.entries[|st.entries|].task == task
    ensures st'.entries[|st.entries|].success ==>
      st'.entries[|st.entries|].result.Some?
      && st'.history == st.history + [CM.Human(task), CM.Ai(st'.entries[|st.entries|].result.value)]
    ensures !st'.entries[|st.entries|].success ==> st'.history == st.history
  {
    Advance(st, RunTask(input, ctx, task, Some(st.history), o))
  }

  /** How the loop runs task `k` of the decomposition on the history so far. */
  function Runner(input: ResearchInput, ctx: TaskContext, oracles: nat -> RT.RagOracle): (string, seq<CM.Message>, nat) -> RT.TaskEntry {
    (task: string, history: seq<CM.Message>, k: nat) => RunTask(input, ctx, task, Some(history), oracles(k))
  }

  /** The state after the first `n` tasks of the sequential loop, for any way
      `run` of running one task on a history. */
  function SequentialRun(run: (string, seq<CM.Message>, nat) -> RT.TaskEntry, start: seq<CM.Message>,
                         tasks: seq<string>, n: nat): (st: SequenceState)
    requires n <= |tasks|
    ensures |st.entries| == n
    decreases n
  {
    if n == 0 then SequenceState([], start)
    else
      var prev := SequentialRun(run, start, tasks, n - 1);
      Advance(prev, run(tasks[n - 1], prev.history, n - 1))
  }

  /** After `n` sequential tasks the history is the starting history
      followed by the exchanges of the successful entries, in order. */
  lemma {:induction false} SequentialRunHistory(run: (string, seq<CM.Message>, nat) -> RT.TaskEntry,
                                                start: seq<CM.Message>, tasks: seq<string>, n: nat)
    requires n <= |tasks|
    ensures var st := SequentialRun(run, start, tasks, n);
      st.history == start + Transcript(st.entries)
    decreases n
  {
    if n > 0 {
      SequentialRunHistory(run, start, tasks, n - 1);
      var prev := SequentialRun(run, start, tasks, n - 1);
      HistoryStep(start, prev.entries, run(tasks[n - 1], prev.history, n - 1));
    }
  }

  /** Running more tasks only appends: the first `m` entries after `n` tasks
      are the entries after `m` tasks. */
  lemma {:induction false} SequentialRunPrefix(run: (string, seq<CM.Message>, nat) -> RT.TaskEntry,
                                               start: seq<CM.Message>, tasks: seq<string>, m: nat, n: nat)
    requires m <= n <= |tasks|
    ensures SequentialRun(run, start, tasks, n).entries[..m] == SequentialRun(run, start, tasks, m).entries
    decreases n
  {
    if m < n {
      SequentialRunPrefix(run, start, tasks, m, n - 1);
      var prev := SequentialRun(run, start, tasks, n - 1).entries;
      var cur := SequentialRun(run, start, tasks, n).entries;
      assert cur[..n - 1] == prev;
      assert cur[..m] == prev[..m];
    } else {
      assert SequentialRun(run, start, tasks, n).entries[..m] == SequentialRun(run, start, tasks, n).entries;
    }
  }

  /** Entry `k` after `n` tasks is task `k` run on the history of the
      entries before it. */
  lemma SequentialRunEntry(run: (string, seq<CM.Message>, nat) -> RT.TaskEntry,
                           start: seq<CM.Message>, tasks: seq<string>, n: nat, k: nat)
    requires k < n <= |tasks|
    ensures var es := SequentialRun(run, start, tasks, n).entries;
      es[k] == run(tasks[k], start + Transcript(es[..k]), k)
  {
    var es := SequentialRun(run, start, tasks, n).entries;
    var before := SequentialRun(run, start, tasks, k);
    SequentialRunPrefix(run, start, tasks, k + 1, n);
    SequentialRunPrefix(run, start, tasks, k, n);
    SequentialRunHistory(run, start, tasks, k);
    assert SequentialRun(run, start, tasks, k + 1).entries == before.entries + [run(tasks[k], before.history, k)];
    assert es[k] == es[..k + 1][k];
  }

  /** After `n` sequential tasks, entry `k` is task `k` run on the starting
      history plus the exchanges of the successful entries before it. */
  lemma SequentialRunEntries(run: (string, seq<CM.Message>, nat) -> RT.TaskEntry,
                             start: seq<CM.Message>, tasks: seq<string>, n: nat)
    requires n <= |tasks|
    ensures var st := SequentialRun(run, start, tasks, n);
      forall k :: 0 <= k < n ==> st.entries[k] == run(tasks[k], start + Transcript(st.entries[..k]), k)
  {
    var st := SequentialRun(run, start, tasks, n);
    forall k | 0 <= k < n
      ensures st.entries[k] == run(tasks[k], start + Transcript(st.entries[..k]), k)
    {
      SequentialRunEntry(run, start, tasks, n, k);
    }
  }

  /** `execute_tasks_in_sequence`, as the source's loop. */
  method ExecuteInSequence(input: ResearchInput, ctx: TaskContext, decomposition: Result<seq<string>>,
                           oracles: nat -> RT.RagOracle) returns (r: Result<seq<RT.TaskEntry>>, history: seq<CM.Message>)
    ensures decomposition.Failure? ==> r == Failure(decomposition.error)
    ensures decomposition.Success? && StartingHistory(input).Failure? ==> r == Failure(StartingHistory(input).error)
    ensures r.Success? ==> decomposition.Success? && StartingHistory(input).Success?
    ensures r.Success? ==> |r.value| == |decomposition.value|
    ensures r.Success? ==> forall i :: 0 <= i < |r.value| ==> r.value[i].task == decomposition.value[i]
    ensures r.Success? ==> forall i :: 0 <= i < |r.value| ==>
      r.value[i] == RunTask(input, ctx, decomposition.value[i],
                            Some(StartingHistory(input).value + Transcript(r.value[..i])), oracles(i))
    ensures r.Success? ==> history == StartingHistory(input).value + Transcript(r.value)
  {
    history := [];
    if decomposition.Failure? {
      return Failure(decomposition.error), history;
    }
    var tasks := decomposition.value;
    var start := StartingHistory(input);
    if start.Failure? {
      return Failure(start.error), history;
    }
    history := start.value;
    var entries: seq<RT.TaskEntry> := [];
    var i := 0;
    while i < |tasks|
      invariant 0 <= i <= |tasks|
      invariant SequenceState(entries, history) == SequentialRun(Runner(input, ctx, oracles), start.value, tasks, i)
    {
      var e := RunTask(input, ctx, tasks[i], Some(history), oracles(i));
      assert Runner(input, ctx, oracles)(tasks[i], history, i) == e;
      entries := entries + [e];
      history := history + Exchange(e);
      i := i + 1;
    }
    SequentialOutcome(input, ctx, oracles, start.value, tasks);
    return Success(entries), history;
  }

  /** The sequential run with the source's way of running a task: one entry
      per task, each run on the history the earlier tasks built. */
  lemma SequentialOutcome(input: ResearchInput, ctx: TaskContext, oracles: nat -> RT.RagOracle,
                          start: seq<CM.Message>, tasks: seq<string>)
    ensures var st := SequentialRun(Runner(input, ctx, oracles), start, tasks, |tasks|);
      && st.history == start + Transcript(st.entries)
      && forall k :: 0 <= k < |tasks| ==>
           && st.entries[k] == RunTask(input, ctx, tasks[k], Some(start + Transcript(st.entries[..k])), oracles(k))
           && st.entries[k].task == tasks[k]
  {
    var run := Runner(input, ctx, oracles);
    SequentialRunHistory(run, start, tasks, |tasks|);
    SequentialRunEntries(run, start, tasks, |tasks|);
    var st := SequentialRun(run, start, tasks, |tasks|);
    forall k | 0 <= k < |tasks|
      ensures st.entries[k] == RunTask(input, ctx, tasks[k], Some(start + Transcript(st.entries[..k])), oracles(k))
    {
      assert st.entries[k] == run(tasks[k], start + Transcript(st.entries[..k]), k);
    }
  }

  /** The sequential history grows by two messages per successful task and
      by nothing for a failed one. */
  lemma {:induction false} HistoryLength(start: seq<CM.Message>, entries: seq<RT.TaskEntry>)
    ensures |start + Transcript(entries)| == |start| + 2 * Seqs.CountIf((e: RT.TaskEntry) => e.success, entries)
    decreases |entries|
  {
    if entries != [] {
      HistoryLength(start, entries[1..]);
    }
  }

  /** A failed task leaves the history it hands on unchanged, and the loop
      goes on with the next task. */
  lemma FailedTaskKeepsHistory(input: ResearchInput, ctx: TaskContext, st: SequenceState, task: string,
                               o: RT.RagOracle)
    requires !RunTask(input, ctx, task, Some(st.history), o).success
    ensures SequenceStep(input, ctx, st, task, o).history == st.history
    ensures |SequenceStep(input, ctx, st, task, o).entries| == |st.entries| + 1
  {
  }
}

=== FILE: py_repr.dfy ===
/** Python's `repr` of a `str`, as it appears when a pydantic model is
    rendered with `str()` (each field shown as `name=repr(value)`).

    The quote is `'` unless the text holds `'` and no `"`. A backslash and the
    chosen quote are escaped with a backslash; tab, newline and carriage
    return become `\t`, `\n` and `\r`; the other Latin-1 characters that are
    not printable become `\xNN` with lower-case hex digits. */
module PyRepr {

  const HEX := "0123456789abcdef"

  /** The quote `repr` chooses for `s`. */
  function Quote(s: string): (q: char)
    ensures q == '"' || q == '\''
  {
    if '\'' in s && '"' !in s then '"' else '\''
  }

  /** Latin-1 characters that are not printable and have no short escape:
      the C0 controls other than tab, newline and carriage return, DEL, the
      C1 controls, the no-break space and the soft hyphen. */
  predicate HexEscaped(c: char) {
    var n := c as int;
    (n < 32 && c != '\t' && c != '\n' && c != '\r') || (127 <= n <= 160) || n == 173
  }

  /** How `repr` writes one character inside quotes `q`. */
  function EscapeChar(c: char, q: char): string {
    if c == '\\' || c == q then ['\\', c]
    else if c == '\t' then "\\t"
    else if c == '\n' then "\\n"
    else if c == '\r' then "\\r"
    else if HexEscaped(c) then "\\x" + [HEX[c as int / 16], HEX[c as int % 16]]
    else [c]
  }

  function Escape(s: string, q: char): string
    decreases |s|
  {
    if s == [] then [] else EscapeChar(s[0], q) + Escape(s[1..], q)
  }

  /** `repr(s)` for a Python `str`. */
  function Repr(s: string): (r: string)
    ensures |r| >= 2 && r[0] == Quote(s) && r[|r| - 1] == Quote(s)
  {
    [Quote(s)] + Escape(s, Quote(s)) + [Quote(s)]
  }

  function HexValue(c: char): (v: nat)
    ensures v < 16
  {
    if '0' <= c <= '9' then c as int - '0' as int
    else if 'a' <= c <= 'f' then c as int - 'a' as int + 10
    else 0
  }

  /** Reading the inside of a Python string literal back: the inverse of
      `Escape` on what `Escape` produces. */
  function Unescape(t: string): string
    decreases |t|
  {
    if t == [] then []
    else if t[0] == '\\' && |t| >= 2 then
      if t[1] == 'x' && |t| >= 4 then [(HexValue(t[2]) * 16 + HexValue(t[3])) as char] + Unescape(t[4..])
      else if t[1] == 't' then ['\t'] + Unescape(t[2..])
      else if t[1] == 'n' then ['\n'] + Unescape(t[2..])
      else if t[1] == 'r' then ['\r'] + Unescape(t[2..])
      else [t[1]] + Unescape(t[2..])
    else [t[0]] + Unescape(t[1..])
  }

  lemma HexDigits(n: nat)
    requires n < 16
    ensures HexValue(HEX[n]) == n
  {
    if n < 10 {
      assert HEX[n] as int == '0' as int + n;
    } else {
      assert HEX[n] as int == 'a' as int + (n - 10);
    }
  }

  /** One escaped character reads back as itself. */
  lemma UnescapeChar(c: char, q: char, rest: string)
    requires q == '"' || q == '\''
    ensures Unescape(EscapeChar(c, q) + rest) == [c] + Unescape(rest)
  {
    var e := EscapeChar(c, q);
    if c == '\\' || c == q {
      assert (e + rest)[2..] == rest;
    } else if c == '\t' || c == '\n' || c == '\r' {
      assert (e + rest)[2..] == rest;
    } else if HexEscaped(c) {
      var n := c as int;
      HexDigits(n / 16);
      HexDigits(n % 16);
      assert (e + rest)[2] == HEX[n / 16] && (e + rest)[3] == HEX[n % 16];
      assert (e + rest)[4..] == rest;
    } else {
      assert (e + rest)[1..] == rest;
    }
  }

  lemma {:induction false} UnescapeEscape(s: string, q: char)
    requires q == '"' || q == '\''
    ensures Unescape(Escape(s, q)) == s
    decreases |s|
  {
    if s != [] {
      UnescapeEscape(s[1..], q);
      UnescapeChar(s[0], q, Escape(s[1..], q));
    }
  }

  /** Between its quotes, `repr(s)` reads back as `s`: no character is lost,
      added or changed by the rendering. */
  lemma ReprRoundTrip(s: string)
    ensures var r := Repr(s); Unescape(r[1..|r| - 1]) == s
  {
    var r := Repr(s);
    assert r[1..|r| - 1] == Escape(s, Quote(s));
    UnescapeEscape(s, Quote(s));
  }

  /** Text with no quote, backslash or unprintable Latin-1 character is
      shown as itself between single quotes. */
  lemma PlainTextIsQuoted(s: string)
    requires Plain(s)
    ensures Repr(s) == "'" + s + "'"
  {
    PlainEscape(s, '\'');
  }

  /** Characters that need no escape inside quotes `q` are copied. */
  lemma {:induction false} PlainEscape(s: string, q: char)
    requires forall i :: 0 <= i < |s| ==> s[i] != q && s[i] !in "\\\t\n\r" && !HexEscaped(s[i])
    ensures Escape(s, q) == s
    decreases |s|
  {
    if s != [] {
      PlainEscape(s[1..], q);
    }
  }

  /** Text without quotes, backslashes or unprintable Latin-1 characters. */
  predicate Plain(s: string) {
    forall i :: 0 <= i < |s| ==> s[i] !in "'\"\\\t\n\r" && !HexEscaped(s[i])
  }

  /** A single quote and no double quote switches to double quotes, and the
      single quote is not escaped: `repr("What's up")` is `"What's up"`. */
  lemma ApostropheUsesDoubleQuotes(a: string, b: string)
    requires Plain(a) && Plain(b)
    ensures Repr(a + "'" + b) == "\"" + a + "'" + b + "\""
  {
    var s := a + "'" + b;
    assert s[|a|] == '\'';
    forall i | 0 <= i < |s|
      ensures s[i] != '"' && s[i] !in "\\\t\n\r" && !HexEscaped(s[i])
    {
      if i < |a| {
        assert s[i] == a[i];
      } else if i > |a| {
        assert s[i] == b[i - |a| - 1];
      }
    }
    assert Quote(s) == '"';
    PlainEscape(s, '"');
  }
}

=== FILE: rag_task.dfy ===
/** Citation extraction and the outcome of one retrieval-augmented task,
    `_extract_citations` and `execute_task` of `service/rag_task_service.py`.

    The LLM and the embedding search are oracles: the generated search query,
    the search hits for a query, the summary of each hit (absent when the
    summarising call fails, which the source swallows) and the final answer
    for the prompt the task assembles. */
module RagTask {
  import opened Wrappers
  import Seqs
  import RF = RelevanceFilter
  import CM = CopyMessages

  /** `Citation`. */
  datatype Citation = Citation(
    filename: string,
    contentSummary: string,
    pageNumber: int,
    chunkIndex: int,
    collectionName: string,
    score: real,
    content: string)

  /** The de-duplication key `(collection_name, filename, chunk_index)`. */
  datatype Key = Key(collection: string, filename: string, chunkIndex: int)

  /** Python's `x or -1` on an optional integer: `None` and `0` are falsy. */
  function OrMinusOne(x: Option<int>): (r: int)
    ensures (x.None? || x.value == 0) <==> (r == -1 && (x.None? || x.value != -1))
    ensures x.Some? && x.value != 0 ==> r == x.value
  {
    if x.Some? && x.value != 0 then x.value else -1
  }

  function KeyOf(collection: string, d: RF.SearchResult): Key {
    Key(collection, d.metadata.sourceName, OrMinusOne(d.metadata.chunkIndex))
  }

  function CitationKey(c: Citation): Key {
    Key(c.collectionName, c.filename, c.chunkIndex)
  }

  function CiteOf(collection: string, d: RF.SearchResult): (c: Citation)
    ensures CitationKey(c) == KeyOf(collection, d)
  {
    Citation(d.metadata.sourceName, d.contentSummary.GetOr(""), OrMinusOne(d.metadata.pageNumber),
             OrMinusOne(d.metadata.chunkIndex), collection, d.score, d.metadata.content)
  }

  /** Document `i` is the first to carry its key. */
  predicate IsFirst(collection: string, docs: seq<RF.SearchResult>, i: nat)
    requires i < |docs|
  {
    forall k :: 0 <= k < i ==> KeyOf(collection, docs[k]) != KeyOf(collection, docs[i])
  }

  predicate DistinctKeys(cs: seq<Citation>) {
    forall i, j :: 0 <= i < j < |cs| ==> CitationKey(cs[i]) != CitationKey(cs[j])
  }

  /** The citations of the first `n` documents: one per first occurrence of a
      key, in input order. */
  function FirstCitations(collection: string, docs: seq<RF.SearchResult>, n: nat): (r: seq<Citation>)
    requires n <= |docs|
    ensures |r| <= n
    decreases n
  {
    if n == 0 then []
    else
      FirstCitations(collection, docs, n - 1)
        + (if IsFirst(collection, docs, n - 1) then [CiteOf(collection, docs[n - 1])] else [])
  }

  /** `_extract_citations`: the citations of the first occurrence of each key. */
  function ExtractCitations(collection: string, docs: seq<RF.SearchResult>): (r: seq<Citation>)
    ensures |r| <= |docs|
  {
    FirstCitations(collection, docs, |docs|)
  }

  function KeysOf(collection: string, docs: seq<RF.SearchResult>, n: nat): set<Key>
    requires n <= |docs|
  {
    set k | 0 <= k < n :: KeyOf(collection, docs[k])
  }

  function CitationKeys(cs: seq<Citation>): set<Key> {
    set j | 0 <= j < |cs| :: CitationKey(cs[j])
  }

  /** A document is the first with its key exactly when its key is not among
      the keys before it, and it adds that key to them. */
  lemma IsFirstIffUnseen(collection: string, docs: seq<RF.SearchResult>, i: nat)
    requires i < |docs|
    ensures IsFirst(collection, docs, i) <==> KeyOf(collection, docs[i]) !in KeysOf(collection, docs, i)
    ensures KeysOf(collection, docs, i + 1) == KeysOf(collection, docs, i) + {KeyOf(collection, docs[i])}
  {
    if !IsFirst(collection, docs, i) {
      var k :| 0 <= k < i && KeyOf(collection, docs[k]) == KeyOf(collection, docs[i]);
      assert KeyOf(collection, docs[k]) in KeysOf(collection, docs, i);
    }
  }

  lemma CitationKeysAppend(cs: seq<Citation>, c: Citation)
    ensures CitationKeys(cs + [c]) == CitationKeys(cs) + {CitationKey(c)}
  {
    var r := cs + [c];
    assert CitationKey(r[|cs|]) == CitationKey(c);
    forall k | k in CitationKeys(cs) ensures k in CitationKeys(r) {
      var j :| 0 <= j < |cs| && CitationKey(cs[j]) == k;
      assert r[j] == cs[j];
    }
  }

  /** The citations carry each key of the first `n` documents exactly once:
      no key is lost and none is repeated. */
  lemma {:induction false} FirstCitationsKeys(collection: string, docs: seq<RF.SearchResult>, n: nat)
    requires n <= |docs|
    ensures CitationKeys(FirstCitations(collection, docs, n)) == KeysOf(collection, docs, n)
    ensures DistinctKeys(FirstCitations(collection, docs, n))
    decreases n
  {
    if n > 0 {
      FirstCitationsKeys(collection, docs, n - 1);
      IsFirstIffUnseen(collection, docs, n - 1);
      var prev := FirstCitations(collection, docs, n - 1);
      if IsFirst(collection, docs, n - 1) {
        var c := CiteOf(collection, docs[n - 1]);
        assert FirstCitations(collection, docs, n) == prev + [c];
        DistinctAppend(prev, c);
      } else {
        assert FirstCitations(collection, docs, n) == prev;
      }
    }
  }

  lemma DistinctAppend(cs: seq<Citation>, c: Citation)
    requires DistinctKeys(cs) && CitationKey(c) !in CitationKeys(cs)
    ensures DistinctKeys(cs + [c])
    ensures CitationKeys(cs + [c]) == CitationKeys(cs) + {CitationKey(c)}
  {
    CitationKeysAppend(cs, c);
    var r := cs + [c];
    forall i, j | 0 <= i < j < |r| ensures CitationKey(r[i]) != CitationKey(r[j]) {
      assert r[i] == cs[i];
      if j < |cs| {
        assert r[j] == cs[j];
      } else {
        assert CitationKey(cs[i]) in CitationKeys(cs);
      }
    }
  }

  /** `c` is the citation of one of the first `n` documents, one that is the
      first with its key. */
  predicate CitedFirst(collection: string, docs: seq<RF.SearchResult>, n: nat, c: Citation)
    requires n <= |docs|
  {
    exists i :: 0 <= i < n && IsFirst(collection, docs, i) && c == CiteOf(collection, docs[i])
  }

  /** Every citation in `cs` is that of one of the first `n` documents which
      is the first with its key. */
  predicate CitesFirsts(collection: string, docs: seq<RF.SearchResult>, n: nat, cs: seq<Citation>)
    requires n <= |docs|
  {
    forall j :: 0 <= j < |cs| ==> CitedFirst(collection, docs, n, cs[j])
  }

  lemma {:induction false} FirstCitationsSound(collection: string, docs: seq<RF.SearchResult>, n: nat)
    requires n <= |docs|
    ensures CitesFirsts(collection, docs, n, FirstCitations(collection, docs, n))
    decreases n
  {
    if n > 0 {
      var prev := FirstCitations(collection, docs, n - 1);
      FirstCitationsSound(collection, docs, n - 1);
      SoundStep(collection, docs, n, prev);
      assert FirstCitations(collection, docs, n)
          == prev + (if IsFirst(collection, docs, n - 1) then [CiteOf(collection, docs[n - 1])] else []);
    }
  }

  /** One more document keeps every citation a first one's. */
  lemma SoundStep(collection: string, docs: seq<RF.SearchResult>, n: nat, prev: seq<Citation>)
    requires 0 < n <= |docs|
    requires forall j :: 0 <= j < |prev| ==> CitedFirst(collection, docs, n - 1, prev[j])
    ensures CitesFirsts(collection, docs, n,
      prev + (if IsFirst(collection, docs, n - 1) then [CiteOf(collection, docs[n - 1])] else []))
  {
    var r := prev + (if IsFirst(collection, docs, n - 1) then [CiteOf(collection, docs[n - 1])] else []);
    forall j | 0 <= j < |r|
      ensures CitedFirst(collection, docs, n, r[j])
    {
      if j < |prev| {
        assert r[j] == prev[j];
        assert CitedFirst(collection, docs, n - 1, prev[j]);
        CitedFirstWiden(collection, docs, n - 1, prev[j]);
      } else {
        assert IsFirst(collection, docs, n - 1) && r[j] == CiteOf(collection, docs[n - 1]);
      }
    }
  }

  lemma CitedFirstWiden(collection: string, docs: seq<RF.SearchResult>, m: nat, c: Citation)
    requires m < |docs| && CitedFirst(collection, docs, m, c)
    ensures CitedFirst(collection, docs, m + 1, c)
  {
    var i :| 0 <= i < m && IsFirst(collection, docs, i) && c == CiteOf(collection, docs[i]);
    assert 0 <= i < m + 1;
  }

  /** The extracted citations: one per distinct key, each the citation of that
      key's first document. */
  lemma ExtractCitationsFirstPerKey(collection: string, docs: seq<RF.SearchResult>)
    ensures var r := ExtractCitations(collection, docs);
      && DistinctKeys(r)
      && CitationKeys(r) == KeysOf(collection, docs, |docs|)
      && CitesFirsts(collection, docs, |docs|, r)
      && InDocumentOrder(collection, docs, |docs|, r)
  {
    FirstCitationsKeys(collection, docs, |docs|);
    FirstCitationsSound(collection, docs, |docs|);
    FirstCitationsOrdered(collection, docs, |docs|);
  }

  /** The citations in `cs` come in the order of their keys' first documents
      among the first `n`: an earlier citation's key first appears before a
      later one's. */
  predicate InDocumentOrder(collection: string, docs: seq<RF.SearchResult>, n: nat, cs: seq<Citation>)
    requires n <= |docs|
  {
    forall i, j, a, b ::
      && 0 <= i < j < |cs| && 0 <= a < n && 0 <= b < n
      && IsFirst(collection, docs, a) && IsFirst(collection, docs, b)
      && CitationKey(cs[i]) == KeyOf(collection, docs[a])
      && CitationKey(cs[j]) == KeyOf(collection, docs[b])
      ==> a < b
  }

  /** The first document with a key lies at or before any document with it. */
  lemma FirstIsEarliest(collection: string, docs: seq<RF.SearchResult>, a: nat, k: nat)
    requires a < |docs| && k < |docs| && IsFirst(collection, docs, a)
    requires KeyOf(collection, docs[k]) == KeyOf(collection, docs[a])
    ensures a <= k
  {
  }

  /** A key already cited among the first `m` documents has its first
      document among them. */
  lemma CitedKeyIsEarly(collection: string, docs: seq<RF.SearchResult>, m: nat, c: Citation, a: nat)
    requires m <= |docs| && a < |docs| && IsFirst(collection, docs, a)
    requires CitationKey(c) in KeysOf(collection, docs, m)
    requires CitationKey(c) == KeyOf(collection, docs[a])
    ensures a < m
  {
    var k :| 0 <= k < m && KeyOf(collection, docs[k]) == CitationKey(c);
    FirstIsEarliest(collection, docs, a, k);
  }

  lemma {:induction false} FirstCitationsOrdered(collection: string, docs: seq<RF.SearchResult>, n: nat)
    requires n <= |docs|
    ensures InDocumentOrder(collection, docs, n, FirstCitations(collection, docs, n))
    decreases n
  {
    if n > 0 {
      FirstCitationsOrdered(collection, docs, n - 1);
      FirstCitationsKeys(collection, docs, n - 1);
      OrderStep(collection, docs, n, FirstCitations(collection, docs, n - 1));
    }
  }

  /** One more document keeps the citations in document order. */
  lemma OrderStep(collection: string, docs: seq<RF.SearchResult>, n: nat, prev: seq<Citation>)
    requires 0 < n <= |docs|
    requires InDocumentOrder(collection, docs, n - 1, prev)
    requires CitationKeys(prev) == KeysOf(collection, docs, n - 1)
    ensures InDocumentOrder(collection, docs, n,
      prev + (if IsFirst(collection, docs, n - 1) then [CiteOf(collection, docs[n - 1])] else []))
  {
    var r := prev + (if IsFirst(collection, docs, n - 1) then [CiteOf(collection, docs[n - 1])] else []);
    forall i, j, a, b |
      && 0 <= i < j < |r| && 0 <= a < n && 0 <= b < n
      && IsFirst(collection, docs, a) && IsFirst(collection, docs, b)
      && CitationKey(r[i]) == KeyOf(collection, docs[a])
      && CitationKey(r[j]) == KeyOf(collection, docs[b])
      ensures a < b
    {
      PairOrdered(collection, docs, n, prev, r, i, j, a, b);
    }
  }

  lemma PairOrdered(collection: string, docs: seq<RF.SearchResult>, n: nat, prev: seq<Citation>,
                    r: seq<Citation>, i: nat, j: nat, a: nat, b: nat)
    requires 0 < n <= |docs|
    requires InDocumentOrder(collection, docs, n - 1, prev)
    requires CitationKeys(prev) == KeysOf(collection, docs, n - 1)
    requires r == prev + (if IsFirst(collection, docs, n - 1) then [CiteOf(collection, docs[n - 1])] else [])
    requires i < j < |r| && a < n && b < n
    requires IsFirst(collection, docs, a) && IsFirst(collection, docs, b)
    requires CitationKey(r[i]) == KeyOf(collection, docs[a])
    requires CitationKey(r[j]) == KeyOf(collection, docs[b])
    ensures a < b
  {
    assert r[i] == prev[i];
    assert CitationKey(prev[i]) in CitationKeys(prev);
    CitedKeyIsEarly(collection, docs, n - 1, prev[i], a);
    if j < |prev| {
      assert r[j] == prev[j];
      assert CitationKey(prev[j]) in CitationKeys(prev);
      CitedKeyIsEarly(collection, docs, n - 1, prev[j], b);
    } else {
      assert r[j] == CiteOf(collection, docs[n - 1]);
      FirstIsEarliest(collection, docs, n - 1, b);
    }
  }

  /** The source's loop: a `seen` set of keys and an output list. */
  method ExtractCitationsLoop(collection: string, docs: seq<RF.SearchResult>) returns (citations: seq<Citation>)
    ensures citations == ExtractCitations(collection, docs)
  {
    citations := [];
    var seen: set<Key> := {};
    var i := 0;
    while i < |docs|
      invariant 0 <= i <= |docs|
      invariant seen == KeysOf(collection, docs, i)
      invariant citations == FirstCitations(collection, docs, i)
    {
      var key := KeyOf(collection, docs[i]);
      IsFirstIffUnseen(collection, docs, i);
      if key !in seen {
        citations := citations + [CiteOf(collection, docs[i])];
        seen := seen + {key};
      }
      i := i + 1;
    }
  }

  /** A missing or zero chunk index is recorded, and keyed, as -1; so is a
      missing or zero page number. */
  lemma FalsyIndexBecomesMinusOne(collection: string, d: RF.SearchResult)
    requires d.metadata.chunkIndex.None? || d.metadata.chunkIndex == Some(0)
    requires d.metadata.pageNumber.None? || d.metadata.pageNumber == Some(0)
    ensures CiteOf(collection, d).chunkIndex == -1 && KeyOf(collection, d).chunkIndex == -1
    ensures CiteOf(collection, d).pageNumber == -1
  {
  }

  /** Two hits of one file whose chunk indices are 0 and missing share a key,
      so only the first is cited. */
  lemma ZeroAndMissingChunkCollide(collection: string, a: RF.SearchResult, b: RF.SearchResult)
    requires a.metadata.sourceName == b.metadata.sourceName
    requires a.metadata.chunkIndex == Some(0) && b.metadata.chunkIndex.None?
    ensures ExtractCitations(collection, [a, b]) == [CiteOf(collection, a)]
  {
    assert KeyOf(collection, a) == KeyOf(collection, b);
    assert [a, b][0] == a && [a, b][1] == b;
    assert IsFirst(collection, [a, b], 0);
    assert KeyOf(collection, [a, b][0]) == KeyOf(collection, [a, b][1]);
    assert !IsFirst(collection, [a, b], 1);
    assert FirstCitations(collection, [a, b], 1) == [CiteOf(collection, a)];
  }

  // ----- execute_task -----

  /** `TaskResult`, the LLM's structured answer. */
  datatype TaskResult = TaskResult(result: string, reasoning: string)

  /** `TaskEntry`. */
  datatype TaskEntry = TaskEntry(
    task: string,
    success: bool,
    result: Option<string>,
    reasoning: Option<string>,
    citations: seq<Citation>)

  /** What the final LLM call is given: the task, the prompt template, the
      search query, the documents, the chat history, and whether the
      "no indexed sources" instruction is appended. */
  datatype TaskPrompt = TaskPrompt(
    task: string,
    template: string,
    searchQuery: string,
    documents: seq<RF.SearchResult>,
    history: seq<CM.Message>,
    noSourcesNote: bool)

  /** The outside world of one task. */
  datatype RagOracle = RagOracle(
    searchQuery: Result<string>,
    search: string -> Result<seq<RF.SearchResult>>,
    summarize: RF.SearchResult -> Option<string>,
    answer: TaskPrompt -> Result<TaskResult>)

  const NO_DOCUMENTS_RESULT := "No relevant documents found."
  const NO_DOCUMENTS_REASONING :=
    "The search query did not return any relevant documents and general-knowledge fallback is disabled by config."

  /** `_attach_content_summary_to_doc`: a failed summary leaves the document as it was. */
  function Attach(d: RF.SearchResult, summary: Option<string>): (d': RF.SearchResult)
    ensures d'.score == d.score && d'.metadata == d.metadata && d'.id == d.id
  {
    if summary.Some? then d.(contentSummary := summary) else d
  }

  function Summarized(docs: seq<RF.SearchResult>, o: RagOracle): (r: seq<RF.SearchResult>)
    ensures |r| == |docs|
    ensures forall i :: 0 <= i < |docs| ==> r[i] == Attach(docs[i], o.summarize(docs[i]))
  {
    Seqs.Map((d: RF.SearchResult) => Attach(d, o.summarize(d)), docs)
  }

  /** What retrieval hands to the rest of the task: the search query and the
      filtered, summarised documents. */
  datatype Retrieval = Retrieval(query: string, docs: seq<RF.SearchResult>)

  /** Query generation, search, filtering (at most 25 documents) and
      summarising; an exception in either call ends the retrieval. */
  function Retrieve(o: RagOracle): (r: Result<Retrieval>)
    ensures r.Success? ==> |r.value.docs| <= RF.RAG_MAX_DOCS
  {
    var query :- o.searchQuery;
    var hits :- o.search(query);
    Success(Retrieval(query, Summarized(RF.FilterByScore(hits, Some(RF.RAG_MAX_DOCS)), o)))
  }

  function PromptFor(task: string, template: string, history: Option<seq<CM.Message>>, ret: Retrieval): TaskPrompt {
    TaskPrompt(task, template, ret.query, ret.docs, history.GetOr([]), ret.docs == [])
  }

  function Failed(task: string, message: string): TaskEntry {
    TaskEntry(task, false, Some(message), None, [])
  }

  /** `execute_task`; `history` is the optional chat history. */
  function ExecuteTask(task: string, template: string, collection: string, allowGeneralKnowledge: bool,
                       history: Option<seq<CM.Message>>, o: RagOracle): (r: TaskEntry)
    ensures r.task == task
    ensures !r.success ==> r.citations == [] && r.result.Some?
    ensures r.success ==> r.result.Some? && r.reasoning.Some?
  {
    match Retrieve(o)
    case Failure(e) => Failed(task, e)
    case Success(ret) =>
      if ret.docs == [] && !allowGeneralKnowledge then
        TaskEntry(task, false, Some(NO_DOCUMENTS_RESULT), Some(NO_DOCUMENTS_REASONING), [])
      else
        match o.answer(PromptFor(task, template, history, ret))
        case Failure(e) => Failed(task, e)
        case Success(out) =>
          TaskEntry(task, true, Some(out.result), Some(out.reasoning), ExtractCitations(collection, ret.docs))
  }

  /** A task succeeds exactly when retrieval succeeds, there are documents or
      the general-knowledge fallback is allowed, and the final LLM call
      answers. */
  lemma SuccessIff(task: string, template: string, collection: string, allow: bool,
                   history: Option<seq<CM.Message>>, o: RagOracle)
    ensures ExecuteTask(task, template, collection, allow, history, o).success
        <==> (&& Retrieve(o).Success?
              && (Retrieve(o).value.docs != [] || allow)
              && o.answer(PromptFor(task, template, history, Retrieve(o).value)).Success?)
  {
  }

  /** An exception in any LLM or search call becomes a failed entry whose
      result is the exception text, with no reasoning and no citations. */
  lemma ExceptionBecomesFailedEntry(task: string, template: string, collection: string, allow: bool,
                                    history: Option<seq<CM.Message>>, o: RagOracle)
    ensures Retrieve(o).Failure? ==>
      ExecuteTask(task, template, collection, allow, history, o) == Failed(task, Retrieve(o).error)
    ensures o.searchQuery.Failure? ==> Retrieve(o).Failure? && Retrieve(o).error == o.searchQuery.error
    ensures var ret := Retrieve(o);
      ret.Success? && (ret.value.docs != [] || allow)
      && o.answer(PromptFor(task, template, history, ret.value)).Failure? ==>
        ExecuteTask(task, template, collection, allow, history, o)
          == Failed(task, o.answer(PromptFor(task, template, history, ret.value)).error)
  {
  }

  /** No documents after filtering with the fallback disabled: a failed entry
      saying so, and the final LLM call is never made. */
  lemma NoDocumentsWithoutFallback(task: string, template: string, collection: string,
                                   history: Option<seq<CM.Message>>, o: RagOracle)
    requires Retrieve(o).Success? && Retrieve(o).value.docs == []
    ensures ExecuteTask(task, template, collection, false, history, o)
         == TaskEntry(task, false, Some(NO_DOCUMENTS_RESULT), Some(NO_DOCUMENTS_REASONING), [])
  {
  }

  /** With the fallback allowed, an empty retrieval still reaches the LLM,
      with the "no indexed sources" instruction, and cites nothing. */
  lemma EmptyRetrievalFallsBack(task: string, template: string, collection: string,
                                history: Option<seq<CM.Message>>, o: RagOracle)
    requires Retrieve(o).Success? && Retrieve(o).value.docs == []
    ensures PromptFor(task, template, history, Retrieve(o).value).noSourcesNote
    ensures ExecuteTask(task, template, collection, true, history, o).citations == []
  {
  }

  /** A successful task cites the first occurrence of each (collection,
      file, chunk) among at most 25 documents, all from the collection it
      searched. */
  lemma SuccessfulCitations(task: string, template: string, collection: string, allow: bool,
                            history: Option<seq<CM.Message>>, o: RagOracle)
    ensures var r := ExecuteTask(task, template, collection, allow, history, o);
      && |r.citations| <= RF.RAG_MAX_DOCS
      && DistinctKeys(r.citations)
      && (r.success ==> r.citations == ExtractCitations(collection, Retrieve(o).value.docs))
      && forall c :: c in r.citations ==> c.collectionName == collection
  {
    var r := ExecuteTask(task, template, collection, allow, history, o);
    if r.success {
      var docs := Retrieve(o).value.docs;
      ExtractCitationsFirstPerKey(collection, docs);
      forall c | c in r.citations ensures c.collectionName == collection {
        var j :| 0 <= j < |r.citations| && r.citations[j] == c;
        assert CitedFirst(collection, docs, |docs|, r.citations[j]);
        var i :| 0 <= i < |docs| && IsFirst(collection, docs, i) && c == CiteOf(collection, docs[i]);
      }
    }
  }
}

=== FILE: relevance_filter.dfy ===
/** The adaptive relevance filter `_filter_documents_by_score` of
    `service/rag_task_service.py`: a score threshold derived from the mean,
    median and mode of the scores, then a stable descending sort and an
    optional cap. Scores are reals. */
module RelevanceFilter {
  import opened Wrappers
  import Seqs
  import S = Sorting

  /** `SearchResultMetadata`, with the page number the citation step reads. */
  datatype Metadata = Metadata(chunkIndex: Option<int>, pageNumber: Option<int>, sourceName: string, content: string)

  /** `SearchResult`, with the summary the RAG task attaches to it. */
  datatype SearchResult = SearchResult(id: string, score: real, metadata: Metadata, contentSummary: Option<string>)

  function Score(d: SearchResult): real {
    d.score
  }

  function Scores(ds: seq<SearchResult>): (r: seq<real>)
    ensures |r| == |ds| && forall i :: 0 <= i < |ds| ==> r[i] == ds[i].score
  {
    Seqs.Map(Score, ds)
  }

  // ----- Statistics over a non-empty list of scores -----

  function MaxOf(xs: seq<real>): (m: real)
    requires |xs| > 0
    ensures m in xs && forall i :: 0 <= i < |xs| ==> xs[i] <= m
    decreases |xs|
  {
    if |xs| == 1 then xs[0]
    else
      var m := MaxOf(xs[1..]);
      assert m in xs;
      if xs[0] >= m then xs[0] else m
  }

  function MinOf(xs: seq<real>): (m: real)
    requires |xs| > 0
    ensures m in xs && forall i :: 0 <= i < |xs| ==> m <= xs[i]
    decreases |xs|
  {
    if |xs| == 1 then xs[0]
    else
      var m := MinOf(xs[1..]);
      assert m in xs;
      if xs[0] <= m then xs[0] else m
  }

  function Sum(xs: seq<real>): real
    decreases |xs|
  {
    if xs == [] then 0.0 else xs[0] + Sum(xs[1..])
  }

  /** `statistics.mean`. */
  function Mean(xs: seq<real>): real
    requires |xs| > 0
  {
    Sum(xs) / |xs| as real
  }

  lemma {:induction false} SumBounds(xs: seq<real>, lo: real, hi: real)
    requires forall i :: 0 <= i < |xs| ==> lo <= xs[i] <= hi
    ensures |xs| as real * lo <= Sum(xs) <= |xs| as real * hi
    decreases |xs|
  {
    if xs != [] {
      SumBounds(xs[1..], lo, hi);
      var n := (|xs| - 1) as real;
      assert n * lo + lo == |xs| as real * lo;
      assert n * hi + hi == |xs| as real * hi;
    }
  }

  lemma QuotientBounds(a: real, n: real, lo: real, hi: real)
    requires n > 0.0 && n * lo <= a <= n * hi
    ensures lo <= a / n <= hi
  {
    var q := a / n;
    assert q * n == a;
    assert (q - hi) * n <= 0.0;
    assert (q - lo) * n >= 0.0;
  }

  lemma MeanFromSum(xs: seq<real>, lo: real, hi: real)
    requires |xs| > 0
    requires |xs| as real * lo <= Sum(xs) <= |xs| as real * hi
    ensures lo <= Mean(xs) <= hi
  {
    QuotientBounds(Sum(xs), |xs| as real, lo, hi);
  }

  lemma MeanBetween(xs: seq<real>, lo: real, hi: real)
    requires |xs| > 0
    requires forall i :: 0 <= i < |xs| ==> lo <= xs[i] <= hi
    ensures lo <= Mean(xs) <= hi
  {
    SumBounds(xs, lo, hi);
    MeanFromSum(xs, lo, hi);
  }

  /** The mean lies between the smallest and the largest score. */
  lemma MeanBounds(xs: seq<real>)
    requires |xs| > 0
    ensures MinOf(xs) <= Mean(xs) <= MaxOf(xs)
  {
    MeanBetween(xs, MinOf(xs), MaxOf(xs));
  }

  function Id(x: real): real {
    x
  }

  /** `statistics.median`: the middle value of the sorted scores, or the
      average of the two middle values for an even count. The scores are
      sorted descending here; the middle positions of a list and of its
      reverse hold the same values, so the result is the same. */
  function Median(xs: seq<real>): (m: real)
    requires |xs| > 0
    ensures MinOf(xs) <= m <= MaxOf(xs)
  {
    var s := S.SortDesc(Id, xs);
    var n := |s|;
    assert forall i :: 0 <= i < n ==> s[i] in multiset(xs);
    assert forall i :: 0 <= i < n ==> MinOf(xs) <= s[i] <= MaxOf(xs);
    if n % 2 == 1 then s[n / 2] else (s[n / 2 - 1] + s[n / 2]) / 2.0
  }

  /** Occurrences of `x` in `xs`. */
  function Count(x: real, xs: seq<real>): nat
    decreases |xs|
  {
    if xs == [] then 0 else (if xs[0] == x then 1 else 0) + Count(x, xs[1..])
  }

  function BestFrom(xs: seq<real>, i: nat, best: nat): (k: nat)
    requires best < i <= |xs|
    requires forall j :: 0 <= j < i ==> Count(xs[j], xs) <= Count(xs[best], xs)
    requires forall j :: 0 <= j < best ==> Count(xs[j], xs) < Count(xs[best], xs)
    ensures k < |xs|
    ensures forall j :: 0 <= j < |xs| ==> Count(xs[j], xs) <= Count(xs[k], xs)
    ensures forall j :: 0 <= j < k ==> Count(xs[j], xs) < Count(xs[k], xs)
    decreases |xs| - i
  {
    if i == |xs| then best
    else if Count(xs[i], xs) > Count(xs[best], xs) then BestFrom(xs, i + 1, i)
    else BestFrom(xs, i + 1, best)
  }

  /** The position whose value `Counter(xs).most_common(1)` reports: a value
      of maximal count, ties going to the value seen first. */
  function ModeIndex(xs: seq<real>): (k: nat)
    requires |xs| > 0
    ensures k < |xs|
    ensures forall j :: 0 <= j < |xs| ==> Count(xs[j], xs) <= Count(xs[k], xs)
    ensures forall j :: 0 <= j < k ==> Count(xs[j], xs) < Count(xs[k], xs)
  {
    BestFrom(xs, 1, 0)
  }

  function Mode(xs: seq<real>): (m: real)
    requires |xs| > 0
    ensures m in xs && MinOf(xs) <= m <= MaxOf(xs)
  {
    xs[ModeIndex(xs)]
  }

  /** The mode's first occurrence is at `ModeIndex`: no earlier position
      holds the same value. */
  lemma ModeFirstOccurrence(xs: seq<real>)
    requires |xs| > 0
    ensures forall j :: 0 <= j < ModeIndex(xs) ==> xs[j] != Mode(xs)
  {
  }

  function Max(a: real, b: real): (m: real)
    ensures m >= a && m >= b && (m == a || m == b)
  {
    if a >= b then a else b
  }

  const DAMPENING_FACTOR: real := 0.8
  const MIN_THRESHOLD: real := 0.3

  /** `final_threshold`: the larger of 0.8 × max(mean, median, mode) and 0.3. */
  function Threshold(xs: seq<real>): (t: real)
    requires |xs| > 0
    ensures t >= MIN_THRESHOLD
    ensures t == MIN_THRESHOLD || t == DAMPENING_FACTOR * Max(Max(Mean(xs), Median(xs)), Mode(xs))
  {
    Max(DAMPENING_FACTOR * Max(Max(Mean(xs), Median(xs)), Mode(xs)), MIN_THRESHOLD)
  }

  /** The threshold never exceeds a top score of at least 0.3. */
  lemma ThresholdAtMostTop(xs: seq<real>)
    requires |xs| > 0 && MaxOf(xs) >= MIN_THRESHOLD
    ensures Threshold(xs) <= MaxOf(xs)
  {
    MeanBounds(xs);
  }

  function AtLeast(t: real): SearchResult -> bool {
    (d: SearchResult) => d.score >= t
  }

  /** The documents at or above the threshold, in input order. */
  function Kept(docs: seq<SearchResult>, t: real): (r: seq<SearchResult>)
    ensures forall i :: 0 <= i < |r| ==> r[i].score >= t
  {
    Seqs.Filter(AtLeast(t), docs)
  }

  lemma KeptMembers(docs: seq<SearchResult>, t: real)
    ensures multiset(Kept(docs, t)) <= multiset(docs)
    ensures forall d :: d in Kept(docs, t) <==> d in docs && d.score >= t
  {
    var k := Kept(docs, t);
    Seqs.FilterMultiset(AtLeast(t), docs);
    forall d | d in k ensures d in docs && d.score >= t {
      var i :| 0 <= i < |k| && k[i] == d;
      assert d in multiset(k);
    }
    forall d | d in docs && d.score >= t ensures d in k {
      assert AtLeast(t)(d);
    }
  }

  /** Every element of a permutation of `xs` is an element of `xs`. */
  lemma PermutationMembers<T>(xs: seq<T>, ys: seq<T>)
    requires multiset(ys) == multiset(xs)
    ensures forall y :: y in ys <==> y in xs
  {
    forall y ensures y in ys <==> y in xs {
      assert y in ys <==> y in multiset(ys);
      assert y in xs <==> y in multiset(xs);
    }
  }

  /** The documents at or above `t` in descending score order. */
  function Ranked(docs: seq<SearchResult>, t: real): (r: seq<SearchResult>)
    ensures S.Descending(Score, r)
    ensures multiset(r) == multiset(Kept(docs, t))
    ensures multiset(r) <= multiset(docs)
    ensures forall d :: d in r <==> d in docs && d.score >= t
  {
    var k := Kept(docs, t);
    S.SortDescending(Score, k);
    KeptMembers(docs, t);
    PermutationMembers(k, S.SortDesc(Score, k));
    S.SortDesc(Score, k)
  }

  lemma PrefixFacts(xs: seq<SearchResult>, r: seq<SearchResult>)
    requires |r| <= |xs| && r == xs[..|r|]
    ensures multiset(r) <= multiset(xs)
    ensures S.Descending(Score, xs) ==> S.Descending(Score, r)
    ensures forall d :: d in r ==> d in xs
  {
    assert xs == r + xs[|r|..];
  }

  /** The filter for a given threshold: rank, then apply the cap. */
  function FilterAbove(docs: seq<SearchResult>, t: real, maxDocs: Option<int>): (r: seq<SearchResult>)
    ensures |r| <= |Ranked(docs, t)| && r == Ranked(docs, t)[..|r|]
    ensures maxDocs.None? ==> r == Ranked(docs, t)
    ensures maxDocs.Some? && maxDocs.value >= 0 ==>
              |r| == if maxDocs.value < |Ranked(docs, t)| then maxDocs.value else |Ranked(docs, t)|
    ensures forall i :: 0 <= i < |r| ==> r[i].score >= t
    ensures multiset(r) <= multiset(docs)
    ensures S.Descending(Score, r)
  {
    var ranked := Ranked(docs, t);
    var r := if maxDocs.Some? then S.PrefixSlice(ranked, maxDocs.value) else ranked;
    PrefixFacts(ranked, r);
    assert forall i :: 0 <= i < |r| ==> r[i] in ranked;
    r
  }

  /** `_filter_documents_by_score(documents, max_docs)`. */
  function FilterByScore(docs: seq<SearchResult>, maxDocs: Option<int>): (r: seq<SearchResult>)
    ensures docs == [] ==> r == []
    ensures docs != [] ==> forall i :: 0 <= i < |r| ==> r[i].score >= Threshold(Scores(docs)) >= MIN_THRESHOLD
    ensures multiset(r) <= multiset(docs)
    ensures S.Descending(Score, r)
    ensures maxDocs.Some? && maxDocs.value >= 0 ==> |r| <= maxDocs.value
  {
    if docs == [] then []
    else
      var t := Threshold(Scores(docs));
      FilterAbove(docs, t, maxDocs)
  }

  /** Without a cap the filter keeps exactly the documents at or above the
      threshold, each as often as it occurs. */
  lemma KeepsExactlyAboveThreshold(docs: seq<SearchResult>)
    requires docs != []
    ensures var t := Threshold(Scores(docs));
      && multiset(FilterByScore(docs, None)) == multiset(Kept(docs, t))
      && forall d :: d in FilterByScore(docs, None) <==> d in docs && d.score >= t
  {
    assert FilterByScore(docs, None) == Ranked(docs, Threshold(Scores(docs)));
  }

  /** Without a cap the order among documents of equal score is the input
      order. */
  lemma StableAmongEqualScores(docs: seq<SearchResult>, v: real)
    requires docs != []
    ensures S.WithKey(Score, v, FilterByScore(docs, None))
         == S.WithKey(Score, v, Kept(docs, Threshold(Scores(docs))))
  {
    assert FilterByScore(docs, None) == Ranked(docs, Threshold(Scores(docs)));
    S.SortStable(Score, v, Kept(docs, Threshold(Scores(docs))));
  }

  /** With a cap, the result is the first documents of the uncapped result. */
  lemma CapIsPrefix(docs: seq<SearchResult>, k: int)
    ensures var full := FilterByScore(docs, None);
      var capped := FilterByScore(docs, Some(k));
      |capped| <= |full| && capped == full[..|capped|]
  {
  }

  /** A document of the top score is ranked when the top score reaches the
      threshold. */
  lemma TopIsRanked(docs: seq<SearchResult>, t: real) returns (p: nat)
    requires docs != [] && t <= MaxOf(Scores(docs))
    ensures p < |Ranked(docs, t)| && Ranked(docs, t)[p].score == MaxOf(Scores(docs))
  {
    var xs := Scores(docs);
    var top :| 0 <= top < |xs| && xs[top] == MaxOf(xs);
    assert docs[top] in Ranked(docs, t);
    p :| 0 <= p < |Ranked(docs, t)| && Ranked(docs, t)[p] == docs[top];
  }

  /** No ranked document scores above the top score. */
  lemma RankedBelowTop(docs: seq<SearchResult>, t: real, i: nat)
    requires docs != [] && i < |Ranked(docs, t)|
    ensures Ranked(docs, t)[i].score <= MaxOf(Scores(docs))
  {
    assert Ranked(docs, t)[i] in docs;
    var q :| 0 <= q < |docs| && docs[q] == Ranked(docs, t)[i];
    assert Scores(docs)[q] == docs[q].score;
  }

  /** The ranked list starts with a document of the top score whenever the
      top score reaches the threshold. */
  lemma RankedHead(docs: seq<SearchResult>, t: real)
    requires docs != [] && t <= MaxOf(Scores(docs))
    ensures var ranked := Ranked(docs, t);
      |ranked| >= 1 && ranked[0].score == MaxOf(Scores(docs))
  {
    var p := TopIsRanked(docs, t);
    RankedBelowTop(docs, t, 0);
    var ranked := Ranked(docs, t);
    assert Score(ranked[0]) >= Score(ranked[p]);
  }

  lemma TopAbove(docs: seq<SearchResult>, t: real, maxDocs: Option<int>)
    requires docs != [] && t <= MaxOf(Scores(docs))
    requires maxDocs.None? || maxDocs.value >= 1
    ensures var r := FilterAbove(docs, t, maxDocs);
      |r| >= 1 && r[0].score == MaxOf(Scores(docs))
  {
    RankedHead(docs, t);
    var ranked := Ranked(docs, t);
    var r := FilterAbove(docs, t, maxDocs);
    assert |r| >= 1;
    assert r[0] == ranked[0];
  }

  /** A top score of at least 0.3 always survives: the first kept document
      carries the maximal score. */
  lemma TopDocumentKept(docs: seq<SearchResult>, maxDocs: Option<int>)
    requires docs != [] && MaxOf(Scores(docs)) >= MIN_THRESHOLD
    requires maxDocs.None? || maxDocs.value >= 1
    ensures var r := FilterByScore(docs, maxDocs);
      |r| >= 1 && r[0].score == MaxOf(Scores(docs))
  {
    ThresholdAtMostTop(Scores(docs));
    TopAbove(docs, Threshold(Scores(docs)), maxDocs);
  }

  /** The cap `execute_task` uses. */
  const RAG_MAX_DOCS: int := 25

  /** The cap keeps at most 25 documents. */
  lemma RagCap(docs: seq<SearchResult>)
    ensures |FilterByScore(docs, Some(RAG_MAX_DOCS))| <= 25
  {
  }
}

=== FILE: seqs.dfy ===
/** Sequence combinators used throughout the model: the list comprehensions
    `[f(x) for x in xs]` and `[x for x in xs if p(x)]`, concatenation of
    nested lists, and counting. */
module Seqs {

  /** `[f(x) for x in xs]`. */
  function Map<T, U>(f: T -> U, xs: seq<T>): (r: seq<U>)
    ensures |r| == |xs|
    ensures forall i :: 0 <= i < |xs| ==> r[i] == f(xs[i])
  {
    seq(|xs|, i requires 0 <= i < |xs| => f(xs[i]))
  }

  /** `[x for x in xs if p(x)]`. */
  function Filter<T>(p: T -> bool, xs: seq<T>): (r: seq<T>)
    ensures |r| <= |xs|
    ensures forall i :: 0 <= i < |r| ==> p(r[i])
    decreases |xs|
  {
    if xs == [] then []
    else (if p(xs[0]) then [xs[0]] else []) + Filter(p, xs[1..])
  }

  lemma {:induction false} FilterAppend<T>(p: T -> bool, a: seq<T>, b: seq<T>)
    ensures Filter(p, a + b) == Filter(p, a) + Filter(p, b)
    decreases |a|
  {
    if a == [] {
      assert a + b == b;
    } else {
      assert (a + b)[0] == a[0];
      assert (a + b)[1..] == a[1..] + b;
      FilterAppend(p, a[1..], b);
    }
  }

  /** Filtering keeps exactly the elements that satisfy the predicate, each as
      often as it occurs. */
  lemma {:induction false} FilterMultiset<T>(p: T -> bool, xs: seq<T>)
    ensures multiset(Filter(p, xs)) <= multiset(xs)
    ensures forall x :: x in xs && p(x) ==> x in Filter(p, xs)
    decreases |xs|
  {
    if xs != [] {
      FilterMultiset(p, xs[1..]);
      assert xs == [xs[0]] + xs[1..];
    }
  }

  /** A filter that keeps everything is the identity. */
  lemma {:induction false} FilterAll<T>(p: T -> bool, xs: seq<T>)
    requires forall i :: 0 <= i < |xs| ==> p(xs[i])
    ensures Filter(p, xs) == xs
    decreases |xs|
  {
    if xs != [] {
      FilterAll(p, xs[1..]);
    }
  }

  /** The concatenation of a list of lists. */
  function Flatten<T>(xss: seq<seq<T>>): (r: seq<T>)
    decreases |xss|
  {
    if xss == [] then [] else xss[0] + Flatten(xss[1..])
  }

  lemma {:induction false} FlattenAppend<T>(a: seq<seq<T>>, b: seq<seq<T>>)
    ensures Flatten(a + b) == Flatten(a) + Flatten(b)
    decreases |a|
  {
    if a == [] {
      assert a + b == b;
    } else {
      assert (a + b)[1..] == a[1..] + b;
      FlattenAppend(a[1..], b);
    }
  }

  lemma Associative<T>(a: seq<T>, b: seq<T>, c: seq<T>)
    ensures (a + b) + c == a + (b + c)
  {
  }

  /** Mapping distributes over concatenation. */
  lemma MapAppend<T, U>(f: T -> U, a: seq<T>, b: seq<T>)
    ensures Map(f, a + b) == Map(f, a) + Map(f, b)
  {
    var l := Map(f, a + b);
    var r := Map(f, a) + Map(f, b);
    assert |l| == |r|;
    forall i | 0 <= i < |l| ensures l[i] == r[i] {
      if i < |a| {
        assert (a + b)[i] == a[i];
      } else {
        assert (a + b)[i] == b[i - |a|];
      }
    }
  }

  lemma FlattenSnoc<T>(xss: seq<seq<T>>, last: seq<T>)
    ensures Flatten(xss + [last]) == Flatten(xss) + last
  {
    FlattenAppend(xss, [last]);
    assert [last][1..] == [];
    assert Flatten([last]) == last + Flatten([]);
    assert last + [] == last;
  }

  lemma FlattenCons<T>(x: seq<T>, rest: seq<seq<T>>)
    ensures Flatten([x] + rest) == x + Flatten(rest)
  {
    assert ([x] + rest)[1..] == rest;
  }

  lemma MapCons<T, U>(f: T -> U, x: T, rest: seq<T>)
    ensures Map(f, [x] + rest) == [f(x)] + Map(f, rest)
  {
    MapAppend(f, [x], rest);
  }

  /** Every element of every inner list occurs in the concatenation. */
  lemma {:induction false} FlattenHas<T>(xss: seq<seq<T>>, k: nat, i: nat)
    requires k < |xss| && i < |xss[k]|
    ensures xss[k][i] in Flatten(xss)
    decreases k
  {
    if k > 0 {
      FlattenHas(xss[1..], k - 1, i);
    }
  }

  /** Number of elements satisfying `p`. */
  function CountIf<T>(p: T -> bool, xs: seq<T>): nat
    decreases |xs|
  {
    if xs == [] then 0 else (if p(xs[0]) then 1 else 0) + CountIf(p, xs[1..])
  }
  /** The position of the first element satisfying `p`, or `|xs|` when there
      is none: a query's `.first()`. */
  function IndexWhere<T>(p: T -> bool, xs: seq<T>): (k: nat)
    ensures k <= |xs|
    ensures forall j :: 0 <= j < k ==> !p(xs[j])
    ensures k < |xs| ==> p(xs[k])
    decreases |xs|
  {
    if xs == [] then 0 else if p(xs[0]) then 0 else 1 + IndexWhere(p, xs[1..])
  }

  /** Filtering drops exactly the elements the complement counts. */
  lemma {:induction false} FilterDropped<T>(p: T -> bool, q: T -> bool, xs: seq<T>)
    requires forall x :: q(x) == !p(x)
    ensures |xs| - |Filter(p, xs)| == CountIf(q, xs)
    decreases |xs|
  {
    if xs != [] {
      FilterDropped(p, q, xs[1..]);
    }
  }

  /** Something is counted exactly when something satisfies the predicate. */
  lemma {:induction false} CountIfPositive<T>(p: T -> bool, xs: seq<T>)
    ensures CountIf(p, xs) > 0 <==> exists i :: 0 <= i < |xs| && p(xs[i])
    decreases |xs|
  {
    if xs != [] {
      CountIfPositive(p, xs[1..]);
      if exists i :: 0 <= i < |xs| && p(xs[i]) {
        var i :| 0 <= i < |xs| && p(xs[i]);
        if i > 0 { assert p(xs[1..][i - 1]); }
      }
      if exists i :: 0 <= i < |xs[1..]| && p(xs[1..][i]) {
        var i :| 0 <= i < |xs[1..]| && p(xs[1..][i]);
        assert p(xs[i + 1]);
      }
    }
  }

  /** SQL's `OFFSET skip LIMIT limit`. */
  function Window<T>(xs: seq<T>, skip: nat, limit: nat): (r: seq<T>)
    ensures |r| <= limit
    ensures skip >= |xs| ==> r == []
    ensures skip < |xs| ==> |r| == (if skip + limit < |xs| then limit else |xs| - skip)
    ensures forall i :: 0 <= i < |r| ==> skip + i < |xs| && r[i] == xs[skip + i]
  {
    if skip >= |xs| then []
    else if skip + limit < |xs| then xs[skip..skip + limit]
    else xs[skip..]
  }
}

=== FILE: sorting.dfy ===
/** Stable descending sort by a real-valued key: Python's
    `xs.sort(key=k, reverse=True)`, which keeps elements with equal keys in
    their original order, and SQL's `ORDER BY k DESC`. */
module Sorting {

  predicate Descending<T>(key: T -> real, ys: seq<T>) {
    forall i, j :: 0 <= i < j < |ys| ==> key(ys[i]) >= key(ys[j])
  }

  /** The elements whose key is `v`, in order. */
  function WithKey<T>(key: T -> real, v: real, xs: seq<T>): (r: seq<T>)
    ensures |r| <= |xs|
    decreases |xs|
  {
    if xs == [] then []
    else (if key(xs[0]) == v then [xs[0]] else []) + WithKey(key, v, xs[1..])
  }

  /** Insert `x` in front of the first element whose key is not greater. */
  function Insert<T>(key: T -> real, x: T, ys: seq<T>): (r: seq<T>)
    ensures |r| == |ys| + 1
    ensures multiset(r) == multiset(ys) + multiset{x}
    decreases |ys|
  {
    if ys == [] || key(x) >= key(ys[0]) then [x] + ys
    else
      assert ys == [ys[0]] + ys[1..];
      [ys[0]] + Insert(key, x, ys[1..])
  }

  /** Insertion sort from the back, so an element lands in front of the later
      elements that share its key. */
  function SortDesc<T>(key: T -> real, xs: seq<T>): (r: seq<T>)
    ensures |r| == |xs|
    ensures multiset(r) == multiset(xs)
    decreases |xs|
  {
    if xs == [] then []
    else
      assert xs == [xs[0]] + xs[1..];
      Insert(key, xs[0], SortDesc(key, xs[1..]))
  }

  /** Inserting an element no greater than a bound into a list bounded by it
      keeps the list bounded. */
  lemma {:induction false} InsertBelow<T>(key: T -> real, x: T, ys: seq<T>, c: real)
    requires key(x) <= c && forall i :: 0 <= i < |ys| ==> key(ys[i]) <= c
    ensures forall i :: 0 <= i < |Insert(key, x, ys)| ==> key(Insert(key, x, ys)[i]) <= c
    decreases |ys|
  {
    if ys != [] && key(x) < key(ys[0]) {
      InsertBelow(key, x, ys[1..], c);
      var r := Insert(key, x, ys);
      var t := Insert(key, x, ys[1..]);
      assert r == [ys[0]] + t;
      forall i | 0 <= i < |r| ensures key(r[i]) <= c {
        if i > 0 {
          assert r[i] == t[i - 1];
        }
      }
    }
  }

  lemma {:induction false} InsertDescending<T>(key: T -> real, x: T, ys: seq<T>)
    requires Descending(key, ys)
    ensures Descending(key, Insert(key, x, ys))
    ensures |ys| > 0 ==> Insert(key, x, ys)[0] == (if key(x) >= key(ys[0]) then x else ys[0])
    decreases |ys|
  {
    if ys != [] && key(x) < key(ys[0]) {
      var tail := ys[1..];
      assert Descending(key, tail) by {
        forall i, j | 0 <= i < j < |tail| ensures key(tail[i]) >= key(tail[j]) {
          assert tail[i] == ys[i + 1] && tail[j] == ys[j + 1];
        }
      }
      InsertDescending(key, x, tail);
      forall i | 0 <= i < |tail| ensures key(tail[i]) <= key(ys[0]) {
        assert tail[i] == ys[i + 1];
      }
      InsertBelow(key, x, tail, key(ys[0]));
      var r := Insert(key, x, ys);
      var t := Insert(key, x, tail);
      assert r == [ys[0]] + t;
      forall i, j | 0 <= i < j < |r| ensures key(r[i]) >= key(r[j]) {
        assert r[j] == t[j - 1];
        if i > 0 {
          assert r[i] == t[i - 1];
        }
      }
    } else if ys != [] {
      var r := Insert(key, x, ys);
      assert r == [x] + ys;
      forall i, j | 0 <= i < j < |r| ensures key(r[i]) >= key(r[j]) {
        assert r[j] == ys[j - 1];
        if i > 0 {
          assert r[i] == ys[i - 1];
        }
      }
    }
  }

  lemma {:induction false} SortDescending<T>(key: T -> real, xs: seq<T>)
    ensures Descending(key, SortDesc(key, xs))
    decreases |xs|
  {
    if xs != [] {
      SortDescending(key, xs[1..]);
      InsertDescending(key, xs[0], SortDesc(key, xs[1..]));
    }
  }

  lemma {:induction false} WithKeyAppend<T>(key: T -> real, v: real, a: seq<T>, b: seq<T>)
    ensures WithKey(key, v, a + b) == WithKey(key, v, a) + WithKey(key, v, b)
    decreases |a|
  {
    if a == [] {
      assert a + b == b;
    } else {
      var h := a[0];
      var t := a[1..];
      assert a == [h] + t;
      assert a + b == [h] + (t + b);
      ConsWithKey(key, v, h, t + b);
      ConsWithKey(key, v, h, t);
      WithKeyAppend(key, v, t, b);
    }
  }

  /** The elements of one-element list `[x]` that carry key `v`. */
  function KeyPart<T>(key: T -> real, v: real, x: T): seq<T> {
    if key(x) == v then [x] else []
  }

  lemma ConsWithKey<T>(key: T -> real, v: real, x: T, ys: seq<T>)
    ensures WithKey(key, v, [x] + ys) == KeyPart(key, v, x) + WithKey(key, v, ys)
  {
    assert ([x] + ys)[0] == x;
    assert ([x] + ys)[1..] == ys;
  }

  lemma {:induction false} InsertStable<T>(key: T -> real, v: real, x: T, ys: seq<T>)
    ensures WithKey(key, v, Insert(key, x, ys)) == WithKey(key, v, [x] + ys)
    decreases |ys|
  {
    if ys != [] && key(x) < key(ys[0]) {
      var y := ys[0];
      var tail := ys[1..];
      InsertStable(key, v, x, tail);
      ConsWithKey(key, v, y, Insert(key, x, tail));
      ConsWithKey(key, v, x, tail);
      ConsWithKey(key, v, x, ys);
      ConsWithKey(key, v, y, tail);
      assert [y] + tail == ys;
      assert Insert(key, x, ys) == [y] + Insert(key, x, tail);
      var w := WithKey(key, v, tail);
      if KeyPart(key, v, x) == [] {
        assert KeyPart(key, v, x) + w == w;
        assert KeyPart(key, v, x) + (KeyPart(key, v, y) + w) == KeyPart(key, v, y) + w;
      } else {
        assert KeyPart(key, v, y) == [];
        assert KeyPart(key, v, y) + (KeyPart(key, v, x) + w) == KeyPart(key, v, x) + w;
        assert KeyPart(key, v, y) + w == w;
      }
    }
  }

  /** The sort is stable: for every key value, the elements carrying it keep
      their relative order. */
  lemma {:induction false} SortStable<T>(key: T -> real, v: real, xs: seq<T>)
    ensures WithKey(key, v, SortDesc(key, xs)) == WithKey(key, v, xs)
    decreases |xs|
  {
    if xs != [] {
      SortStable(key, v, xs[1..]);
      InsertStable(key, v, xs[0], SortDesc(key, xs[1..]));
      WithKeyAppend(key, v, [xs[0]], SortDesc(key, xs[1..]));
      WithKeyAppend(key, v, [xs[0]], xs[1..]);
      assert [xs[0]] + xs[1..] == xs;
    }
  }

  /** `ys` holds the elements of `xs` by descending key, and elements with
      equal keys in their order in `xs`: the order a stable descending sort
      gives. */
  ghost predicate StableDescending<T>(key: T -> real, xs: seq<T>, ys: seq<T>) {
    Descending(key, ys) && forall v :: WithKey(key, v, ys) == WithKey(key, v, xs)
  }

  /** The sort gives that order, and no other sequence has it. */
  lemma SortIsStableDescending<T>(key: T -> real, xs: seq<T>)
    ensures StableDescending(key, xs, SortDesc(key, xs))
    ensures forall ys :: StableDescending(key, xs, ys) ==> ys == SortDesc(key, xs)
  {
    SortDescending(key, xs);
    forall v ensures WithKey(key, v, SortDesc(key, xs)) == WithKey(key, v, xs) {
      SortStable(key, v, xs);
    }
    forall ys | StableDescending(key, xs, ys) ensures ys == SortDesc(key, xs) {
      SameKeyOrder(key, ys, SortDesc(key, xs));
    }
  }

  /** A non-empty sequence holds an element with the key of its head, and
      that element comes first. */
  lemma HeadKeyed<T>(key: T -> real, ys: seq<T>)
    ensures ys != [] ==> WithKey(key, key(ys[0]), ys) != [] && WithKey(key, key(ys[0]), ys)[0] == ys[0]
  {
  }

  /** In a descending sequence, a key that occurs is at most the head's. */
  lemma {:induction false} KeyedBelowHead<T>(key: T -> real, v: real, ys: seq<T>)
    requires Descending(key, ys)
    ensures WithKey(key, v, ys) != [] ==> ys != [] && v <= key(ys[0])
    decreases |ys|
  {
    if ys != [] && key(ys[0]) != v {
      KeyedBelowHead(key, v, ys[1..]);
      if ys[1..] != [] {
        assert key(ys[1]) <= key(ys[0]);
      }
    }
  }

  /** Two descending sequences with the same elements per key start with
      the same element. */
  lemma SameHead<T>(key: T -> real, ys: seq<T>, zs: seq<T>)
    requires Descending(key, ys) && Descending(key, zs)
    requires forall v :: WithKey(key, v, ys) == WithKey(key, v, zs)
    requires ys != []
    ensures zs != [] && ys[0] == zs[0]
  {
    HeadKeyed(key, ys);
    var v := key(ys[0]);
    assert WithKey(key, v, zs) != [];
    KeyedBelowHead(key, v, zs);
    HeadKeyed(key, zs);
    var w := key(zs[0]);
    assert WithKey(key, w, ys) != [];
    KeyedBelowHead(key, w, ys);
    assert WithKey(key, v, ys)[0] == WithKey(key, v, zs)[0];
  }

  /** Dropping a common head keeps the elements per key equal. */
  lemma SameTailKeys<T>(key: T -> real, y: T, ys: seq<T>, zs: seq<T>)
    requires forall v :: WithKey(key, v, [y] + ys) == WithKey(key, v, [y] + zs)
    ensures forall u :: WithKey(key, u, ys) == WithKey(key, u, zs)
  {
    forall u ensures WithKey(key, u, ys) == WithKey(key, u, zs) {
      ConsWithKey(key, u, y, ys);
      ConsWithKey(key, u, y, zs);
      var p := KeyPart(key, u, y);
      assert (p + WithKey(key, u, ys))[|p|..] == WithKey(key, u, ys);
      assert (p + WithKey(key, u, zs))[|p|..] == WithKey(key, u, zs);
    }
  }

  /** Two descending sequences with the same elements per key, in the same
      order, are equal. */
  lemma {:induction false} SameKeyOrder<T>(key: T -> real, ys: seq<T>, zs: seq<T>)
    requires Descending(key, ys) && Descending(key, zs)
    requires forall v :: WithKey(key, v, ys) == WithKey(key, v, zs)
    ensures ys == zs
    decreases |ys|
  {
    if ys == [] {
      NoKeysIsEmpty(key, ys, zs);
    } else {
      SameHead(key, ys, zs);
      var y, ys', zs' := ys[0], ys[1..], zs[1..];
      assert [y] + ys' == ys && [y] + zs' == zs;
      SameTailKeys(key, y, ys', zs');
      DescendingTail(key, ys);
      DescendingTail(key, zs);
      SameKeyOrder(key, ys', zs');
    }
  }

  /** A sequence with the same elements per key as the empty one is empty. */
  lemma NoKeysIsEmpty<T>(key: T -> real, ys: seq<T>, zs: seq<T>)
    requires ys == []
    requires forall v :: WithKey(key, v, ys) == WithKey(key, v, zs)
    ensures zs == []
  {
    HeadKeyed(key, zs);
  }

  lemma DescendingTail<T>(key: T -> real, ys: seq<T>)
    requires Descending(key, ys) && ys != []
    ensures Descending(key, ys[1..])
  {
    forall i, j | 0 <= i < j < |ys| - 1 ensures key(ys[1..][i]) >= key(ys[1..][j]) {
      assert ys[1..][i] == ys[i + 1] && ys[1..][j] == ys[j + 1];
    }
  }

  /** A prefix of a descending sequence holds its largest keys: an element
      left out of the prefix has a key no greater than any in it. */
  lemma PrefixHoldsLargest<T>(key: T -> real, s: seq<T>, n: nat, i: nat, c: T)
    requires Descending(key, s) && i < n <= |s|
    requires c in s && c !in s[..n]
    ensures key(c) <= key(s[i])
  {
    var j :| 0 <= j < |s| && s[j] == c;
    assert key(s[j]) <= key(s[i]);
  }

  /** Python's `xs[:k]`: a negative bound counts from the end. */
  function PrefixSlice<T>(xs: seq<T>, k: int): (r: seq<T>)
    ensures |r| <= |xs|
    ensures k >= 0 ==> |r| == if k < |xs| then k else |xs|
    ensures k < 0 ==> |r| == if |xs| + k > 0 then |xs| + k else 0
    ensures r == xs[..|r|]
  {
    if k >= 0 then (if k < |xs| then xs[..k] else xs)
    else if |xs| + k > 0 then xs[..|xs| + k] else []
  }
}

=== FILE: stop_requests.dfy ===
/** The invocation stop requests of the database service: the service in
    `service/invocation_stop_requests_service.py` and the routes of
    `router/invocation_stop_requests_router.py`.

    The table is the list of rows in insertion order; `invocation_id` is its
    primary key. Times are seconds, and the current time is an input. */
module StopRequests {
  import opened Wrappers
  import Seqs
  import Http

  const STOP_REQUEST_TTL_SECONDS: real := 3600.0

  datatype StopRequest = StopRequest(invocationId: string, createdAt: real, expiresAt: real)

  type Table = seq<StopRequest>

  /** The primary key holds: no two rows share an invocation id. */
  predicate UniqueIds(t: Table) {
    forall i, j :: 0 <= i < j < |t| ==> t[i].invocationId != t[j].invocationId
  }

  predicate HasId(r: StopRequest, invocationId: string) {
    r.invocationId == invocationId
  }

  // ----- Service -----

  /** `create_stop_request`: a row created now that expires an hour later.
      Adding a second row for the same id violates the primary key. */
  function CreateStopRequest(t: Table, invocationId: string, now: real): (r: Result<(Table, StopRequest)>)
    ensures r.Failure? <==> exists i :: 0 <= i < |t| && t[i].invocationId == invocationId
    ensures r.Success? ==>
      && r.value.1 == StopRequest(invocationId, now, now + STOP_REQUEST_TTL_SECONDS)
      && r.value.0 == t + [r.value.1]
  {
    var k := Seqs.IndexWhere((row: StopRequest) => HasId(row, invocationId), t);
    if k < |t| then Failure("duplicate key value violates unique constraint")
    else
      var row := StopRequest(invocationId, now, now + STOP_REQUEST_TTL_SECONDS);
      Success((t + [row], row))
  }

  /** `get_stop_request_by_invocation_id`: the row for the id, expired or not. */
  function GetStopRequest(t: Table, invocationId: string): (r: Option<StopRequest>)
    ensures r.Some? <==> exists i :: 0 <= i < |t| && t[i].invocationId == invocationId
    ensures r.Some? ==> r.value in t && r.value.invocationId == invocationId
  {
    var k := Seqs.IndexWhere((row: StopRequest) => HasId(row, invocationId), t);
    if k < |t| then Some(t[k]) else None
  }

  /** `delete_stop_request_by_invocation_id`: False and no change when there
      is no row for the id; otherwise the row is removed and True returned. */
  function DeleteStopRequest(t: Table, invocationId: string): (r: (Table, bool))
    ensures r.1 <==> GetStopRequest(t, invocationId).Some?
    ensures !r.1 ==> r.0 == t
    ensures r.1 ==> r.0 == Seqs.Filter((row: StopRequest) => !HasId(row, invocationId), t)
  {
    if GetStopRequest(t, invocationId).None? then (t, false)
    else (Seqs.Filter((row: StopRequest) => !HasId(row, invocationId), t), true)
  }

  predicate Expired(r: StopRequest, now: real) {
    r.expiresAt <= now
  }

  predicate Live(r: StopRequest, now: real) {
    !Expired(r, now)
  }

  /** `delete_expired_stop_requests`: remove the rows whose expiry is not
      after now, and return how many there were. */
  function DeleteExpiredStopRequests(t: Table, now: real): (r: (Table, nat))
    ensures r.0 == Seqs.Filter((row: StopRequest) => Live(row, now), t)
    ensures r.1 == |t| - |r.0|
  {
    var kept := Seqs.Filter((row: StopRequest) => Live(row, now), t);
    (kept, |t| - |kept|)
  }

  /** The expiry sweep removes exactly the expired rows: it returns their
      number, every row it keeps is live, and every live row is kept. */
  lemma DeleteExpiredExactly(t: Table, now: real)
    ensures var (kept, count) := DeleteExpiredStopRequests(t, now);
      && count == Seqs.CountIf((row: StopRequest) => Expired(row, now), t)
      && (forall i :: 0 <= i < |kept| ==> !Expired(kept[i], now))
      && (forall i :: 0 <= i < |t| && !Expired(t[i], now) ==> t[i] in kept)
  {
    var live := (row: StopRequest) => Live(row, now);
    Seqs.FilterDropped(live, (row: StopRequest) => Expired(row, now), t);
    Seqs.FilterMultiset(live, t);
    forall i | 0 <= i < |t| && !Expired(t[i], now) ensures t[i] in Seqs.Filter(live, t) {
      assert t[i] in t && live(t[i]);
    }
  }

  /** A second sweep at the same time finds nothing. */
  lemma DeleteExpiredIdempotent(t: Table, now: real)
    ensures var (kept, _) := DeleteExpiredStopRequests(t, now);
      DeleteExpiredStopRequests(kept, now) == (kept, 0)
  {
    var kept := DeleteExpiredStopRequests(t, now).0;
    Seqs.FilterAll((row: StopRequest) => Live(row, now), kept);
  }

  /** A row that has expired is still returned by the get: the lookup does
      not compare with the clock. */
  lemma GetIgnoresExpiry(t: Table, invocationId: string, now: real)
    requires UniqueIds(t)
    requires GetStopRequest(t, invocationId).Some?
    ensures GetStopRequest(DeleteExpiredStopRequests(t, now).0, invocationId).Some?
        <==> !Expired(GetStopRequest(t, invocationId).value, now)
  {
    var live := (row: StopRequest) => Live(row, now);
    var kept := Seqs.Filter(live, t);
    var r := GetStopRequest(t, invocationId).value;
    Seqs.FilterMultiset(live, t);
    if !Expired(r, now) {
      assert r in kept;
      var i :| 0 <= i < |kept| && kept[i] == r;
      assert kept[i].invocationId == invocationId;
    }
    if GetStopRequest(kept, invocationId).Some? {
      var s := GetStopRequest(kept, invocationId).value;
      assert s in multiset(t);
      var i :| 0 <= i < |t| && t[i] == r;
      var j :| 0 <= j < |t| && t[j] == s;
      assert i == j;
      assert live(s);
    }
  }

  // ----- Routes -----

  const STOP_REQUEST_NOT_FOUND := "Stop request not found"
  const STOP_REQUEST_DELETED := "Stop request deleted successfully"

  /** `POST /invocation-stop-requests`: an existing request is returned as it
      is; otherwise one is created. */
  function RouteCreate(t: Table, invocationId: string, now: real): (r: (Table, Http.Response<StopRequest>))
    ensures UniqueIds(t) ==> UniqueIds(r.0)
    ensures r.1.Ok? && r.1.body.invocationId == invocationId
    ensures GetStopRequest(t, invocationId).Some? ==> r == (t, Http.Ok(GetStopRequest(t, invocationId).value))
    ensures GetStopRequest(t, invocationId).None? ==>
      r == (t + [StopRequest(invocationId, now, now + STOP_REQUEST_TTL_SECONDS)],
            Http.Ok(StopRequest(invocationId, now, now + STOP_REQUEST_TTL_SECONDS)))
  {
    match GetStopRequest(t, invocationId)
    case Some(existing) => (t, Http.Ok(existing))
    case None =>
      var created := CreateStopRequest(t, invocationId, now).value;
      (created.0, Http.Ok(created.1))
  }

  /** `GET /invocation-stop-requests/{id}`. */
  function RouteGet(t: Table, invocationId: string): (r: Http.Response<StopRequest>)
    ensures r.HttpError? <==> GetStopRequest(t, invocationId).None?
    ensures r.HttpError? ==> r == Http.HttpError(Http.NOT_FOUND, STOP_REQUEST_NOT_FOUND)
    ensures r.Ok? ==> r.body.invocationId == invocationId
  {
    match GetStopRequest(t, invocationId)
    case Some(row) => Http.Ok(row)
    case None => Http.HttpError(Http.NOT_FOUND, STOP_REQUEST_NOT_FOUND)
  }

  /** `DELETE /invocation-stop-requests/{id}`. */
  function RouteDelete(t: Table, invocationId: string): (r: (Table, Http.Response<string>))
    ensures r.1.HttpError? <==> GetStopRequest(t, invocationId).None?
    ensures r.1.HttpError? ==> r == (t, Http.HttpError(Http.NOT_FOUND, STOP_REQUEST_NOT_FOUND))
    ensures r.1.Ok? ==> r.1.body == STOP_REQUEST_DELETED
  {
    var (t', deleted) := DeleteStopRequest(t, invocationId);
    if !deleted then (t, Http.HttpError(Http.NOT_FOUND, STOP_REQUEST_NOT_FOUND))
    else (t', Http.Ok(STOP_REQUEST_DELETED))
  }

  /** Creating twice is creating once: the second call returns the first
      call's record and adds no row. */
  lemma CreateIsIdempotent(t: Table, invocationId: string, now: real, later: real)
    ensures var (t1, r1) := RouteCreate(t, invocationId, now);
      RouteCreate(t1, invocationId, later) == (t1, r1)
  {
    var (t1, r1) := RouteCreate(t, invocationId, now);
    if GetStopRequest(t, invocationId).None? {
      var row := StopRequest(invocationId, now, now + STOP_REQUEST_TTL_SECONDS);
      assert t1 == t + [row];
      assert GetStopRequest(t1, invocationId) == Some(row) by {
        var p := (x: StopRequest) => HasId(x, invocationId);
        var k := Seqs.IndexWhere(p, t1);
        forall j | 0 <= j < |t| ensures !p(t1[j]) {
          assert t1[j] == t[j];
        }
        assert p(t1[|t|]);
        assert k == |t|;
      }
    }
  }

  /** After a create the request can be read, and it expires an hour after
      it was made (or is the older request that was already there). */
  lemma CreateThenGet(t: Table, invocationId: string, now: real)
    ensures var (t1, r1) := RouteCreate(t, invocationId, now);
      RouteGet(t1, invocationId) == r1
  {
    CreateIsIdempotent(t, invocationId, now, now);
  }

  /** A successful delete removes the request, so a second delete and a get
      both give 404: delete is not idempotent at this layer. */
  lemma DeleteTwiceIsNotFound(t: Table, invocationId: string)
    requires GetStopRequest(t, invocationId).Some?
    ensures var (t1, r1) := RouteDelete(t, invocationId);
      && r1 == Http.Ok(STOP_REQUEST_DELETED)
      && RouteGet(t1, invocationId) == Http.HttpError(Http.NOT_FOUND, STOP_REQUEST_NOT_FOUND)
      && RouteDelete(t1, invocationId).1 == Http.HttpError(Http.NOT_FOUND, STOP_REQUEST_NOT_FOUND)
  {
    var keep := (row: StopRequest) => !HasId(row, invocationId);
    var t1 := Seqs.Filter(keep, t);
    assert forall i :: 0 <= i < |t1| ==> t1[i].invocationId != invocationId by {
      forall i | 0 <= i < |t1| ensures t1[i].invocationId != invocationId {
        assert keep(t1[i]);
      }
    }
  }
}

=== FILE: stop_signal_waiter.dfy ===
/** The stop-signal watcher: a polling loop over an external condition with an
    elapsed-time budget that persists across runs until it is reset.

    The condition is an oracle `cond: nat -> bool`, read as "the answer of the
    n-th poll"; the sleep between polls is time passing, which the model
    accounts for only through `timeElapsed`. */
module StopSignalWaiter {

  datatype Waiter = Waiter(timeElapsed: real, maxTime: real, pollInterval: real)

  /** A freshly constructed waiter has spent none of its budget. */
  function NewWaiter(maxTime: real, pollInterval: real): (w: Waiter)
    ensures w.timeElapsed == 0.0 && w.maxTime == maxTime && w.pollInterval == pollInterval
  {
    Waiter(0.0, maxTime, pollInterval)
  }

  /** The least integer not below `x`. */
  function Ceil(x: real): (c: int)
    ensures c as real >= x && (c - 1) as real < x
  {
    if x == x.Floor as real then x.Floor else x.Floor + 1
  }

  /** The number of polls the waiter may still make before its budget is
      spent: the loop `while timeElapsed < maxTime` runs that many times when
      every poll answers false. */
  function Budget(w: Waiter): nat
    requires w.pollInterval > 0.0
  {
    if w.timeElapsed < w.maxTime then
      var c := Ceil((w.maxTime - w.timeElapsed) / w.pollInterval);
      if c < 0 then 0 else c
    else 0
  }

  function Advance(w: Waiter): Waiter {
    w.(timeElapsed := w.timeElapsed + w.pollInterval)
  }

  /** One false poll spends exactly one unit of budget. */
  lemma BudgetStep(w: Waiter)
    requires w.pollInterval > 0.0 && w.timeElapsed < w.maxTime
    ensures Budget(w) >= 1 && Budget(Advance(w)) == Budget(w) - 1
  {
    var p := w.pollInterval;
    var a := w.maxTime - w.timeElapsed;
    var x := a / p;
    var x' := (a - p) / p;
    assert w.maxTime - (w.timeElapsed + p) == a - p;
    DivShift(a, p);
    assert x' == x - 1.0;
    assert x > 0.0 by { DivPositive(a, p); }
    var c := Ceil(x);
    assert c >= 1;
    if w.timeElapsed + p < w.maxTime {
      var c' := Ceil(x');
      assert c' as real >= x - 1.0 && (c' - 1) as real < x - 1.0;
      assert c' == c - 1;
    } else {
      DivAtMostOne(a, p);
      assert c == 1;
    }
  }

  lemma DivShift(a: real, p: real)
    requires p > 0.0
    ensures (a - p) / p == a / p - 1.0
  {
    var d := (a - p) / p - (a / p - 1.0);
    assert ((a - p) / p) * p == a - p;
    assert (a / p) * p == a;
    assert d * p == 0.0;
  }

  lemma DivPositive(a: real, p: real)
    requires p > 0.0 && a > 0.0
    ensures a / p > 0.0
  {
  }

  lemma DivAtMostOne(a: real, p: real)
    requires p > 0.0 && a <= p
    ensures a / p <= 1.0
  {
    assert (a / p) * p == a;
  }

  /** The waiter after `n` false polls. */
  function AdvanceBy(w: Waiter, n: nat): (w': Waiter)
    ensures w'.maxTime == w.maxTime && w'.pollInterval == w.pollInterval
    decreases n
  {
    if n == 0 then w else AdvanceBy(Advance(w), n - 1)
  }

  /** `n` false polls add exactly `n` poll intervals to the elapsed time. */
  lemma {:induction false} AdvanceByElapsed(w: Waiter, n: nat)
    ensures AdvanceBy(w, n).timeElapsed == w.timeElapsed + n as real * w.pollInterval
    decreases n
  {
    if n > 0 {
      AdvanceByElapsed(Advance(w), n - 1);
      assert (n - 1) as real * w.pollInterval + w.pollInterval == n as real * w.pollInterval;
    }
  }

  datatype RunResult = RunResult(stopped: bool, waiter: Waiter, polls: nat)

  /** `StopSignalWaiter.run`: poll from poll number `first` on; return true on
      the first true answer, false once `timeElapsed` reaches `maxTime`.
      `polls` counts the evaluations of the condition. A non-positive poll
      interval would make the loop spin forever, so it is excluded. */
  function Run(w: Waiter, cond: nat -> bool, first: nat): (r: RunResult)
    requires w.pollInterval > 0.0
    ensures r.waiter.maxTime == w.maxTime && r.waiter.pollInterval == w.pollInterval
    ensures r.polls <= Budget(w)
    ensures forall n :: first <= n < first + r.polls - 1 ==> !cond(n)
    ensures r.stopped ==> r.polls >= 1 && cond(first + r.polls - 1)
    ensures r.stopped ==> r.waiter == AdvanceBy(w, r.polls - 1)
    ensures r.stopped ==> r.waiter.timeElapsed < r.waiter.maxTime
    ensures !r.stopped ==> r.polls == Budget(w) && (r.polls > 0 ==> !cond(first + r.polls - 1))
    ensures !r.stopped ==> r.waiter == AdvanceBy(w, r.polls)
    ensures !r.stopped ==> r.waiter.timeElapsed >= r.waiter.maxTime
    decreases Budget(w)
  {
    if w.timeElapsed < w.maxTime then
      BudgetStep(w);
      if cond(first) then RunResult(true, w, 1)
      else
        var rest := Run(Advance(w), cond, first + 1);
        rest.(polls := rest.polls + 1)
    else RunResult(false, w, 0)
  }

  /** `reset`: zero the elapsed time, keep the limits. */
  function Reset(w: Waiter): (w': Waiter)
    ensures w'.timeElapsed == 0.0
    ensures w'.maxTime == w.maxTime && w'.pollInterval == w.pollInterval
  {
    w.(timeElapsed := 0.0)
  }

  /** The polls of a run that answered false: all of them, but the last
      when the run stopped. */
  function FalsePolls(r: RunResult): nat {
    if r.stopped && r.polls >= 1 then r.polls - 1 else r.polls
  }

  /** Each false poll advances the elapsed time by exactly one poll interval;
      the true poll that ends a run advances nothing. */
  lemma RunElapsed(w: Waiter, cond: nat -> bool, first: nat)
    requires w.pollInterval > 0.0
    ensures var r := Run(w, cond, first);
      r.waiter.timeElapsed == w.timeElapsed + FalsePolls(r) as real * w.pollInterval
  {
    var r := Run(w, cond, first);
    assert r.waiter == AdvanceBy(w, FalsePolls(r));
    ElapsedAfter(w, r.waiter, FalsePolls(r));
  }

  lemma ElapsedAfter(w: Waiter, w': Waiter, n: nat)
    requires w' == AdvanceBy(w, n)
    ensures w'.timeElapsed == w.timeElapsed + n as real * w.pollInterval
  {
    AdvanceByElapsed(w, n);
  }

  /** A poll that answers true ends the run at once: no sleep, no time spent. */
  lemma StopObservedImmediately(w: Waiter, cond: nat -> bool, first: nat)
    requires w.pollInterval > 0.0 && w.timeElapsed < w.maxTime && cond(first)
    ensures Run(w, cond, first) == RunResult(true, w, 1)
  {
  }

  /** From a fresh (or reset) waiter the condition is polled at most
      ceil(maxTime / pollInterval) times. */
  lemma PollBound(w: Waiter, cond: nat -> bool, first: nat)
    requires w.pollInterval > 0.0 && w.timeElapsed == 0.0
    ensures Run(w, cond, first).polls <= if w.maxTime <= 0.0 then 0 else Ceil(w.maxTime / w.pollInterval)
  {
    assert (w.maxTime - w.timeElapsed) / w.pollInterval == w.maxTime / w.pollInterval;
  }

  /** `run` never resets the budget: once a run gives up, the next run on the
      same waiter gives up without evaluating the condition at all. */
  lemma SpentBudgetIsShared(w: Waiter, cond: nat -> bool, cond': nat -> bool, first: nat, first': nat)
    requires w.pollInterval > 0.0
    requires !Run(w, cond, first).stopped
    ensures Run(Run(w, cond, first).waiter, cond', first') == RunResult(false, Run(w, cond, first).waiter, 0)
  {
  }

  /** After `reset` a waiter whose budget was spent polls again. */
  lemma ResetRestoresBudget(w: Waiter)
    requires w.pollInterval > 0.0 && w.maxTime > 0.0
    ensures Budget(Reset(w)) >= 1
  {
  }
}

=== FILE: text.dfy ===
/** String helpers shared by the model: Python's argument-less `str.split()`,
    JavaScript's `String.prototype.trim`, joining with a separator, splitting
    on one character, prefixes and suffixes, and decimal rendering. */
module Text {

  /** Characters Python's `str.isspace` accepts (the separators of `str.split()`). */
  predicate IsPySpace(c: char) {
    var n := c as int;
    n == 0x20 || (0x09 <= n <= 0x0D) || (0x1C <= n <= 0x1F) || n == 0x85 || n == 0xA0
    || n == 0x1680 || (0x2000 <= n <= 0x200A) || n == 0x2028 || n == 0x2029
    || n == 0x202F || n == 0x205F || n == 0x3000
  }

  /** Characters JavaScript's `trim` removes (WhiteSpace and LineTerminator). */
  predicate IsJsSpace(c: char) {
    var n := c as int;
    n == 0x20 || (0x09 <= n <= 0x0D) || n == 0xA0 || n == 0xFEFF
    || n == 0x1680 || (0x2000 <= n <= 0x200A) || n == 0x2028 || n == 0x2029
    || n == 0x202F || n == 0x205F || n == 0x3000
  }

  predicate AllPySpace(s: string) {
    forall i :: 0 <= i < |s| ==> IsPySpace(s[i])
  }

  predicate NoPySpace(s: string) {
    forall i :: 0 <= i < |s| ==> !IsPySpace(s[i])
  }

  /** A word as `str.split()` produces it: non-empty, no whitespace inside. */
  predicate IsWord(w: string) {
    |w| > 0 && NoPySpace(w)
  }

  predicate AllWords(ws: seq<string>) {
    forall i :: 0 <= i < |ws| ==> IsWord(ws[i])
  }

  function Flush(cur: string): seq<string> {
    if cur == [] then [] else [cur]
  }

  /** The scan behind `str.split()`: `cur` is the word read so far. */
  function SplitFrom(s: string, cur: string): (ws: seq<string>)
    decreases |s|
  {
    if s == [] then Flush(cur)
    else if IsPySpace(s[0]) then Flush(cur) + SplitFrom(s[1..], [])
    else SplitFrom(s[1..], cur + [s[0]])
  }

  /** Python's `s.split()` with no argument. */
  function PySplit(s: string): seq<string> {
    SplitFrom(s, [])
  }

  lemma {:induction false} SplitFromWords(s: string, cur: string)
    requires NoPySpace(cur)
    ensures AllWords(SplitFrom(s, cur))
    decreases |s|
  {
    if s == [] {
    } else if IsPySpace(s[0]) {
      SplitFromWords(s[1..], []);
    } else {
      SplitFromWords(s[1..], cur + [s[0]]);
    }
  }

  /** Every piece `str.split()` returns is a non-empty run of non-space characters. */
  lemma PySplitWords(s: string)
    ensures AllWords(PySplit(s))
  {
    SplitFromWords(s, []);
  }

  lemma {:induction false} SplitFromAllSpace(s: string)
    requires AllPySpace(s)
    ensures SplitFrom(s, []) == []
    decreases |s|
  {
    if s != [] {
      SplitFromAllSpace(s[1..]);
    }
  }

  /** Whitespace-only (or empty) text has no words. */
  lemma PySplitAllSpace(s: string)
    requires AllPySpace(s)
    ensures PySplit(s) == []
  {
    SplitFromAllSpace(s);
  }

  lemma {:induction false} SplitFromAppend(x: string, y: string, cur: string)
    requires |x| > 0 && IsPySpace(x[|x| - 1])
    ensures SplitFrom(x + y, cur) == SplitFrom(x, cur) + SplitFrom(y, [])
    decreases |x|
  {
    assert (x + y)[0] == x[0];
    assert (x + y)[1..] == x[1..] + y;
    if |x| == 1 {
      assert x[1..] == [];
    } else if IsPySpace(x[0]) {
      SplitFromAppend(x[1..], y, []);
    } else {
      SplitFromAppend(x[1..], y, cur + [x[0]]);
    }
  }

  /** Splitting text whose first part ends in whitespace splits each part on its own. */
  lemma PySplitAppend(x: string, y: string)
    requires |x| > 0 && IsPySpace(x[|x| - 1])
    ensures PySplit(x + y) == PySplit(x) + PySplit(y)
  {
    SplitFromAppend(x, y, []);
  }

  lemma {:induction false} SplitFromPlain(t: string, rest: string, cur: string)
    requires NoPySpace(t)
    ensures SplitFrom(t + rest, cur) == SplitFrom(rest, cur + t)
    decreases |t|
  {
    if t == [] {
      assert t + rest == rest;
      assert cur + t == cur;
    } else {
      assert (t + rest)[0] == t[0];
      assert (t + rest)[1..] == t[1..] + rest;
      SplitFromPlain(t[1..], rest, cur + [t[0]]);
      assert cur + [t[0]] + t[1..] == cur + t;
    }
  }

  /** A word followed by a space splits to that word alone. */
  lemma WordSpaceSplit(w: string)
    requires IsWord(w)
    ensures PySplit(w + " ") == [w]
  {
    SplitFromPlain(w, " ", []);
    assert [] + w == w;
    assert " "[1..] == [];
  }

  lemma {:induction false} SplitFromSpaceTail(a: string, sp: string, cur: string)
    requires sp != [] && AllPySpace(sp)
    ensures SplitFrom(a + sp, cur) == SplitFrom(a, cur)
    decreases |a|
  {
    if a == [] {
      assert a + sp == sp;
      SplitFromAllSpace(sp[1..]);
    } else {
      assert (a + sp)[0] == a[0];
      assert (a + sp)[1..] == a[1..] + sp;
      if IsPySpace(a[0]) {
        SplitFromSpaceTail(a[1..], sp, []);
      } else {
        SplitFromSpaceTail(a[1..], sp, cur + [a[0]]);
      }
    }
  }

  /** Trailing whitespace adds no word. */
  lemma PySplitSpaceTail(a: string, sp: string)
    requires sp != [] && AllPySpace(sp)
    ensures PySplit(a + sp) == PySplit(a)
  {
    SplitFromSpaceTail(a, sp, []);
  }

  /** Python's `sep.join(parts)`. */
  function Join(parts: seq<string>, sep: string): string {
    if parts == [] then []
    else if |parts| == 1 then parts[0]
    else parts[0] + sep + Join(parts[1..], sep)
  }

  /** Joining words with single spaces and splitting on whitespace gives
      the words back. */
  lemma {:induction false} JoinSplitWords(ws: seq<string>)
    requires AllWords(ws)
    ensures PySplit(Join(ws, " ")) == ws
    decreases |ws|
  {
    if |ws| == 1 {
      SplitFromPlain(ws[0], [], []);
      assert ws[0] + [] == ws[0];
      assert [] + ws[0] == ws[0];
    } else if |ws| > 1 {
      var rest := Join(ws[1..], " ");
      assert Join(ws, " ") == (ws[0] + " ") + rest;
      WordSpaceSplit(ws[0]);
      PySplitAppend(ws[0] + " ", rest);
      JoinSplitWords(ws[1..]);
      assert [ws[0]] + ws[1..] == ws;
    }
  }

  /** Python's `s.split(c)` for a one-character separator: always one more
      piece than there are separators. */
  function SplitChar(s: string, c: char, cur: string): seq<string>
    decreases |s|
  {
    if s == [] then [cur]
    else if s[0] == c then [cur] + SplitChar(s[1..], c, [])
    else SplitChar(s[1..], c, cur + [s[0]])
  }

  predicate Excludes(s: string, c: char) {
    forall i :: 0 <= i < |s| ==> s[i] != c
  }

  lemma {:induction false} SplitCharPlain(t: string, rest: string, c: char, cur: string)
    requires Excludes(t, c)
    ensures SplitChar(t + rest, c, cur) == SplitChar(rest, c, cur + t)
    decreases |t|
  {
    if t == [] {
      assert t + rest == rest;
      assert cur + t == cur;
    } else {
      assert (t + rest)[0] == t[0];
      assert (t + rest)[1..] == t[1..] + rest;
      SplitCharPlain(t[1..], rest, c, cur + [t[0]]);
      assert cur + [t[0]] + t[1..] == cur + t;
    }
  }

  /** Splitting a join on the separator gives the parts back, provided no
      part contains the separator. */
  lemma {:induction false} SplitJoinRoundTrip(parts: seq<string>, c: char)
    requires |parts| > 0
    requires forall i :: 0 <= i < |parts| ==> Excludes(parts[i], c)
    ensures SplitChar(Join(parts, [c]), c, []) == parts
  {
    if |parts| == 1 {
      SplitCharPlain(parts[0], [], c, []);
      assert parts[0] + [] == parts[0];
    } else {
      var tail := Join(parts[1..], [c]);
      assert Join(parts, [c]) == parts[0] + ([c] + tail);
      SplitCharPlain(parts[0], [c] + tail, c, []);
      assert [] + parts[0] == parts[0];
      assert ([c] + tail)[0] == c;
      assert ([c] + tail)[1..] == tail;
      assert SplitChar([c] + tail, c, parts[0]) == [parts[0]] + SplitChar(tail, c, []);
      SplitJoinRoundTrip(parts[1..], c);
      assert [parts[0]] + parts[1..] == parts;
    }
  }

  predicate StartsWith(s: string, prefix: string) {
    |prefix| <= |s| && s[..|prefix|] == prefix
  }

  predicate EndsWith(s: string, suffix: string) {
    |suffix| <= |s| && s[|s| - |suffix|..] == suffix
  }

  /** JavaScript's `trimStart`. */
  function TrimStart(s: string): (r: string)
    ensures |r| <= |s|
    ensures r == [] || !IsJsSpace(r[0])
    decreases |s|
  {
    if s != [] && IsJsSpace(s[0]) then TrimStart(s[1..]) else s
  }

  /** JavaScript's `trimEnd`. */
  function TrimEnd(s: string): (r: string)
    ensures |r| <= |s|
    decreases |s|
  {
    if s != [] && IsJsSpace(s[|s| - 1]) then TrimEnd(s[..|s| - 1]) else s
  }

  /** JavaScript's `trim`. */
  function Trim(s: string): string {
    TrimEnd(TrimStart(s))
  }

  predicate AllJsSpace(s: string) {
    forall i :: 0 <= i < |s| ==> IsJsSpace(s[i])
  }

  lemma {:induction false} TrimStartEmpty(s: string)
    ensures TrimStart(s) == [] <==> AllJsSpace(s)
    decreases |s|
  {
    if s != [] && IsJsSpace(s[0]) {
      TrimStartEmpty(s[1..]);
      assert AllJsSpace(s) <==> AllJsSpace(s[1..]) by {
        if AllJsSpace(s[1..]) {
          forall i | 0 <= i < |s| ensures IsJsSpace(s[i]) {
            if i > 0 { assert s[i] == s[1..][i - 1]; }
          }
        }
      }
    }
  }

  lemma {:induction false} TrimEndOfNonSpaceStart(s: string)
    requires s != [] && !IsJsSpace(s[0])
    ensures TrimEnd(s) != []
    decreases |s|
  {
    if IsJsSpace(s[|s| - 1]) {
      assert |s| > 1;
      TrimEndOfNonSpaceStart(s[..|s| - 1]);
    }
  }

  /** Trimming leaves nothing exactly when the text is all whitespace. */
  lemma TrimEmptyIffBlank(s: string)
    ensures Trim(s) == [] <==> AllJsSpace(s)
  {
    TrimStartEmpty(s);
    var t := TrimStart(s);
    if t != [] {
      assert !IsJsSpace(t[0]);
      TrimEndOfNonSpaceStart(t);
    }
  }

  /** Trimming text that neither starts nor ends with whitespace changes nothing. */
  lemma TrimNoop(s: string)
    requires s != [] ==> !IsJsSpace(s[0]) && !IsJsSpace(s[|s| - 1])
    ensures Trim(s) == s
  {
  }

  function DigitChar(d: nat): char
    requires d < 10
  {
    ['0', '1', '2', '3', '4', '5', '6', '7', '8', '9'][d]
  }

  /** Decimal rendering of a natural number, as `str(n)` / `${n}` print it. */
  function NatToString(n: nat): (r: string)
    ensures |r| > 0
    decreases n
  {
    if n < 10 then [DigitChar(n)] else NatToString(n / 10) + [DigitChar(n % 10)]
  }

  /** Decimal rendering of an integer, with a leading '-' when negative. */
  function IntToString(n: int): string {
    if n < 0 then "-" + NatToString(-n) else NatToString(n)
  }
}

=== FILE: wrappers.dfy ===
/** Failure-carrying values shared by every module of the model: `Option` for
    Python's `None`/JavaScript's `undefined`, `Result` for an operation that
    either returns a value or raises with an error text. */
module Wrappers {

  datatype Option<+T> = None | Some(value: T) {

    /** The value, or `default` when there is none (Python's `x or default`
        for a value that is never falsy). */
    function GetOr(default: T): T {
      match this
      case Some(v) => v
      case None => default
    }
  }

  datatype Result<+T> = Success(value: T) | Failure(error: string) {

    predicate IsFailure() {
      Failure?
    }

    function PropagateFailure<U>(): Result<U>
      requires Failure?
    {
      Failure(error)
    }

    function Extract(): T
      requires Success?
    {
      value
    }
  }
}
